=== FILE: README.md ===
# ScheduleShare in Dafny

A model of the deterministic core of ScheduleShare, an iOS app that reads an event off a
photo or a typed text, keeps a list of calendar events, plans a day's route between them,
and shares them. The photo is read by OCR, and the event and the route come from a
language model. All of that is outside the model. What is inside is the data handling
around those calls:

- **Route-plan pipeline.** The JSON cleaner, the decoding of the planner's reply, and the
  attachment of legs to events. Also the fixed fallback plan, and the empty-input
  short-circuit. The planning view's copy of the plan, its landmark coordinate tables,
  its minute formatter and its "thinking" step cycle are covered too.
- **Event-extraction pipeline.** The keyword fallback extractor. The mapping of a decoded
  JSON reply to an extracted-event record. The routing of errors to failures or
  fallbacks. The outer wrapper, which always yields a record. The empty-text guard of the
  text recogniser.
- **Event forms.** The year-rollover date correction, form population, the create guards
  and record construction of both creation views, the edit round trip of the detail
  view, and the save actions of the form sheet and the details view.
- **Event collection.** Append, update-by-id, delete-by-id and clear on the app state.
  The day, week and month window filters, sorted by start. The share-range selection and
  its toggle. The calendar view's choice of which event its sheet shows, its day listing,
  and its update and delete bookkeeping.
- **Serialisers and guards.** The iCalendar export, the share text, the share link, the
  text summary and the HTML email body. The sharing dispatch with its completion
  outcomes. The permission-then-lookup guard order of the native event store.

## Conventions

- Instants are `int` seconds.
- Calendar arithmetic is a `Calendar` value of total functions (module `Civil`). It
  covers the start of a day, the next day/week/month, the start of a week or month, and
  the conversion between instants and civil dates.
- Clocks, identifiers, the language model's outcome and JSON text parsing are
  parameters. So are the date formatters and percent-encoding.
- Strings are sequences of Unicode scalars.
- Swift's `Int` division (toward zero) is written out as `Models.TruncDiv`. Swift's
  `Int(Double)` truncation is written out as `Routes.Truncate`.
- Where the code calls the native store, the model records the call (`NativeSave`,
  `NativeUpdate`, `NativeDelete`) or threads a store of native identifiers through.

## Behaviour worth knowing

- `cleanJsonString` is idempotent only on outputs that begin with `{` and end with `}`
  (`Sanitizer.CleanIdempotentOnObjects`). `Sanitizer.CleanNotIdempotent` shows a
  brace-less text that a second cleaning shortens further.
- The event extractor parses the model's reply without cleaning it. A fenced reply
  therefore takes the fallback path (`Extraction.FencedReplyFallsBack`).
- The year rollover of extracted dates lives in the creation view, not in the extractor.
- The route planner is modelled with the corrected cleaner (`Sanitizer.CleanJsonSafe`).
  `RoutePlanner.ParsePlanAsWritten` uses the cleaner as written; it is defined only where
  that cleaner does not stop the program, and there it agrees with `RoutePlanner.ParsePlan`.

## Model

| member | source | states |
|---|---|---|
| Strings.TrimDropsOnlyWhitespace | ScheduleShare/AIRoutePlanner.swift:235 | trimming keeps a contiguous middle slice and removes only whitespace-and-newline characters on either side |
| Strings.TrimIdempotent | ScheduleShare/AIRoutePlanner.swift:235 | trimming a trimmed text changes nothing |
| Strings.Lines | ScheduleShare/AITextExtractor.swift:151 | splitting on newlines gives one more component than there are newline characters, and no component holds a newline |
| Strings.JoinEmptyIff | ScheduleShare/TextExtractor.swift:35-43 | a join with a non-empty separator is empty exactly when there are no parts or the only part is empty |
| Strings.NatToStringRoundTrip | ScheduleShare/SharingManager.swift:282 | the decimal text of a count reads back as that count |
| Seqs.SortBy | ScheduleShare/Models.swift:409 | sorting by a key gives an ordered permutation of its input |
| Seqs.FilterCount | ScheduleShare/Models.swift:407-409 | a filter keeps each element that passes as often as it occurs and drops the others |
| Models.EditedFrom | ScheduleShare/Models.swift:30-39 | the edit constructor keeps id, extracted info and native identifier, and takes every field that is given |
| Models.MakeEvent | ScheduleShare/Models.swift:18-27 | the event constructor stores each argument in its own field |
| Models.EditedFromNothingIsCopy | ScheduleShare/Models.swift:30-39 | editing with no arguments gives back the same event |
| Models.EditedFromCannotClear | ScheduleShare/Models.swift:34-35 | a location or notes that is present cannot be cleared through the edit constructor |
| Models.EditedFromComposes | ScheduleShare/Models.swift:30-39 | two edits equal one edit in which the later arguments win |
| Models.MakeExtractedInfoDefaults | ScheduleShare/Models.swift:51-59 | an extracted-event record built from text alone has nil fields and confidence 0.5 |
| Models.MakeExtractedInfo | ScheduleShare/Models.swift:51-59 | the extracted-event constructor stores each argument in its own field |
| Models.ModeRawRoundTrip | ScheduleShare/Models.swift:78-84 | every transportation mode reads back from its raw value, and a raw value decodes only to its own mode |
| Models.RawValue | ScheduleShare/Models.swift:78-84 | a mode's raw value decodes back to that mode |
| Models.ModeFromRaw | ScheduleShare/Models.swift:78-84 | a text decodes to a mode exactly when it is one of the six raw values |
| Models.DisplayName | ScheduleShare/Models.swift:86-95 | the display name is the raw value with its first letter in upper case |
| Models.FormattedTravelTimeReadsBack | ScheduleShare/Models.swift:131-140 | the formatted travel time reads back as the whole minutes of the travel time, in both the "m" and the "h m" form |
| Models.FormattedTravelTimeHourSplit | ScheduleShare/Models.swift:131-140 | from 60 minutes on, the text is "<h>h <r>m" with r below 60 and 60h + r the minute count |
| Models.FormattedTravelTime | ScheduleShare/Models.swift:131-140 | the text ends in "m" and has an hour part exactly when the travel time reaches 60 whole minutes |
| Sanitizer.DropPrefix | ScheduleShare/AIRoutePlanner.swift:219-224 | a prefix is removed once when present, and the text is otherwise unchanged |
| Sanitizer.DropSuffix | ScheduleShare/AIRoutePlanner.swift:225-227 | a suffix is removed once when present, and the text is otherwise unchanged |
| Sanitizer.StripFencesOfFencedBlock | ScheduleShare/AIRoutePlanner.swift:216-227 | a "```json … ```" block loses exactly its fences |
| Sanitizer.StripFencesDropsOnce | ScheduleShare/AIRoutePlanner.swift:219-224 | each fence is stripped at most once |
| Sanitizer.StripFences | ScheduleShare/AIRoutePlanner.swift:216-227 | stripping never lengthens the text, and a trimmed text with no fence at either end is returned as is |
| Sanitizer.CutObject | ScheduleShare/AIRoutePlanner.swift:230-233 | with both braces present, the cut is the span from the first `{` to the last `}`; otherwise the text is kept |
| Sanitizer.CleanJson | ScheduleShare/AIRoutePlanner.swift:215-236 | the cleaned text is no longer than the input and has no surrounding whitespace |
| Sanitizer.CleanJsonSpan | ScheduleShare/AIRoutePlanner.swift:229-235 | with ordered braces, the cleaner returns exactly the inclusive span from the first `{` to the last `}` of the fence-stripped text |
| Sanitizer.CleanJsonWithoutBraces | ScheduleShare/AIRoutePlanner.swift:228-235 | a text lacking either brace is only fence-stripped and trimmed |
| Sanitizer.CleanKeepsBraced | ScheduleShare/AIRoutePlanner.swift:215-236 | a text that already begins with `{` and ends with `}` is returned unchanged |
| Sanitizer.CleanIdempotentOnObjects | ScheduleShare/AIRoutePlanner.swift:215-236 | cleaning is idempotent on outputs that begin with `{` and end with `}` |
| Sanitizer.CleanNotIdempotent | ScheduleShare/AIRoutePlanner.swift:215-236 | a brace-less output can be shortened by a second cleaning |
| Sanitizer.CleanJsonTraps | ScheduleShare/AIRoutePlanner.swift:230-232 | "}{" lies outside the domain of the cleaner as written, because its closed range would be reversed |
| Sanitizer.CleanJsonSafe | ScheduleShare/AIRoutePlanner.swift:215-236 | agrees with the cleaner wherever it is defined, and otherwise only strips fences and trims |
| Sanitizer.CleanJsonSafeKeepsReversedBraces | ScheduleShare/AIRoutePlanner.swift:230-232 | the corrected cleaner returns "}{" unchanged instead of trapping |
| Decoding.Field | ScheduleShare/AITextExtractor.swift:55-58 | a key's value exists exactly when the value is an object holding the key |
| Decoding.AsString | ScheduleShare/AITextExtractor.swift:55-58 | an `as? String` cast succeeds exactly on a string value |
| Decoding.AsDouble | ScheduleShare/AITextExtractor.swift:58 | an `as? Double` cast succeeds exactly on a number or a boolean; a number keeps its value and a boolean becomes 1.0 or 0.0 |
| Decoding.DecodeDouble | ScheduleShare/Models.swift:232 | a `Double` field decodes exactly from a number under its key, which it keeps; a boolean is rejected |
| Decoding.DecodeInt | ScheduleShare/Models.swift:230 | an `Int` field decodes exactly from a whole number within 64-bit range |
| Decoding.DecodeSegmentData | ScheduleShare/Models.swift:226-233 | a leg decodes exactly when all six fields decode, and keeps their values |
| Decoding.DecodeSegments | ScheduleShare/Models.swift:172-176 | an array of legs decodes exactly when every element does, position by position |
| Decoding.DecodeResponse | ScheduleShare/Models.swift:172-176 | the response decodes exactly when the leg array and both totals decode, and it carries their values |
| Decoding.BadSegmentFailsResponse | ScheduleShare/AIRoutePlanner.swift:209-211 | one undecodable leg makes the whole response fail to decode |
| Decoding.TravelTimeExpressionDoesNotDecode | ScheduleShare/Models.swift:230 | a travel time written as the text "18 * 60" does not decode |
| Decoding.FractionalTravelTimeDoesNotDecode | ScheduleShare/Models.swift:230 | a fractional travel time does not decode |
| RoutePlanner.NycCoordinate | ScheduleShare/Models.swift:467-470 | every address resolves to the fixed New York coordinate, keeping the address |
| RoutePlanner.AttachedIndex | ScheduleShare/AIRoutePlanner.swift:176-178 | leg i attaches to event i, or to the last event when i is past the end |
| RoutePlanner.SegmentFor | ScheduleShare/AIRoutePlanner.swift:181-200 | a parsed leg keeps the decoded fields, maps an unknown mode to subway, arrives at the event's start and departs travelTime earlier |
| RoutePlanner.AttachSegments | ScheduleShare/AIRoutePlanner.swift:174-202 | there is one leg per decoded leg, each attached to its clamped event |
| RoutePlanner.FallbackSegments | ScheduleShare/AIRoutePlanner.swift:242-260 | there is one subway leg per event at 1800 s and 2.75, chained from the current location, arriving at each start |
| RoutePlanner.FallbackPlan | ScheduleShare/AIRoutePlanner.swift:238-264 | the fallback plan starts at "Starting Point" and has n legs and totals 1800·n and 2.75·n |
| RoutePlanner.FallbackTotalsAreSums | ScheduleShare/AIRoutePlanner.swift:259-263 | the fallback totals equal the sums over its legs |
| RoutePlanner.ParsePlan | ScheduleShare/AIRoutePlanner.swift:164-213 | an undecodable reply gives the fallback plan; a decoded one gives exactly the decoded legs, each attached to its clamped event, and copies the totals verbatim |
| RoutePlanner.ParsePlanAsWritten | ScheduleShare/AIRoutePlanner.swift:164-213 | with the cleaner as written, defined only where the brace range is ordered, and there the same plan as the corrected version |
| RoutePlanner.PlanFromJson | ScheduleShare/AIRoutePlanner.swift:173-211 | an undecodable reply gives the fallback plan, and a decoded one gives its legs attached to the events and its totals |
| RoutePlanner.ParsedLegTiming | ScheduleShare/AIRoutePlanner.swift:176-200 | parsed leg i arrives at the start of event min(i, n-1) and departs its travel time earlier |
| RoutePlanner.GeneratePlan | ScheduleShare/AIRoutePlanner.swift:20-70 | no events means no query and an empty zero plan; content is parsed; no content or an error gives the fallback |
| RoutePlanner.EveryLegArrivesAtAnEvent | ScheduleShare/AIRoutePlanner.swift:20-70 | every leg of any generated plan arrives at the start of some event |
| RoutePlanner.UnknownModeIsSubway | ScheduleShare/AIRoutePlanner.swift:195 | an unknown mode text becomes subway |
| Extraction.FirstTitleIndex | ScheduleShare/AITextExtractor.swift:158-164 | finds the first line whose trimmed text is non-empty and free of "Date", "Time" and "Location" |
| Extraction.FallbackTitle | ScheduleShare/AITextExtractor.swift:153-164 | the fallback title is never empty |
| Extraction.FallbackTitleIsFirstCandidate | ScheduleShare/AITextExtractor.swift:153-164 | the title is the first candidate line, trimmed, or "Event" when no line qualifies |
| Extraction.LocationMatch | ScheduleShare/AITextExtractor.swift:167-168 | a match exists exactly when the leftmost-match search finds one, and it is the text from that match's start to its end; it begins with "Location" and has text after the word |
| Extraction.FallbackLocation | ScheduleShare/AITextExtractor.swift:167-169 | a text without "Location" has no location; a found one is non-empty and keeps the word itself |
| Extraction.FindMatchFromLeftmost | ScheduleShare/AITextExtractor.swift:167-168 | the search reports the leftmost match: whenever a match starts at some position, one is found there or earlier |
| Extraction.LocationKeepsTheWord | ScheduleShare/AITextExtractor.swift:167-169 | "Location: Cafe" yields the whole match, not the capture group |
| Extraction.BareLocationWordGivesNil | ScheduleShare/AITextExtractor.swift:167-169 | the bare word "Location" does not match |
| Extraction.FallbackExtraction | ScheduleShare/AITextExtractor.swift:147-183 | the fallback record has confidence 0.3, raw text and description equal to the input, a non-empty title, and start now and end an hour later |
| Extraction.DateField | ScheduleShare/AITextExtractor.swift:61-72 | a date is read only from a string field, and an unparseable one gives nil |
| Extraction.FromJson | ScheduleShare/AITextExtractor.swift:55-82 | string fields are kept and non-strings become nil; confidence is the number when one is given, 1.0 or 0.0 for a boolean, and 0.5 otherwise |
| Extraction.ExtractEventInfo | ScheduleShare/AITextExtractor.swift:23-102 | no client fails; an API error fails; another error, no content or unparseable content falls back; parsed content is mapped |
| Extraction.ExtractionFailsOnlyForClientOrApi | ScheduleShare/AITextExtractor.swift:24-100 | extraction fails exactly for a missing client or an API error, and any success keeps the raw text |
| Extraction.Description | ScheduleShare/AITextExtractor.swift:195-210 | each extraction error has its fixed message, and an API error shows its message after "API Error: " |
| Extraction.FencedReplyFallsBack | ScheduleShare/AITextExtractor.swift:49-53 | a fenced reply is not cleaned, so it takes the fallback path |
| Extraction.FailureRecord | ScheduleShare/TextExtractor.swift:78-90 | a failure becomes "AI Extraction Failed" with confidence 0.0, no location, and the error in the description |
| Extraction.ParseEventInfo | ScheduleShare/TextExtractor.swift:68-93 | a success passes through unchanged, and a failure gives the failure record |
| Extraction.PipelineKeepsRawText | ScheduleShare/TextExtractor.swift:68-93 | the pipeline always yields one record with the input as raw text, at confidence 0.0 on failure and 0.3 on fallback |
| Extraction.Present | ScheduleShare/TextExtractor.swift:35-37 | every recognised candidate appears among the collected strings, and every collected string is some observation's candidate |
| Extraction.PresentAppend | ScheduleShare/TextExtractor.swift:35-37 | the candidates of a concatenation are those of each part in order, so the observations' order is kept |
| Extraction.PresentSingle | ScheduleShare/TextExtractor.swift:35-37 | one observation contributes its candidate, or nothing when it has none |
| Extraction.ExtractText | ScheduleShare/TextExtractor.swift:16-46 | a non-empty newline join of the candidates succeeds with that join and an empty one is `noTextFound`; no image is `invalidImage`, a request error is passed on, and missing observations are `noTextFound` |
| Extraction.NoTextFoundIff | ScheduleShare/TextExtractor.swift:35-43 | `noTextFound` happens exactly when no string, or only an empty one, was recognised |
| EventList.FirstIndexWithId | ScheduleShare/Models.swift:342 | finds the first position with the id, and none exactly when the id is absent |
| EventList.FindById | ScheduleShare/CalendarView.swift:66-73 | finds a stored event with the id exactly when one exists |
| EventList.AddEvent | ScheduleShare/Models.swift:328-339 | appends the event at the end and requests one native save |
| EventList.UpdateEvent | ScheduleShare/Models.swift:341-356 | replaces only the first event with the id and keeps the length; an absent id changes nothing; a native update follows when there is a native identifier |
| EventList.DeleteEvent | ScheduleShare/Models.swift:358-371 | removes every event with the id, keeps every other event with its multiplicity, and requests a native delete when there is a native identifier |
| EventList.ClearAllEvents | ScheduleShare/Models.swift:412-416 | clearing leaves no events and makes no native calls |
| EventList.DeleteUndoesAdd | ScheduleShare/Models.swift:328-371 | deleting a freshly added event restores the list |
| EventList.DeleteKeepsOrder | ScheduleShare/Models.swift:359 | deletion works piecewise, so the survivors keep their order |
| EventList.DeleteAbsentIsNoOp | ScheduleShare/Models.swift:359 | deleting an absent id leaves the list unchanged |
| EventList.UpdateThenFind | ScheduleShare/Models.swift:341-344 | after an update, a lookup by the id finds the new event |
| EventList.UpdateIdempotent | ScheduleShare/Models.swift:341-344 | updating twice with the same event is the same as updating once |
| EventList.EventsInWindow | ScheduleShare/Models.swift:402-410 | the window listing is sorted by start and holds only events starting in the half-open window |
| EventList.EventsInWindowCount | ScheduleShare/Models.swift:402-410 | the window listing keeps each in-window event as often as it is stored, and nothing else |
| EventList.EventsInWindowMember | ScheduleShare/Models.swift:402-410 | an event is listed exactly when it is stored and starts in the window |
| EventList.EventsForDate | ScheduleShare/Models.swift:402-410 | the date listing is sorted and lies between the day's start and the next day's start |
| EventList.AddedEventListedOnItsDay | ScheduleShare/Models.swift:328-410 | an added event is listed for a date exactly when it starts on that date's day |
| EventList.ClearedDayIsEmpty | ScheduleShare/Models.swift:402-416 | after clearing, every date lists nothing |
| CalendarManager.Description | ScheduleShare/CalendarManager.swift:215-233 | each calendar error has its fixed message, and a store error shows the store's message |
| CalendarManager.SaveEvent | ScheduleShare/CalendarManager.swift:43-78 | no permission fails with nothing written; otherwise the store's answer is passed on, and a saved event is held |
| CalendarManager.UpdateEvent | ScheduleShare/CalendarManager.swift:80-103 | permission is checked first, then the lookup, then the write |
| CalendarManager.DeleteEvent | ScheduleShare/CalendarManager.swift:105-122 | the same guard order; only a successful delete drops the identifier |
| CalendarManager.PermissionCheckedFirst | ScheduleShare/CalendarManager.swift:81-114 | `noPermission` is reported exactly without permission, and `eventNotFound` exactly with permission and a missing event |
| CalendarManager.DeleteTwiceNotFound | ScheduleShare/CalendarManager.swift:105-122 | a second delete of the same identifier reports `eventNotFound` |
| CalendarManager.SaveTwiceHoldsTwo | ScheduleShare/CalendarManager.swift:43-78 | two successful saves of one event leave two native events |
| IcsExport.ExportCalendarEvents | ScheduleShare/CalendarManager.swift:173-211 | the export begins with the VCALENDAR header and ends with END:VCALENDAR; no events gives header then footer |
| IcsExport.BlockLines | ScheduleShare/CalendarManager.swift:190-206 | a VEVENT block is BEGIN, UID, DTSTART, DTEND, SUMMARY, then LOCATION and DESCRIPTION when present, then END |
| IcsExport.ExportIsLines | ScheduleShare/CalendarManager.swift:173-211 | the export text is exactly header lines, each event's block lines in input order, and the footer, joined by line feeds |
| IcsExport.EventBlockIsLines | ScheduleShare/CalendarManager.swift:190-206 | one event's block text is its lines joined by line feeds, with a final line feed |
| IcsExport.EventBlock | ScheduleShare/CalendarManager.swift:190-206 | a block opens with its BEGIN:VEVENT line and closes with its END:VEVENT line and a line feed |
| IcsExport.BlocksAppend | ScheduleShare/CalendarManager.swift:185-207 | the blocks of two lists are the blocks of the first followed by those of the second |
| IcsExport.OptionalLinesIff | ScheduleShare/CalendarManager.swift:198-204 | a LOCATION line exists exactly when there is a location, and a DESCRIPTION line exactly when there are notes, LOCATION first |
| IcsExport.TitleNotEscaped | ScheduleShare/CalendarManager.swift:195 | the title is inserted verbatim, so a line feed in it survives in the SUMMARY line |
| EventForms.ValidateAndAdjustDate | ScheduleShare/EventCreationView.swift:317-340 | the date is kept or moved by exactly one calendar year |
| EventForms.PastDateMovesOneYear | ScheduleShare/EventCreationView.swift:322-336 | a date on an earlier day than today moves one year on, keeping month, time of day and day (29 February becomes 28) |
| EventForms.LaterDateKept | ScheduleShare/EventCreationView.swift:322-339 | a date not on an earlier day is kept |
| EventForms.SameDayKept | ScheduleShare/EventCreationView.swift:322-339 | an earlier time on today's date is kept |
| EventForms.TwoYearsBackStaysPast | ScheduleShare/EventCreationView.swift:332-336 | a date two or more years back is still in the past after the correction |
| EventForms.PopulateEventFields | ScheduleShare/EventCreationView.swift:277-315 | a nil title becomes "New Event"; with no start the dates are untouched; with no end the end is start plus an hour; nil location and description become empty |
| EventForms.PopulatedEndCanPrecedeStart | ScheduleShare/EventCreationView.swift:289-305 | start and end are corrected independently, so the populated end can be at or before the start |
| EventForms.NilIfEmpty | ScheduleShare/EventCreationView.swift:378-379 | empty text becomes nil, and other text is kept |
| EventForms.FormEvent | ScheduleShare/EventCreationView.swift:374-382 | a created event takes the form's fields, maps empty location and notes to nil, and carries the extracted info |
| EventForms.CreateGuard | ScheduleShare/EventCreationView.swift:354-364 | an empty title is rejected before the end-after-start check, and both checks pass exactly when the title is set and the end is after the start |
| EventForms.CreateEventAsWritten | ScheduleShare/EventCreationView.swift:350-421 | a rejected form adds nothing; a submitted one appends the event and, with permission, saves it natively twice |
| EventForms.CreateSavesTwice | ScheduleShare/EventCreationView.swift:385-397 | with permission, a valid form issues two identical native saves |
| EventForms.CreateEvent | ScheduleShare/EventCreationView.swift:350-421 | a rejected form adds nothing; a submitted one appends the event and requests one native save |
| EventForms.CreateSavesOnce | ScheduleShare/EventCreationView.swift:385-411 | the corrected create saves once and otherwise agrees with the code as written |
| EventForms.PopulatedFormPassesGuards | ScheduleShare/EventCreationView.swift:285-364 | a populated form with a non-empty title and no extracted end passes both guards |
| EventForms.ClearedForm | ScheduleShare/EventCreationView.swift:423-431 | a cleared form is empty, starts now and lasts an hour |
| EventForms.ManualCreateAsWritten | ScheduleShare/ManualEventCreationView.swift:158-207 | a manual event has no extracted info, and with permission it is saved natively twice |
| EventForms.EnabledCreateHasTitle | ScheduleShare/ManualEventCreationView.swift:132-163 | the Create button is disabled for an empty title or while saving, so an enabled one never meets the empty-title alert |
| EventForms.InitializeEditingFields | ScheduleShare/EventDetailDisplayView.swift:263-269 | editing starts from the event's fields, with nil location and notes as empty text |
| EventForms.SaveChanges | ScheduleShare/EventDetailDisplayView.swift:275-300 | saving keeps id, extracted info and native identifier, and maps empty location and notes to nil |
| EventForms.EditRoundTrip | ScheduleShare/EventDetailDisplayView.swift:263-286 | opening and saving unchanged returns the same event exactly when location and notes are not empty text |
| EventForms.FormSheetSave | ScheduleShare/EventFormSheet.swift:110-127 | without an existing event only a create happens; with one, the update keeps its identity and maps empty text to nil |
| EventForms.SheetUpdateIsSaveChanges | ScheduleShare/EventFormSheet.swift:110-123 | the sheet's update is the detail view's save applied to the form |
| EventForms.SetupEndDate | ScheduleShare/EventDetailsView.swift:114-117 | the initial end is an hour after the start |
| EventForms.DetailsSave | ScheduleShare/EventDetailsView.swift:119-133 | all-day ends at the next day and otherwise at the chosen end; empty text becomes nil; extracted info is passed through |
| EventForms.DetailsSaveAcceptsReversedTimes | ScheduleShare/EventDetailsView.swift:106-133 | the details view saves an end at or before the start, which the creation guard would reject |
| Sharing.EntryLines | ScheduleShare/SharingManager.swift:285-293 | an entry has a title line, a time line, a location line only when there is a location, and a blank line |
| Sharing.EntriesAppend | ScheduleShare/SharingManager.swift:284-294 | the entries of two lists are those of the first followed by those of the second |
| Sharing.AllEntryLinesCount | ScheduleShare/SharingManager.swift:284-294 | the entries span 3n lines plus one per located event |
| Sharing.LocatedCount | ScheduleShare/SharingManager.swift:289-291 | at most every event contributes a location line |
| Sharing.ShareableText | ScheduleShare/SharingManager.swift:277-297 | the share text starts with the count line and a blank line and ends with the fixed footer |
| Sharing.ShareCountReadsBack | ScheduleShare/SharingManager.swift:282 | the count line holds the event count in decimal |
| Sharing.ShareableTextLines | ScheduleShare/SharingManager.swift:277-297 | the share text's lines are the count line, a blank, the entry lines in event order, and the footer |
| Sharing.TextSummary | ScheduleShare/SharingManager.swift:329-347 | the summary starts with its title and ends with "Shared via ScheduleShare" and the phone mark |
| Sharing.TextSummaryLines | ScheduleShare/SharingManager.swift:329-347 | the summary's lines are its title, a blank, the entry lines, and the footer |
| Sharing.SummaryMatchesShareText | ScheduleShare/SharingManager.swift:284-345 | the share text and the summary carry the same entry lines at the same place |
| Sharing.LocationParameter | ScheduleShare/SharingManager.swift:313-315 | the location parameter is present exactly when the event has a location, and begins "&location=" |
| Sharing.ShareableUrl | ScheduleShare/SharingManager.swift:299-320 | no events gives no link; a link is the first event's link and is valid; a valid first-event link is always given |
| Sharing.ShareableUrlFirstOnly | ScheduleShare/SharingManager.swift:299-320 | two lists with the same first event give the same link |
| Sharing.LinkLocationSuffix | ScheduleShare/SharingManager.swift:307-317 | the link is the location-free link followed by the location parameter, and that link ends with the start/end dates |
| Sharing.LocationCell | ScheduleShare/SharingManager.swift:372 | the location cell shows the location when there is one and "No location" otherwise |
| Sharing.EmailBody | ScheduleShare/SharingManager.swift:349-389 | the email body starts with the fixed table head and ends with the fixed closing |
| Sharing.RowLines | ScheduleShare/SharingManager.swift:367-375 | the table rows span four lines per event |
| Sharing.EmailBodyLines | ScheduleShare/SharingManager.swift:349-389 | after the table head, the body's lines are each event's row in order, then the closing |
| Sharing.LinkItems | ScheduleShare/SharingManager.swift:242-256 | the general share sheet holds the share text first, the link when there is one, and the calendar data last |
| Sharing.Outcome | ScheduleShare/SharingManager.swift:20-275 | each method's completion: unavailable composers fail with their error, a missing window fails the composers, a write error fails the file share, and a missing window leaves the file and link shares uncompleted |
| Sharing.ShareCalendar | ScheduleShare/SharingManager.swift:20-31 | the dispatch completes as its method's handler does, and presents something exactly when it succeeds |
| Sharing.SharedContent | ScheduleShare/SharingManager.swift:34-275 | what is presented: the file with its text, the summary in a message, the HTML body with the calendar attached, or the share text first |
| Sharing.ErrorDescription | ScheduleShare/SharingManager.swift:452-464 | each sharing error has its fixed message |
| Sharing.IcsShareText | ScheduleShare/SharingManager.swift:45 | the text sent with a calendar file holds the event count in decimal between its fixed opening and closing |
| ShareSelection.RangeFromRaw | ScheduleShare/SharingOptionsView.swift:29-35 | a range read from text has that text as its raw value |
| ShareSelection.RangeRawRoundTrip | ScheduleShare/SharingOptionsView.swift:29-35 | every range reads back from its raw value |
| ShareSelection.RangeWindow | ScheduleShare/SharingOptionsView.swift:283-308 | Today, This Week and This Month span one day, week or month from its start |
| ShareSelection.FirstOfDay | ScheduleShare/SharingOptionsView.swift:266-280 | at most one event is chosen from a day |
| ShareSelection.EventsToShare | ScheduleShare/SharingOptionsView.swift:258-313 | the result is sorted by start; This Event with a selected event is exactly that event, even when it is not stored |
| ShareSelection.ThisEventEarliest | ScheduleShare/SharingOptionsView.swift:266-280 | without a selected event, This Event gives nothing exactly when the day is empty, and otherwise the earliest stored event of the day |
| ShareSelection.WindowRangeMembers | ScheduleShare/SharingOptionsView.swift:283-308 | the window ranges keep exactly the stored events starting in the window, with their multiplicity |
| ShareSelection.SelectedMembers | ScheduleShare/SharingOptionsView.swift:297-301 | Select Events keeps exactly the stored events whose id is selected |
| ShareSelection.EventsFromToday | ScheduleShare/SharingOptionsView.swift:315-323 | the events from today are sorted and drawn from the stored ones |
| ShareSelection.EventsFromTodayMembers | ScheduleShare/SharingOptionsView.swift:315-323 | an event is listed exactly when stored and starting at or after today's start, and Today's range lies inside it |
| ShareSelection.Toggle | ScheduleShare/SharingOptionsView.swift:417-423 | a toggle flips the membership of one id and no other |
| ShareSelection.ToggleTwice | ScheduleShare/SharingOptionsView.swift:417-423 | toggling twice restores the selection |
| ShareSelection.ToggleCommutes | ScheduleShare/SharingOptionsView.swift:417-423 | toggles of two ids commute |
| ShareSelection.ShareFromOptions | ScheduleShare/SharingOptionsView.swift:325-374 | nothing happens without events; an unavailable composer falls back to the general share sheet; the sheet is dismissed exactly on a success |
| ShareSelection.DismissedIff | ScheduleShare/SharingOptionsView.swift:325-374 | the sheet is dismissed exactly when there are events, a window exists, and the file write did not fail |
| ShareSelection.EnabledShareTries | ScheduleShare/SharingOptionsView.swift:325-330 | an enabled share button always tries the chosen method first |
| ShareSelection.ShareEnabledIffTries | ScheduleShare/SharingOptionsView.swift:211 | the share button is enabled exactly when pressing it would try a sharing method: an empty selection disables it and would try nothing |
| CalendarView.EventToShow | ScheduleShare/CalendarView.swift:47-74 | the sheet event wins, then the captured event, then the first stored event with the last tapped id, else nothing |
| CalendarView.Tap | ScheduleShare/CalendarView.swift:155-176 | a tap shows the details and keeps the events and the date |
| CalendarView.ClearSelection | ScheduleShare/CalendarView.swift:236-243 | dismissing keeps the events, the date and the details flag |
| CalendarView.TapThenShow | ScheduleShare/CalendarView.swift:155-176 | after a tap the sheet shows the tapped event |
| CalendarView.ClearedShowsNothing | ScheduleShare/CalendarView.swift:236-243 | after dismissal the sheet shows nothing |
| CalendarView.LookupFallbackFindsFirst | ScheduleShare/CalendarView.swift:66-73 | the lookup fallback finds the first stored event with the tapped id |
| CalendarView.DayEvents | ScheduleShare/CalendarView.swift:328-342 | the day listing is a sorted permutation of the events on that day |
| CalendarView.DayEventsMember | ScheduleShare/CalendarView.swift:328-342 | an event is listed exactly when stored and on the same day as the date |
| CalendarView.DayEventsMatchAppState | ScheduleShare/CalendarView.swift:328-342 | where a day is its start-to-next-start window, the view's listing equals the app state's |
| CalendarView.HasEventsForDate | ScheduleShare/CalendarView.swift:482-486 | a date has events exactly when some stored event starts on its day |
| CalendarView.HasEventsIffListed | ScheduleShare/CalendarView.swift:482-486 | the date marker shows exactly when the day listing is non-empty |
| CalendarView.UpdateInView | ScheduleShare/CalendarView.swift:355-381 | the list is updated as the app state does; the date moves to the event's start exactly when it is on another day; the selected event is replaced only on a matching id |
| CalendarView.UpdatedEventListedOnSelectedDay | ScheduleShare/CalendarView.swift:355-381 | after an update of a stored event, the event is listed on the selected day |
| CalendarView.DropSelected | ScheduleShare/CalendarView.swift:387-390 | the selection is cleared only when its id matches the deleted event |
| CalendarView.DeleteAlert | ScheduleShare/CalendarView.swift:395-402 | an alert appears exactly on failure, with the prefix and the error's message |
| CalendarView.DeleteInViewAsWritten | ScheduleShare/CalendarView.swift:383-406 | deletion updates the list and the selection; without a native identifier there is no alert |
| CalendarView.DeleteAsWrittenAlertsOnSuccess | ScheduleShare/CalendarView.swift:383-406 | a successful native delete is followed by a second one that alerts "Event not found" |
| CalendarView.DeleteInView | ScheduleShare/CalendarView.swift:383-406 | the corrected delete alerts exactly when the single native delete fails, and drops the identifier only on success |
| CalendarView.SheetDeleteClears | ScheduleShare/CalendarView.swift:383-406 | after a delete from the sheet and dismissal, nothing is shown and the event is gone |
| Routes.NewRoute | ScheduleShare/Models.swift:147-158 | a new route holds its events and start with no legs and zero totals |
| Routes.ViewCalculateRoute | ScheduleShare/RoutePlanningView.swift:150-175 | the route holds the events; no events gives no legs; without a reply the route has exactly the fallback plan's legs, n of them, and totals 1800·n and 2.75·n; with events and a reply, the route has the legs and totals of the plan parsed from it |
| Routes.AppCalculateRoute | ScheduleShare/Models.swift:288-324 | no events keeps the current route; otherwise the route is the computed one |
| Routes.RouteLegsArriveAtEvents | ScheduleShare/RoutePlanningView.swift:165-171 | every leg of the route arrives at the start of one of its events |
| Routes.FallbackRouteTotalsAreSums | ScheduleShare/RoutePlanningView.swift:165-171 | a fallback route's totals equal the sums over its legs |
| Routes.Lookup | ScheduleShare/EventDetailDisplayView.swift:320-336 | the point of the first landmark named in the text, or the New York default when none is named |
| Routes.LookupIgnoresUnmatchedTail | ScheduleShare/RoutePlanningView.swift:356-373 | landmarks after the last one named in the text do not affect the lookup |
| Routes.DetailCoordinates | ScheduleShare/EventDetailDisplayView.swift:320-336 | the detail lookup gives the default or the point of one of its five landmarks |
| Routes.HughBeforeShipyard | ScheduleShare/EventDetailDisplayView.swift:329-333 | "The Hugh" is tested before "SHIPYARD" |
| Routes.LowerCaseShipyardMisses | ScheduleShare/EventDetailDisplayView.swift:331-333 | matching is case-sensitive: "shipyard" gives the default |
| Routes.PlanningCoordinatesAsWritten | ScheduleShare/RoutePlanningView.swift:208-229 | a nil location gives the New York default |
| Routes.PlanningAbingdonIsShipyard | ScheduleShare/RoutePlanningView.swift:218-219 | the planning table places "Abingdon Square" at SHIPYARD's point, unlike the other two tables |
| Routes.PlanningCoordinates | ScheduleShare/RoutePlanningView.swift:208-229 | the corrected planning lookup is the detail lookup, and nil gives the default |
| Routes.PlanningAgreesWithOverview | ScheduleShare/RoutePlanningView.swift:208-373 | without "The Hugh" or "SHIPYARD" in the text, the corrected planning lookup and the overview card agree |
| Routes.OverviewCoordinates | ScheduleShare/RoutePlanningView.swift:356-373 | a nil location gives the New York default |
| Routes.OverviewLacksHugh | ScheduleShare/RoutePlanningView.swift:356-373 | the overview card has no "The Hugh" entry, so it gives the default where the detail view finds the landmark |
| Routes.Truncate | ScheduleShare/RoutePlanningView.swift:342-345 | `Int(x)` truncates toward zero |
| Routes.TruncateMinutes | ScheduleShare/RoutePlanningView.swift:342-345 | for whole seconds, the truncated minutes equal the integer division by 60 |
| Routes.FormatTimeOfWholeSeconds | ScheduleShare/RoutePlanningView.swift:576-579 | the formatter shows the same minute count as the integer division of the travel time |
| Routes.FormatTime | ScheduleShare/RoutePlanningView.swift:576-579 | the formatted time always ends in " min" |
| Routes.NextStep | ScheduleShare/RoutePlanningView.swift:649 | the next thinking step lies in [0, 5) |
| Routes.StepAfter | ScheduleShare/RoutePlanningView.swift:585-650 | the thinking step stays in [0, 5) |
| Routes.StepAfterCycles | ScheduleShare/RoutePlanningView.swift:585-650 | after t ticks from step 0 the step is t mod 5 |

## Left out

- The language-model chat calls, `Task`/async code and dispatch-queue marshalling. The call's outcome is an input (`RoutePlanner.LlmOutcome`, `Extraction.ChatOutcome`).
- JSON text parsing. It is a function parameter from text to an optional `Decoding.Json` value. The `Codable` decoding and `as?` casts on that value are modelled.
- Date formatters, ISO-8601 parsing, percent-encoding, URL validity and the `%.2f` cost format. All are function parameters.
- Calendar arithmetic. It comes from a `Calendar` value of total functions. Adding a year is modelled at the civil level.
- Clock readings and `UUID()`. Both are parameters; identifier freshness is not modelled.
- Vision OCR. Its result is an input to `Extraction.ExtractText`.
- The native event store's contents beyond the guard order. So are `UserDefaults` persistence, the location manager and URL opening.
- Presentation: message, mail and activity view controllers, SwiftUI rendering, animations and timers. Only what is presented, and whether the completion handler is called, are modelled.
- The prompt wording in the extraction and route-planning prompts. It is free text with nothing to verify.
- The `sourceImage` argument some views pass. The event record has no such field.
- The two `AIExtractionError` declarations. One error datatype is kept, with the messages of `AITextExtractor.swift`.
- The calendar view's `loadEvents`. It changes no modelled state.
- The `isCalculating`, `isSaving` and `isProcessing` progress flags, except where a button is disabled by them.
- The emoji lines of the share footer and email. They are kept as symbolic constants, so the footers are compared as wholes.
- Swift grapheme-cluster semantics. Strings are sequences of Unicode scalars.
- Routes.FormatTime: Swift traps when `Int(Double)` is out of range. The model truncates any real without trapping.
- CalendarView.DayEventsMatchAppState: the equality of the view's same-day test and the app state's window holds only under the hypothesis that the calendar's day is that window. The calendar is a parameter, so this is not proved for every calendar.
- RoutePlanner.ParsePlan: uses the corrected cleaner, so a reply whose fence-stripped text has its last `}` before its first `{` gets a plan where the app stops the program; `RoutePlanner.ParsePlanAsWritten` keeps the code's cleaner and is undefined there. `RoutePlanner.GeneratePlan`, `Routes.ViewCalculateRoute` and `Routes.AppCalculateRoute` inherit this through it.
- EventForms.CreateEventAsWritten: one permission flag stands for both calendar managers, the views' one and the app state's own (ScheduleShare/Models.swift:279), and both are taken to write the same store. Each manager reads the permission in its own initialiser, and a permission request from a view updates only the views' manager, so after permission is first granted the app state's save can still fail with `noPermission` until the app restarts; the model does not follow the two flags apart.
- CalendarView.DeleteInViewAsWritten: one permission flag stands for both calendar managers, as for `EventForms.CreateEventAsWritten`; the app state's second delete can fail with `noPermission` while its flag is stale, which the model does not follow.
- Sanitizer.CleanJson: stated with the precondition that the brace range is well formed. The code traps outside it; the Findings row covers that case.

## Findings

| source | as written | input that shows it | evidently intended | confidence | as-written member | corrected member |
|---|---|---|---|---|---|---|
| ScheduleShare/AIRoutePlanner.swift:230-232 | the closed range from the first `{` to the last `}` is formed whenever both braces exist | a reply "}{", where the last `}` precedes the first `{` | cut the object only when the braces are ordered, otherwise keep the trimmed text | high, not executed | Sanitizer.CleanJsonTraps | Sanitizer.CleanJsonSafeKeepsReversedBraces |
| ScheduleShare/EventCreationView.swift:385-397 | the view saves the new event natively, and `addEvent` (ScheduleShare/Models.swift:331) saves it again | any valid form, with calendar permission held by both the views' manager and the app state's own | one native save per created event | medium, not executed | EventForms.CreateSavesTwice | EventForms.CreateSavesOnce |
| ScheduleShare/CalendarView.swift:383-406 | the view deletes the native event, and `deleteEvent` (ScheduleShare/Models.swift:358-371) deletes it again | an event with a native identifier held by the store, with permission held by both the views' manager and the app state's own | one native delete, with an alert only when it fails | medium, not executed | CalendarView.DeleteAsWrittenAlertsOnSuccess | CalendarView.DeleteInView |
| ScheduleShare/RoutePlanningView.swift:218-219 | "Abingdon Square" maps to (40.7484, -74.0047), SHIPYARD's point | a location "Abingdon Square" | (40.7378, -74.0057), as in ScheduleShare/EventDetailDisplayView.swift:325-326 and ScheduleShare/RoutePlanningView.swift:364-365 | medium, not executed | Routes.PlanningAbingdonIsShipyard | Routes.PlanningCoordinates |

=== FILE: calendar_manager.dfy ===
/** `CalendarManager`: the guards in front of the native event store and the errors
    they report. The store is a set of native identifiers; what EventKit writes into a
    native event is not modelled. */
module CalendarManager {
  import opened Wrappers
  import opened Models

  /** CalendarError, plus the errors the event store itself throws. */
  datatype CalendarError =
    | NoPermission
    | EventNotFound
    | NoValidSource
    | SaveFailed
    | StoreError(message: string)

  /** `localizedDescription` of each error. */
  function Description(e: CalendarError): (d: string)
    ensures e.StoreError? ==> d == e.message
    ensures e.NoPermission? ==> d == "Calendar permission is required"
    ensures e.EventNotFound? ==> d == "Event not found"
  {
    match e
    case NoPermission => "Calendar permission is required"
    case EventNotFound => "Event not found"
    case NoValidSource => "No valid calendar source available"
    case SaveFailed => "Failed to save calendar event"
    case StoreError(m) => m
  }

  /** The native identifiers of the events the store holds. */
  type Store = set<string>

  /** What the store answers to a write: the identifier it assigned, or the error it threw. */
  type StoreWrite = Result<string, string>

  /** `saveEvent`: without permission nothing is written; otherwise the store's answer is
      passed on and a successfully saved event is held under its new identifier. */
  function SaveEvent(hasPermission: bool, store: Store, write: StoreWrite): (r: (Result<string, CalendarError>, Store))
    ensures !hasPermission ==> r.0 == Failure(NoPermission) && r.1 == store
    ensures hasPermission && write.Success? ==> r.0 == Success(write.value) && r.1 == store + {write.value}
    ensures hasPermission && write.Failure? ==> r.0 == Failure(StoreError(write.error)) && r.1 == store
  {
    if !hasPermission then (Failure(NoPermission), store)
    else match write
      case Success(id) => (Success(id), store + {id})
      case Failure(m) => (Failure(StoreError(m)), store)
  }

  /** `updateEvent(identifier:with:)`: permission first, then the lookup, then the write;
      the set of held identifiers never changes. */
  function UpdateEvent(hasPermission: bool, store: Store, identifier: string, writeError: Option<string>): (r: Result<(), CalendarError>)
    ensures !hasPermission ==> r == Failure(NoPermission)
    ensures hasPermission && identifier !in store ==> r == Failure(EventNotFound)
    ensures hasPermission && identifier in store ==>
              r == if writeError.Some? then Failure(StoreError(writeError.value)) else Success(())
  {
    if !hasPermission then Failure(NoPermission)
    else if identifier !in store then Failure(EventNotFound)
    else if writeError.Some? then Failure(StoreError(writeError.value))
    else Success(())
  }

  /** `deleteEvent(identifier:)`: the same guards in the same order; a successful removal
      drops the identifier from the store. */
  function DeleteEvent(hasPermission: bool, store: Store, identifier: string, writeError: Option<string>): (r: (Result<(), CalendarError>, Store))
    ensures !hasPermission ==> r.0 == Failure(NoPermission) && r.1 == store
    ensures hasPermission && identifier !in store ==> r.0 == Failure(EventNotFound) && r.1 == store
    ensures hasPermission && identifier in store && writeError.Some? ==>
              r.0 == Failure(StoreError(writeError.value)) && r.1 == store
    ensures hasPermission && identifier in store && writeError.None? ==>
              r.0 == Success(()) && r.1 == store - {identifier}
  {
    if !hasPermission then (Failure(NoPermission), store)
    else if identifier !in store then (Failure(EventNotFound), store)
    else if writeError.Some? then (Failure(StoreError(writeError.value)), store)
    else (Success(()), store - {identifier})
  }

  /** A missing permission hides a missing event: update and delete report `noPermission`
      exactly when permission is missing, and `eventNotFound` only with permission. */
  lemma PermissionCheckedFirst(hasPermission: bool, store: Store, identifier: string, writeError: Option<string>)
    ensures UpdateEvent(hasPermission, store, identifier, writeError) == Failure(NoPermission) <==> !hasPermission
    ensures DeleteEvent(hasPermission, store, identifier, writeError).0 == Failure(NoPermission) <==> !hasPermission
    ensures UpdateEvent(hasPermission, store, identifier, writeError) == Failure(EventNotFound)
            <==> hasPermission && identifier !in store
    ensures DeleteEvent(hasPermission, store, identifier, writeError).0 == Failure(EventNotFound)
            <==> hasPermission && identifier !in store
  {
  }

  /** A second delete of the same identifier finds nothing to delete. */
  lemma DeleteTwiceNotFound(store: Store, identifier: string, e1: Option<string>, e2: Option<string>)
    requires identifier in store && e1.None?
    ensures var after := DeleteEvent(true, store, identifier, e1).1;
            DeleteEvent(true, after, identifier, e2).0 == Failure(EventNotFound)
  {
  }

  /** Two successful saves of the same event leave two native events behind: the store
      assigns each write its own identifier. */
  lemma SaveTwiceHoldsTwo(store: Store, w1: StoreWrite, w2: StoreWrite)
    requires w1.Success? && w2.Success? && w1.value != w2.value
    requires w1.value !in store && w2.value !in store
    ensures var s1 := SaveEvent(true, store, w1).1;
            var s2 := SaveEvent(true, s1, w2).1;
            |s2| == |store| + 2
  {
    var s1 := SaveEvent(true, store, w1).1;
    assert s1 == store + {w1.value};
    assert |s1| == |store| + 1;
  }
}

=== FILE: calendar_view.dfy ===
/** `CalendarView`: which event the details sheet shows, the events listed under a
    day, and the selection bookkeeping around editing and deleting from the sheet. The
    month grid, animations and alerts' presentation are not modelled. */
module CalendarView {
  import opened Wrappers
  import opened Seqs
  import opened Civil
  import opened Models
  import opened EventList
  import CalendarManager

  /** The view's selection state, with the app-wide event list and sheet event. */
  datatype ViewState = ViewState(
    events: seq<Event>,                 // appState.events
    sheetEvent: Option<Event>,          // appState.selectedEventForSheet
    selectedEvent: Option<Event>,
    selectedEventId: Option<EventId>,
    lastTappedEventId: Option<EventId>,
    capturedEvent: Option<Event>,
    selectedDate: Instant,
    showingDetails: bool
  )

  /** `eventToShow`: the app-wide sheet event, else the event captured by the last tap,
      else the first stored event with the last tapped identity. */
  function EventToShow(s: ViewState): (r: Option<Event>)
    ensures s.sheetEvent.Some? ==> r == s.sheetEvent
    ensures s.sheetEvent.None? && s.capturedEvent.Some? ==> r == s.capturedEvent
    ensures s.sheetEvent.None? && s.capturedEvent.None? ==>
              (r.Some? <==> s.lastTappedEventId.Some? && HasId(s.events, s.lastTappedEventId.value))
    ensures s.sheetEvent.None? && s.capturedEvent.None? && r.Some? ==>
              r.value in s.events && Some(r.value.id) == s.lastTappedEventId
  {
    if s.sheetEvent.Some? then s.sheetEvent
    else if s.capturedEvent.Some? then s.capturedEvent
    else if s.lastTappedEventId.Some? then FindById(s.events, s.lastTappedEventId.value)
    else None
  }

  /** Tapping an event row: every selection slot takes the event and the sheet opens. */
  function Tap(s: ViewState, e: Event): (r: ViewState)
    ensures r.events == s.events && r.selectedDate == s.selectedDate && r.showingDetails
  {
    s.(sheetEvent := Some(e), selectedEvent := Some(e), selectedEventId := Some(e.id),
       lastTappedEventId := Some(e.id), capturedEvent := Some(e), showingDetails := true)
  }

  /** What the sheet's delete and close actions do after their own work: every selection
      slot is emptied. */
  function ClearSelection(s: ViewState): (r: ViewState)
    ensures r.events == s.events && r.selectedDate == s.selectedDate && r.showingDetails == s.showingDetails
  {
    s.(sheetEvent := None, selectedEvent := None, selectedEventId := None,
       lastTappedEventId := None, capturedEvent := None)
  }

  /** A tapped event is the one the sheet shows, whatever was selected before. */
  lemma TapThenShow(s: ViewState, e: Event)
    ensures EventToShow(Tap(s, e)) == Some(e)
  {
  }

  /** With every slot cleared the sheet has nothing to show. */
  lemma ClearedShowsNothing(s: ViewState)
    ensures EventToShow(ClearSelection(s)) == None
  {
  }

  /** The fallback by identity finds a stored event even after the captured event is
      lost, and finds the first stored event with that identity. */
  lemma LookupFallbackFindsFirst(s: ViewState, k: nat)
    requires s.sheetEvent.None? && s.capturedEvent.None?
    requires k < |s.events| && s.lastTappedEventId == Some(s.events[k].id)
    requires forall j :: 0 <= j < k ==> s.events[j].id != s.events[k].id
    ensures EventToShow(s) == Some(s.events[k])
  {
    FirstIndexWithIdAt(s.events, s.events[k].id, k);
  }

  /** The events starting on the same calendar day as `date`. */
  function OnDay(cal: Calendar, date: Instant): Event -> bool {
    (x: Event) => SameDay(cal, x.start, date)
  }

  /** The view's `eventsForDate`: the events on the date's day, earliest first. */
  function DayEvents(events: seq<Event>, cal: Calendar, date: Instant): (r: seq<Event>)
    ensures SortedBy(r, StartOf)
    ensures multiset(r) == multiset(Filter(events, OnDay(cal, date)))
  {
    SortBy(Filter(events, OnDay(cal, date)), StartOf)
  }

  /** An event is listed under a date exactly when it is stored and starts that day. */
  lemma DayEventsMember(events: seq<Event>, cal: Calendar, date: Instant, x: Event)
    ensures x in DayEvents(events, cal, date) <==> x in events && SameDay(cal, x.start, date)
  {
    var kept := Filter(events, OnDay(cal, date));
    SortByMember(kept, StartOf, x);
    FilterMember(events, OnDay(cal, date), x);
  }

  /** The day of `date` is exactly the window from its start of day to the next start
      of day, as a calendar without gaps or overlaps makes it. */
  ghost predicate DayIsWindow(cal: Calendar, date: Instant) {
    forall t: Instant {:trigger SameDay(cal, t, date)} ::
      SameDay(cal, t, date) <==> cal.startOfDay(date) <= t < cal.nextDay(cal.startOfDay(date))
  }

  /** Where the day is its window, the view's listing and the app state's listing of a
      date are the same sequence. */
  lemma DayEventsMatchAppState(events: seq<Event>, cal: Calendar, date: Instant)
    requires DayIsWindow(cal, date)
    ensures DayEvents(events, cal, date) == EventsForDate(events, cal, date)
  {
    var lo := cal.startOfDay(date);
    var hi := cal.nextDay(lo);
    forall i | 0 <= i < |events|
      ensures OnDay(cal, date)(events[i]) == StartsIn(lo, hi)(events[i])
    {
      assert SameDay(cal, events[i].start, date) <==> lo <= events[i].start < hi;
    }
    FilterAgree(events, OnDay(cal, date), StartsIn(lo, hi));
  }

  /** `hasEventsForDate`: some stored event starts on the date's day. */
  function HasEventsForDate(events: seq<Event>, cal: Calendar, date: Instant): (r: bool)
    ensures r <==> exists i :: 0 <= i < |events| && SameDay(cal, events[i].start, date)
    decreases |events|
  {
    if |events| == 0 then false
    else SameDay(cal, events[0].start, date) || HasEventsForDate(events[1..], cal, date)
  }

  /** A date is marked exactly when something is listed under it. */
  lemma HasEventsIffListed(events: seq<Event>, cal: Calendar, date: Instant)
    ensures HasEventsForDate(events, cal, date) <==> DayEvents(events, cal, date) != []
  {
    var r := DayEvents(events, cal, date);
    if HasEventsForDate(events, cal, date) {
      var i :| 0 <= i < |events| && SameDay(cal, events[i].start, date);
      DayEventsMember(events, cal, date, events[i]);
    } else if r != [] {
      DayEventsMember(events, cal, date, r[0]);
    }
  }

  /** The view state after an edit, with the native requests the app state sent. */
  datatype Step = Step(state: ViewState, calls: seq<NativeCall>)

  /** `updateEvent` of the view: the app state replaces the event; the selected date
      moves to the event's start when that is another day; the selected event is
      replaced only when it has the same identity. */
  function UpdateInView(s: ViewState, e: Event, cal: Calendar): (r: Step)
    ensures r.state.events == UpdateEvent(s.events, e).events && r.calls == UpdateEvent(s.events, e).calls
    ensures SameDay(cal, e.start, r.state.selectedDate)
    ensures r.state.selectedDate == s.selectedDate <==> SameDay(cal, e.start, s.selectedDate) || e.start == s.selectedDate
    ensures r.state.selectedEvent == s.selectedEvent || (s.selectedEvent.Some? && s.selectedEvent.value.id == e.id)
    ensures s.selectedEvent.Some? && s.selectedEvent.value.id == e.id ==> r.state.selectedEvent == Some(e)
    ensures r.state.sheetEvent == s.sheetEvent && r.state.capturedEvent == s.capturedEvent
    ensures r.state.selectedEventId == s.selectedEventId && r.state.lastTappedEventId == s.lastTappedEventId
  {
    var change := UpdateEvent(s.events, e);
    var date := if SameDay(cal, e.start, s.selectedDate) then s.selectedDate else e.start;
    var selected := if s.selectedEvent.Some? && s.selectedEvent.value.id == e.id then Some(e) else s.selectedEvent;
    Step(s.(events := change.events, selectedDate := date, selectedEvent := selected), change.calls)
  }

  /** After editing a stored event, the edited event is listed under the selected date. */
  lemma UpdatedEventListedOnSelectedDay(s: ViewState, e: Event, cal: Calendar)
    requires HasId(s.events, e.id)
    ensures var r := UpdateInView(s, e, cal).state;
            e in DayEvents(r.events, cal, r.selectedDate)
  {
    var r := UpdateInView(s, e, cal).state;
    UpdateThenFind(s.events, e);
    DayEventsMember(r.events, cal, r.selectedDate, e);
  }

  /** The view after a delete, the native store, and the alert the view raised. */
  datatype Deletion = Deletion(state: ViewState, store: CalendarManager.Store, alert: Option<string>)

  const DeleteAlertPrefix: string := "Failed to delete from calendar: "

  /** The selection after deleting `e`: the selected event is dropped only when the
      selected identity is `e`'s. */
  function DropSelected(s: ViewState, e: Event): (r: ViewState)
    ensures r.selectedEventId == (if s.selectedEventId == Some(e.id) then None else s.selectedEventId)
    ensures r.selectedEvent == (if s.selectedEventId == Some(e.id) then None else s.selectedEvent)
    ensures r.events == s.events && r.sheetEvent == s.sheetEvent && r.capturedEvent == s.capturedEvent
  {
    if s.selectedEventId == Some(e.id) then s.(selectedEvent := None, selectedEventId := None) else s
  }

  /** The alert for a native delete's answer: none on success, the error's description
      after a fixed prefix on failure. */
  function DeleteAlert(result: Result<(), CalendarManager.CalendarError>): (a: Option<string>)
    ensures a.None? <==> result.Success?
    ensures a.Some? ==> a.value == DeleteAlertPrefix + CalendarManager.Description(result.error)
  {
    if result.Success? then None else Some(DeleteAlertPrefix + CalendarManager.Description(result.error))
  }

  /** `deleteEvent` of the view as written: the app state removes the event and sends
      its own native delete, whose answer is only logged; then the view sends a second
      native delete for the same identifier and alerts on its failure. `firstError` and
      `secondError` are what the store throws on removal, if anything. */
  function DeleteInViewAsWritten(s: ViewState, e: Event, hasPermission: bool, store: CalendarManager.Store,
                                 firstError: Option<string>, secondError: Option<string>): (r: Deletion)
    ensures r.state == DropSelected(s, e).(events := DeleteEvent(s.events, e).events)
    ensures e.eventIdentifier.None? ==> r.store == store && r.alert.None?
  {
    var state := DropSelected(s, e).(events := DeleteEvent(s.events, e).events);
    match e.eventIdentifier
    case None => Deletion(state, store, None)
    case Some(id) =>
      var first := CalendarManager.DeleteEvent(hasPermission, store, id, firstError);
      var second := CalendarManager.DeleteEvent(hasPermission, first.1, id, secondError);
      Deletion(state, second.1, DeleteAlert(second.0))
  }

  /** The duplicate delete makes every successful deletion of a calendar event end in
      the not-found alert, "Failed to delete from calendar: Event not found". */
  lemma DeleteAsWrittenAlertsOnSuccess(s: ViewState, e: Event, store: CalendarManager.Store, secondError: Option<string>)
    requires e.eventIdentifier.Some? && e.eventIdentifier.value in store
    ensures var r := DeleteInViewAsWritten(s, e, true, store, None, secondError);
            r.alert == Some(DeleteAlertPrefix + CalendarManager.Description(CalendarManager.EventNotFound))
            && r.store == store - {e.eventIdentifier.value}
  {
    CalendarManager.DeleteTwiceNotFound(store, e.eventIdentifier.value, None, secondError);
  }

  /** `deleteEvent` of the view with one native delete, the app state's, whose failure
      the view reports. */
  function DeleteInView(s: ViewState, e: Event, hasPermission: bool, store: CalendarManager.Store,
                        writeError: Option<string>): (r: Deletion)
    ensures r.state == DropSelected(s, e).(events := DeleteEvent(s.events, e).events)
    ensures e.eventIdentifier.None? ==> r.store == store && r.alert.None?
    ensures e.eventIdentifier.Some? ==>
              (r.alert.None? <==> hasPermission && e.eventIdentifier.value in store && writeError.None?)
    ensures e.eventIdentifier.Some? && r.alert.None? ==> r.store == store - {e.eventIdentifier.value}
    ensures r.alert.Some? ==> r.store == store
  {
    var state := DropSelected(s, e).(events := DeleteEvent(s.events, e).events);
    match e.eventIdentifier
    case None => Deletion(state, store, None)
    case Some(id) =>
      var result := CalendarManager.DeleteEvent(hasPermission, store, id, writeError);
      Deletion(state, result.1, DeleteAlert(result.0))
  }

  /** Deleting from the sheet and then clearing every slot leaves nothing to show and no
      stored event with the deleted identity. */
  lemma SheetDeleteClears(s: ViewState, e: Event, hasPermission: bool, store: CalendarManager.Store, writeError: Option<string>)
    ensures var r := ClearSelection(DeleteInView(s, e, hasPermission, store, writeError).state);
            EventToShow(r) == None && !HasId(r.events, e.id)
  {
  }
}

=== FILE: civil.dfy ===
/** Time as the app sees it: instants are whole seconds on one time line, civil times
    are the year/month/day/second-of-day reading of an instant in the device time zone.
    The device `Calendar` is not modelled; its answers are supplied as the total
    functions of a `Calendar` value. */
module Civil {
  import opened Wrappers

  /** Seconds on the `Date` time line. */
  type Instant = int

  const SecondsPerHour: int := 3600

  datatype CivilTime = CivilTime(year: int, month: int, day: int, secondOfDay: int)

  /** The calendar date of `a` is strictly earlier than that of `b` (time of day ignored). */
  predicate DateBefore(a: CivilTime, b: CivilTime) {
    a.year < b.year
    || (a.year == b.year && (a.month < b.month || (a.month == b.month && a.day < b.day)))
  }

  /** `a` and `b` fall on the same calendar date. */
  predicate SameDate(a: CivilTime, b: CivilTime) {
    a.year == b.year && a.month == b.month && a.day == b.day
  }

  /** `Calendar.date(byAdding: .year, value: 1, to:)`: the same month, day and time of day
      one year later, except that 29 February becomes 28 February (a year after a leap
      year is never a leap year). */
  function AddOneYear(c: CivilTime): CivilTime {
    CivilTime(c.year + 1, c.month, if c.month == 2 && c.day == 29 then 28 else c.day, c.secondOfDay)
  }

  /** The civil time at midnight of the date of `c` (only year, month and day kept). */
  function DateOnly(c: CivilTime): (d: CivilTime)
    ensures SameDate(c, d) && d.secondOfDay == 0
  {
    CivilTime(c.year, c.month, c.day, 0)
  }

  /** The device calendar's answers, taken as given. */
  datatype Calendar = Calendar(
    civil: Instant -> CivilTime,              // dateComponents in the device time zone
    instant: CivilTime -> Option<Instant>,    // date(from: components), nil for no such date
    startOfDay: Instant -> Instant,           // startOfDay(for:)
    nextDay: Instant -> Instant,              // date(byAdding: .day, value: 1, to:)
    weekStart: Instant -> Option<Instant>,    // dateInterval(of: .weekOfYear, for:)?.start
    nextWeek: Instant -> Instant,             // date(byAdding: .weekOfYear, value: 1, to:)
    monthStart: Instant -> Option<Instant>,   // dateInterval(of: .month, for:)?.start
    nextMonth: Instant -> Instant             // date(byAdding: .month, value: 1, to:)
  )

  /** `isDate(a, inSameDayAs: b)`. */
  predicate SameDay(cal: Calendar, a: Instant, b: Instant) {
    SameDate(cal.civil(a), cal.civil(b))
  }

  /** The calendar orders the instants of midnights like their dates. */
  ghost predicate MidnightsOrdered(cal: Calendar) {
    forall a: CivilTime, b: CivilTime ::
      DateBefore(a, b) && cal.instant(DateOnly(a)).Some? && cal.instant(DateOnly(b)).Some?
      ==> cal.instant(DateOnly(a)).value < cal.instant(DateOnly(b)).value
  }

  /** Reading back an instant the calendar made from `c` gives `c`. */
  ghost predicate ReadsBack(cal: Calendar, c: CivilTime) {
    cal.instant(c).Some? ==> cal.civil(cal.instant(c).value) == c
  }
}

=== FILE: decoding.dfy ===
/** JSON values as `JSONSerialization` and `JSONDecoder` see them once the text is parsed,
    with the `Decodable` conformances of the route-plan response and the `as?` casts the
    event extractor applies. Parsing JSON text is not modelled; callers receive it as a
    function from text to an optional value. */
module Decoding {
  import opened Wrappers
  import opened Models

  datatype Json =
    | JNull
    | JBool(b: bool)
    | JNumber(n: real)
    | JString(s: string)
    | JArray(items: seq<Json>)
    | JObject(fields: map<string, Json>)

  /** Bounds of Swift's 64-bit `Int`. */
  const IntMin: int := -0x8000_0000_0000_0000
  const IntMax: int := 0x7FFF_FFFF_FFFF_FFFF

  /** The value under `key` of an object; `nil` for a missing key or a non-object. */
  function Field(j: Json, key: string): (r: Option<Json>)
    ensures r.Some? <==> j.JObject? && key in j.fields
    ensures r.Some? ==> r.value == j.fields[key]
  {
    if j.JObject? && key in j.fields then Some(j.fields[key]) else None
  }

  /** `as? String`: only a JSON string casts. */
  function AsString(j: Option<Json>): (r: Option<string>)
    ensures r.Some? <==> j.Some? && j.value.JString?
    ensures r.Some? ==> j.value == JString(r.value)
  {
    if j.Some? && j.value.JString? then Some(j.value.s) else None
  }

  /** A JSON number's value; any other value has none. */
  function NumberOf(j: Option<Json>): (r: Option<real>)
    ensures r.Some? <==> j.Some? && j.value.JNumber?
    ensures r.Some? ==> j.value == JNumber(r.value)
  {
    if j.Some? && j.value.JNumber? then Some(j.value.n) else None
  }

  /** `as? Double` on a `JSONSerialization` value: a number casts to its value, and a
      boolean, which arrives as an `NSNumber`, casts to 1.0 or 0.0. */
  function AsDouble(j: Option<Json>): (r: Option<real>)
    ensures r.Some? <==> j.Some? && (j.value.JNumber? || j.value.JBool?)
    ensures r.Some? && j.value.JNumber? ==> r.value == j.value.n
    ensures r.Some? && j.value.JBool? ==> r.value == if j.value.b then 1.0 else 0.0
  {
    match j
    case Some(JNumber(x)) => Some(x)
    case Some(JBool(b)) => Some(if b then 1.0 else 0.0)
    case _ => None
  }

  /** `Decodable` `String`: the key must be present and hold a string. */
  function DecodeString(j: Json, key: string): (r: Option<string>)
    ensures r.Some? <==> Field(j, key).Some? && Field(j, key).value.JString?
  {
    AsString(Field(j, key))
  }

  /** `Decodable` `Double`: the key must be present and hold a number; unlike the `as?`
      cast, a boolean is rejected. */
  function DecodeDouble(j: Json, key: string): (r: Option<real>)
    ensures r.Some? <==> Field(j, key).Some? && Field(j, key).value.JNumber?
    ensures r.Some? ==> Field(j, key).value.n == r.value
  {
    NumberOf(Field(j, key))
  }

  /** A number that is a whole value `Int` can hold. */
  predicate IsInt(x: real) {
    x == x.Floor as real && IntMin <= x.Floor <= IntMax
  }

  /** `Decodable` `Int`: the key must be present and hold a whole number in range. */
  function DecodeInt(j: Json, key: string): (r: Option<int>)
    ensures r.Some? <==> Field(j, key).Some? && Field(j, key).value.JNumber? && IsInt(Field(j, key).value.n)
    ensures r.Some? ==> IntMin <= r.value <= IntMax && r.value as real == Field(j, key).value.n
  {
    match Field(j, key)
    case Some(JNumber(x)) => if IsInt(x) then Some(x.Floor) else None
    case _ => None
  }

  /** `RouteSegmentData(from:)`: all six keys, with their types; other keys are ignored. */
  function DecodeSegmentData(j: Json): (r: Option<SegmentData>)
    ensures r.Some? <==> DecodeString(j, "fromLocation").Some? && DecodeString(j, "toLocation").Some?
                         && DecodeString(j, "transportationMode").Some? && DecodeInt(j, "travelTime").Some?
                         && DecodeDouble(j, "cost").Some? && DecodeString(j, "instructions").Some?
    ensures r.Some? ==> r.value == SegmentData(DecodeString(j, "fromLocation").value, DecodeString(j, "toLocation").value,
                                               DecodeString(j, "transportationMode").value, DecodeInt(j, "travelTime").value,
                                               DecodeDouble(j, "cost").value, DecodeString(j, "instructions").value)
  {
    var from, to, mode := DecodeString(j, "fromLocation"), DecodeString(j, "toLocation"), DecodeString(j, "transportationMode");
    var time, cost, instr := DecodeInt(j, "travelTime"), DecodeDouble(j, "cost"), DecodeString(j, "instructions");
    if from.Some? && to.Some? && mode.Some? && time.Some? && cost.Some? && instr.Some? then
      Some(SegmentData(from.value, to.value, mode.value, time.value, cost.value, instr.value))
    else None
  }

  /** `[RouteSegmentData]`: every element must decode, else the whole array fails. */
  function DecodeSegments(items: seq<Json>): (r: Option<seq<SegmentData>>)
    ensures r.Some? <==> forall i :: 0 <= i < |items| ==> DecodeSegmentData(items[i]).Some?
    ensures r.Some? ==> |r.value| == |items|
                        && forall i :: 0 <= i < |items| ==> Some(r.value[i]) == DecodeSegmentData(items[i])
    decreases |items|
  {
    if |items| == 0 then Some([])
    else
      match (DecodeSegmentData(items[0]), DecodeSegments(items[1..]))
      case (Some(d), Some(rest)) =>
        assert forall i :: 1 <= i < |items| ==> items[i] == items[1..][i - 1];
        Some([d] + rest)
      case (None, _) => None
      case (_, None) =>
        assert forall i :: 0 <= i < |items[1..]| ==> items[1..][i] == items[i + 1];
        None
  }

  /** `CompleteRoutePlanResponse(from:)`. */
  function DecodeResponse(j: Json): (r: Option<PlanResponse>)
    ensures r.Some? ==> Field(j, "segments").Some? && Field(j, "segments").value.JArray?
                        && Some(r.value.segments) == DecodeSegments(Field(j, "segments").value.items)
                        && Some(r.value.totalTravelTime) == DecodeInt(j, "totalTravelTime")
                        && Some(r.value.totalCost) == DecodeDouble(j, "totalCost")
    ensures r.None? <==> !(Field(j, "segments").Some? && Field(j, "segments").value.JArray?)
                         || DecodeSegments(Field(j, "segments").value.items).None?
                         || DecodeInt(j, "totalTravelTime").None? || DecodeDouble(j, "totalCost").None?
  {
    match Field(j, "segments")
    case Some(JArray(items)) =>
      var segs, time, cost := DecodeSegments(items), DecodeInt(j, "totalTravelTime"), DecodeDouble(j, "totalCost");
      if segs.Some? && time.Some? && cost.Some? then Some(PlanResponse(segs.value, time.value, cost.value))
      else None
    case _ => None
  }

  /** One element that fails to decode makes the whole response fail. */
  lemma BadSegmentFailsResponse(j: Json, k: nat)
    requires Field(j, "segments").Some? && Field(j, "segments").value.JArray?
    requires k < |Field(j, "segments").value.items|
    requires DecodeSegmentData(Field(j, "segments").value.items[k]).None?
    ensures DecodeResponse(j).None?
  {
  }

  /** A travel time given as the text "18 * 60" does not decode as an `Int`. */
  lemma TravelTimeExpressionDoesNotDecode(j: Json)
    requires Field(j, "travelTime") == Some(JString("18 * 60"))
    ensures DecodeSegmentData(j).None?
  {
  }

  /** A fractional travel time does not decode as an `Int` either. */
  lemma FractionalTravelTimeDoesNotDecode(j: Json)
    requires Field(j, "travelTime") == Some(JNumber(1800.5))
    ensures DecodeSegmentData(j).None?
  {
    assert (1800.5).Floor == 1800;
  }
}

=== FILE: event_forms.dfy ===
/** The event forms: year rollover and form population from extracted information
    (`EventCreationView`), the create guards shared with `ManualEventCreationView`, the
    edit round trip of `EventDetailDisplayView`, the save branch of `EventFormSheet` and
    `EventDetailsView`'s save. The clock, the device calendar and fresh identities are
    inputs. */
module EventForms {
  import opened Wrappers
  import opened Civil
  import opened Models
  import opened EventList
  import opened CalendarManager

  // ---------------------------------------------------------------- year rollover

  /** The instant one calendar year after `date`, when the calendar has one. */
  function YearLater(cal: Calendar, date: Instant): Option<Instant> {
    cal.instant(AddOneYear(cal.civil(date)))
  }

  /** `validateAndAdjustDate`: a date whose calendar day lies before today's is moved one
      year on; any other date, or one the calendar cannot handle, is kept. */
  function ValidateAndAdjustDate(cal: Calendar, date: Instant, now: Instant): (r: Instant)
    ensures r == date || (YearLater(cal, date).Some? && r == YearLater(cal, date).value)
  {
    var dateOnly := cal.instant(DateOnly(cal.civil(date)));
    var nowOnly := cal.instant(DateOnly(cal.civil(now)));
    if dateOnly.None? || nowOnly.None? then date
    else if dateOnly.value < nowOnly.value then YearLater(cal, date).GetOr(date)
    else date
  }

  /** A date on an earlier day than today moves exactly one year on, keeping its time of
      day; 29 February becomes 28 February. */
  lemma PastDateMovesOneYear(cal: Calendar, date: Instant, now: Instant)
    requires MidnightsOrdered(cal)
    requires DateBefore(cal.civil(date), cal.civil(now))
    requires cal.instant(DateOnly(cal.civil(date))).Some? && cal.instant(DateOnly(cal.civil(now))).Some?
    requires YearLater(cal, date).Some? && ReadsBack(cal, AddOneYear(cal.civil(date)))
    ensures var r := ValidateAndAdjustDate(cal, date, now);
            var c, d := cal.civil(date), cal.civil(r);
            d.year == c.year + 1 && d.month == c.month && d.secondOfDay == c.secondOfDay
            && d.day == (if c.month == 2 && c.day == 29 then 28 else c.day)
  {
  }

  /** A date on today's day or later is kept, even when its time of day has passed. */
  lemma LaterDateKept(cal: Calendar, date: Instant, now: Instant)
    requires MidnightsOrdered(cal)
    requires !DateBefore(cal.civil(date), cal.civil(now))
    ensures ValidateAndAdjustDate(cal, date, now) == date
  {
    var c, n := cal.civil(date), cal.civil(now);
    if !SameDate(c, n) {
      assert DateBefore(n, c);
    } else {
      assert DateOnly(c) == DateOnly(n);
    }
  }

  /** Whatever the calendar, an earlier time on today's date is kept. */
  lemma SameDayKept(cal: Calendar, date: Instant, now: Instant)
    requires SameDate(cal.civil(date), cal.civil(now))
    ensures ValidateAndAdjustDate(cal, date, now) == date
  {
    assert DateOnly(cal.civil(date)) == DateOnly(cal.civil(now));
  }

  /** At most one year is added: a date two or more years back stays in the past. */
  lemma {:induction false} TwoYearsBackStaysPast(cal: Calendar, date: Instant, now: Instant)
    requires ReadsBack(cal, AddOneYear(cal.civil(date)))
    requires cal.civil(date).year + 2 <= cal.civil(now).year
    ensures DateBefore(cal.civil(ValidateAndAdjustDate(cal, date, now)), cal.civil(now))
  {
    var r := ValidateAndAdjustDate(cal, date, now);
    if r != date {
      assert cal.civil(r) == AddOneYear(cal.civil(date));
    }
  }

  // ---------------------------------------------------------------- populating the form

  /** The creation form's fields. */
  datatype Form = Form(title: string, start: Instant, end: Instant, location: string, notes: string)

  const NewEventTitle: string := "New Event"
  const OneHour: int := 3600

  /** `populateEventFields`: the title or "New Event"; with an extracted start, both dates
      rolled over independently, or an end one hour after the rolled start; without one,
      the dates already in the form; location and notes or the empty text. */
  function PopulateEventFields(form: Form, info: ExtractedInfo, cal: Calendar, now: Instant): (f: Form)
    ensures info.title.None? ==> f.title == NewEventTitle
    ensures info.title.Some? ==> f.title == info.title.value
    ensures info.startDateTime.None? ==> f.start == form.start && f.end == form.end
    ensures info.startDateTime.Some? ==> f.start == ValidateAndAdjustDate(cal, info.startDateTime.value, now)
    ensures info.startDateTime.Some? && info.endDateTime.None? ==> f.end == f.start + OneHour
    ensures info.startDateTime.Some? && info.endDateTime.Some? ==>
              f.end == ValidateAndAdjustDate(cal, info.endDateTime.value, now)
    ensures f.location == info.location.GetOr("") && f.notes == info.description.GetOr("")
  {
    var title := info.title.GetOr(NewEventTitle);
    var (start, end) :=
      match info.startDateTime
      case None => (form.start, form.end)
      case Some(s) =>
        var adjusted := ValidateAndAdjustDate(cal, s, now);
        match info.endDateTime
        case Some(e) => (adjusted, ValidateAndAdjustDate(cal, e, now))
        case None => (adjusted, adjusted + OneHour);
    Form(title, start, end, info.location.GetOr(""), info.description.GetOr(""))
  }

  /** The two extracted dates are adjusted independently and never compared: with both
      on today's date or later and the end not after the start, the form is populated
      with an end not after its start (which Create then refuses). */
  lemma PopulatedEndCanPrecedeStart(cal: Calendar, now: Instant, form: Form, s: Instant, e: Instant)
    requires MidnightsOrdered(cal)
    requires !DateBefore(cal.civil(s), cal.civil(now)) && !DateBefore(cal.civil(e), cal.civil(now))
    requires e <= s
    ensures var info := ExtractedInfo("", None, Some(s), Some(e), None, None, DefaultConfidence);
            var f := PopulateEventFields(form, info, cal, now);
            f.end <= f.start
  {
    LaterDateKept(cal, s, now);
    LaterDateKept(cal, e, now);
  }

  // ---------------------------------------------------------------- creating an event

  const EmptyTitleAlert: string := "Please enter an event title"
  const EndBeforeStartAlert: string := "End time must be after start time"
  const CalendarSaveAlertPrefix: string := "Event saved locally but failed to save to calendar: "

  /** What pressing Create leads to. `finished` stands for clearing the form
      (`EventCreationView`) or dismissing the sheet (`ManualEventCreationView`). */
  datatype Submission =
    | Rejected(message: string)
    | Submitted(event: Event, change: Change, alert: Option<string>, finished: bool)

  /** `eventTitle.isEmpty ? nil : eventTitle`. */
  function NilIfEmpty(s: string): (r: Option<string>)
    ensures r.None? <==> s == ""
    ensures r.Some? ==> r.value == s
  {
    if s == "" then None else Some(s)
  }

  /** The event a valid form describes. */
  function FormEvent(form: Form, id: EventId, info: Option<ExtractedInfo>): (e: Event)
    ensures e.id == id && e.title == form.title && e.start == form.start && e.end == form.end
    ensures e.location == NilIfEmpty(form.location) && e.notes == NilIfEmpty(form.notes)
    ensures e.extractedInfo == info && e.eventIdentifier.None?
  {
    MakeEvent(id, form.title, form.start, form.end, NilIfEmpty(form.location), NilIfEmpty(form.notes), info)
  }

  /** The guards of both creation views: the title first, then the end after the start. */
  function CreateGuard(form: Form): (r: Option<string>)
    ensures r == Some(EmptyTitleAlert) <==> form.title == ""
    ensures r == Some(EndBeforeStartAlert) <==> form.title != "" && form.end <= form.start
    ensures r.None? <==> form.title != "" && form.end > form.start
  {
    if form.title == "" then Some(EmptyTitleAlert)
    else if form.end <= form.start then Some(EndBeforeStartAlert)
    else None
  }

  /** `createEvent` as written: the event is added through `addEvent`, which already asks
      the native calendar to save it, and with permission the view asks a second time.
      The second save's answer decides the alert and whether the form is finished. */
  function CreateEventAsWritten(form: Form, info: Option<ExtractedInfo>, events: seq<Event>, id: EventId,
                                hasPermission: bool, viewSave: Result<string, CalendarError>): (r: Submission)
    ensures CreateGuard(form).Some? <==> r.Rejected?
    ensures r.Rejected? ==> r.message == CreateGuard(form).value
    ensures r.Submitted? ==>
              r.event == FormEvent(form, id, info)
              && r.change.events == events + [r.event]
              && r.change.calls == [NativeSave(r.event)] + (if hasPermission then [NativeSave(r.event)] else [])
              && (r.alert.Some? <==> hasPermission && viewSave.Failure?)
              && (r.finished <==> r.alert.None?)
  {
    match CreateGuard(form)
    case Some(alert) => Rejected(alert)
    case None =>
      var e := FormEvent(form, id, info);
      var added := AddEvent(events, e);
      if hasPermission then
        var alert := if viewSave.Failure? then Some(CalendarSaveAlertPrefix + Description(viewSave.error)) else None;
        Submitted(e, Change(added.events, added.calls + [NativeSave(e)]), alert, alert.None?)
      else
        Submitted(e, added, None, true)
  }

  /** With permission, one press of Create asks the native calendar to save the same
      event twice, so the calendar ends up holding it twice. */
  lemma CreateSavesTwice(form: Form, info: Option<ExtractedInfo>, events: seq<Event>, id: EventId,
                         viewSave: Result<string, CalendarError>)
    requires CreateGuard(form).None?
    ensures var r := CreateEventAsWritten(form, info, events, id, true, viewSave);
            r.Submitted? && |r.change.calls| == 2 && r.change.calls[0] == r.change.calls[1] == NativeSave(r.event)
  {
  }

  /** `createEvent` corrected: the save `addEvent` asks for is the only one, and its answer
      decides the alert. */
  function CreateEvent(form: Form, info: Option<ExtractedInfo>, events: seq<Event>, id: EventId,
                       hasPermission: bool, addSave: Result<string, CalendarError>): (r: Submission)
    ensures CreateGuard(form).Some? <==> r.Rejected?
    ensures r.Rejected? ==> r.message == CreateGuard(form).value
    ensures r.Submitted? ==>
              r.event == FormEvent(form, id, info)
              && r.change.events == events + [r.event]
              && r.change.calls == [NativeSave(r.event)]
              && (r.alert.Some? <==> hasPermission && addSave.Failure?)
              && (r.finished <==> r.alert.None?)
  {
    match CreateGuard(form)
    case Some(alert) => Rejected(alert)
    case None =>
      var e := FormEvent(form, id, info);
      var alert := if hasPermission && addSave.Failure? then Some(CalendarSaveAlertPrefix + Description(addSave.error)) else None;
      Submitted(e, AddEvent(events, e), alert, alert.None?)
  }

  /** The corrected create asks for exactly one native save per created event, and it
      differs from the one as written only in that request list. */
  lemma CreateSavesOnce(form: Form, info: Option<ExtractedInfo>, events: seq<Event>, id: EventId,
                        hasPermission: bool, save: Result<string, CalendarError>)
    requires CreateGuard(form).None?
    ensures var fixed := CreateEvent(form, info, events, id, hasPermission, save);
            var written := CreateEventAsWritten(form, info, events, id, hasPermission, save);
            fixed.Submitted? && written.Submitted?
            && |fixed.change.calls| == 1
            && fixed.event == written.event && fixed.change.events == written.change.events
            && fixed.alert == written.alert && fixed.finished == written.finished
  {
  }

  /** A form populated from extracted information with a start, no end and a title that
      is absent or non-empty passes both guards. */
  lemma PopulatedFormPassesGuards(form: Form, info: ExtractedInfo, cal: Calendar, now: Instant)
    requires info.title != Some("")
    requires info.startDateTime.Some? && info.endDateTime.None?
    ensures CreateGuard(PopulateEventFields(form, info, cal, now)).None?
  {
  }

  /** `clearForm`: empty texts, and a one-hour slot starting now. */
  function ClearedForm(now: Instant): (f: Form)
    ensures f.title == "" && f.location == "" && f.notes == ""
    ensures f.end - f.start == OneHour && f.start == now
  {
    Form("", now, now + OneHour, "", "")
  }

  /** `ManualEventCreationView.createEvent` as written: the same guards and the same
      double save, with no extracted information. */
  function ManualCreateAsWritten(form: Form, events: seq<Event>, id: EventId, hasPermission: bool,
                                 viewSave: Result<string, CalendarError>): (r: Submission)
    ensures r.Submitted? ==> r.event.extractedInfo.None?
    ensures r.Submitted? && hasPermission ==> |r.change.calls| == 2
  {
    CreateEventAsWritten(form, None, events, id, hasPermission, viewSave)
  }

  /** The Create button is disabled for an empty title or while saving. */
  predicate CreateDisabled(title: string, isSaving: bool) {
    title == "" || isSaving
  }

  /** An enabled Create button never meets the empty-title alert. */
  lemma EnabledCreateHasTitle(form: Form, isSaving: bool)
    requires !CreateDisabled(form.title, isSaving)
    ensures CreateGuard(form) != Some(EmptyTitleAlert)
  {
  }

  // ---------------------------------------------------------------- editing an event

  /** The detail view's editing fields. */
  datatype EditFields = EditFields(title: string, start: Instant, end: Instant, location: string, notes: string)

  /** `initializeEditingFields`: the event's values, absent location or notes as "". */
  function InitializeEditingFields(e: Event): (f: EditFields)
    ensures f.title == e.title && f.start == e.start && f.end == e.end
    ensures f.location == e.location.GetOr("") && f.notes == e.notes.GetOr("")
  {
    EditFields(e.title, e.start, e.end, e.location.GetOr(""), e.notes.GetOr(""))
  }

  /** `saveChanges`: the edited values under the event's identity, extracted information
      and native identifier; an empty location or notes field gives none. */
  function SaveChanges(e: Event, f: EditFields): (r: Event)
    ensures r.id == e.id && r.extractedInfo == e.extractedInfo && r.eventIdentifier == e.eventIdentifier
    ensures r.title == f.title && r.start == f.start && r.end == f.end
    ensures r.location == NilIfEmpty(f.location) && r.notes == NilIfEmpty(f.notes)
  {
    Event(e.id, f.title, f.start, f.end, NilIfEmpty(f.location), NilIfEmpty(f.notes),
          e.extractedInfo, e.eventIdentifier)
  }

  /** Opening the editor and saving without edits gives the event back exactly when
      neither its location nor its notes is the empty text; an empty one becomes absent. */
  lemma EditRoundTrip(e: Event)
    ensures SaveChanges(e, InitializeEditingFields(e)) == e <==> e.location != Some("") && e.notes != Some("")
    ensures var r := SaveChanges(e, InitializeEditingFields(e));
            r.title == e.title && r.start == e.start && r.end == e.end
            && (e.location == Some("") ==> r.location.None?)
            && (e.notes == Some("") ==> r.notes.None?)
  {
  }

  /** What `EventFormSheet`'s Save button asks of its owner. */
  datatype SheetAction = UpdateWith(event: Event) | CreateNew

  /** The Save action: with an event being edited, an update keeping that event's identity,
      extracted information and native identifier; otherwise a create. */
  function FormSheetSave(existing: Option<Event>, form: Form): (a: SheetAction)
    ensures existing.None? <==> a.CreateNew?
    ensures existing.Some? ==>
              a.event.id == existing.value.id && a.event.extractedInfo == existing.value.extractedInfo
              && a.event.eventIdentifier == existing.value.eventIdentifier
              && a.event.location == NilIfEmpty(form.location) && a.event.notes == NilIfEmpty(form.notes)
  {
    match existing
    case Some(prev) =>
      UpdateWith(Event(prev.id, form.title, form.start, form.end, NilIfEmpty(form.location),
                       NilIfEmpty(form.notes), prev.extractedInfo, prev.eventIdentifier))
    case None => CreateNew
  }

  /** The sheet's update builds the same event as the detail view's save of the same
      fields. */
  lemma SheetUpdateIsSaveChanges(prev: Event, form: Form)
    ensures FormSheetSave(Some(prev), form)
         == UpdateWith(SaveChanges(prev, EditFields(form.title, form.start, form.end, form.location, form.notes)))
  {
  }

  // ---------------------------------------------------------------- event details sheet

  /** `setupEndDate`: one hour after the start. */
  function SetupEndDate(date: Instant): (end: Instant)
    ensures end - date == OneHour
  {
    date + OneHour
  }

  /** `EventDetailsView.saveEvent`: an all-day event ends one calendar day after its
      start, any other at the chosen end; no check that the end follows the start. */
  function DetailsSave(title: string, date: Instant, endDate: Instant, isAllDay: bool,
                       location: string, notes: string, info: Option<ExtractedInfo>,
                       id: EventId, cal: Calendar): (e: Event)
    ensures e.id == id && e.title == title && e.start == date && e.extractedInfo == info
    ensures e.end == if isAllDay then cal.nextDay(date) else endDate
    ensures e.location == NilIfEmpty(location) && e.notes == NilIfEmpty(notes)
  {
    MakeEvent(id, title, date, if isAllDay then cal.nextDay(date) else endDate,
              NilIfEmpty(location), NilIfEmpty(notes), info)
  }

  /** The details sheet saves an event ending before it starts, which both creation
      views refuse. */
  lemma DetailsSaveAcceptsReversedTimes(title: string, date: Instant, endDate: Instant,
                                        location: string, notes: string, id: EventId, cal: Calendar)
    requires title != "" && endDate <= date
    ensures var e := DetailsSave(title, date, endDate, false, location, notes, None, id, cal);
            e.end <= e.start
            && CreateGuard(Form(title, date, endDate, location, notes)) == Some(EndBeforeStartAlert)
  {
  }
}

=== FILE: event_list.dfy ===
/** `AppState`'s event list: append, update and delete by identity, clearing, and the
    events of one day. Local persistence is not modelled; the requests each operation
    sends to the native calendar are returned alongside the new list. */
module EventList {
  import opened Wrappers
  import opened Seqs
  import opened Civil
  import opened Models

  /** A request sent to the native calendar (`CalendarManager`). */
  datatype NativeCall =
    | NativeSave(event: Event)
    | NativeUpdate(identifier: string, event: Event)
    | NativeDelete(identifier: string)

  /** The event list after an operation and the native requests it sent, in order. */
  datatype Change = Change(events: seq<Event>, calls: seq<NativeCall>)

  /** Some stored event has identity `id`. */
  predicate HasId(events: seq<Event>, id: EventId) {
    exists i :: 0 <= i < |events| && events[i].id == id
  }

  /** `firstIndex(where: { $0.id == id })`. */
  function FirstIndexWithId(events: seq<Event>, id: EventId): (r: Option<nat>)
    ensures r.None? <==> !HasId(events, id)
    ensures r.Some? ==> r.value < |events| && events[r.value].id == id
                        && forall j :: 0 <= j < r.value ==> events[j].id != id
    decreases |events|
  {
    if |events| == 0 then None
    else if events[0].id == id then Some(0)
    else
      var rest := FirstIndexWithId(events[1..], id);
      assert forall j :: 1 <= j < |events| ==> events[j] == events[1..][j - 1];
      if rest.Some? then Some(rest.value + 1) else None
  }

  /** `first(where: { $0.id == id })`. */
  function FindById(events: seq<Event>, id: EventId): (r: Option<Event>)
    ensures r.None? <==> !HasId(events, id)
    ensures r.Some? ==> r.value in events && r.value.id == id
  {
    match FirstIndexWithId(events, id)
    case Some(k) => Some(events[k])
    case None => None
  }

  /** `addEvent`: appended at the end, then saved to the native calendar. */
  function AddEvent(events: seq<Event>, e: Event): (r: Change)
    ensures |r.events| == |events| + 1 && r.events[..|events|] == events && r.events[|events|] == e
    ensures r.calls == [NativeSave(e)]
  {
    Change(events + [e], [NativeSave(e)])
  }

  /** `updateEvent`: the first stored event with the same identity is replaced and the
      rest left alone; the native event is updated only when one was replaced and the new
      value carries a native identifier. An unknown identity changes nothing. */
  function UpdateEvent(events: seq<Event>, e: Event): (r: Change)
    ensures |r.events| == |events|
    ensures !HasId(events, e.id) ==> r.events == events && r.calls == []
    ensures HasId(events, e.id) ==>
              var k := FirstIndexWithId(events, e.id).value;
              r.events[k] == e && (forall j :: 0 <= j < |events| && j != k ==> r.events[j] == events[j])
              && r.calls == (if e.eventIdentifier.Some? then [NativeUpdate(e.eventIdentifier.value, e)] else [])
  {
    match FirstIndexWithId(events, e.id)
    case None => Change(events, [])
    case Some(k) =>
      var calls := if e.eventIdentifier.Some? then [NativeUpdate(e.eventIdentifier.value, e)] else [];
      Change(events[k := e], calls)
  }

  /** Keeps the events whose identity is not `id`. */
  function Other(id: EventId): Event -> bool {
    (x: Event) => x.id != id
  }

  /** `deleteEvent`: every stored event with the same identity is removed, each other one
      kept as often as it occurred; the native event is deleted whenever the argument
      carries a native identifier, whether or not it was stored. */
  function DeleteEvent(events: seq<Event>, e: Event): (r: Change)
    ensures |r.events| <= |events|
    ensures forall i :: 0 <= i < |r.events| ==> r.events[i].id != e.id
    ensures forall x: Event :: x.id != e.id ==> multiset(r.events)[x] == multiset(events)[x]
    ensures r.calls == if e.eventIdentifier.Some? then [NativeDelete(e.eventIdentifier.value)] else []
  {
    var kept := Filter(events, Other(e.id));
    assert forall x :: multiset(kept)[x] == if Other(e.id)(x) then multiset(events)[x] else 0 by {
      forall x {
        FilterCount(events, Other(e.id), x);
      }
    }
    Change(kept, if e.eventIdentifier.Some? then [NativeDelete(e.eventIdentifier.value)] else [])
  }

  /** `clearAllEvents`: the list is emptied; the native calendar is left untouched. */
  function ClearAllEvents(events: seq<Event>): (r: Change)
    ensures r.events == [] && r.calls == []
  {
    Change([], [])
  }

  /** Deleting an event just added under a new identity gives back the old list. */
  lemma DeleteUndoesAdd(events: seq<Event>, e: Event)
    requires !HasId(events, e.id)
    ensures DeleteEvent(AddEvent(events, e).events, e).events == events
  {
    FilterAppend(events, [e], Other(e.id));
    FilterAll(events, Other(e.id));
    assert Filter([e], Other(e.id)) == [];
  }

  /** Deleting works element by element, so the kept events stay in their order. */
  lemma DeleteKeepsOrder(a: seq<Event>, b: seq<Event>, e: Event)
    ensures DeleteEvent(a + b, e).events == DeleteEvent(a, e).events + DeleteEvent(b, e).events
  {
    FilterAppend(a, b, Other(e.id));
  }

  /** Deleting an identity not stored changes nothing. */
  lemma DeleteAbsentIsNoOp(events: seq<Event>, e: Event)
    requires !HasId(events, e.id)
    ensures DeleteEvent(events, e).events == events
  {
    FilterAll(events, Other(e.id));
  }

  /** After an update that found its identity, looking the identity up gives the new value. */
  lemma UpdateThenFind(events: seq<Event>, e: Event)
    requires HasId(events, e.id)
    ensures FindById(UpdateEvent(events, e).events, e.id) == Some(e)
  {
    var k := FirstIndexWithId(events, e.id).value;
    var r := UpdateEvent(events, e).events;
    FirstIndexWithIdAt(r, e.id, k);
  }

  /** `k` is the first index holding `id` when it holds it and no earlier index does. */
  lemma FirstIndexWithIdAt(events: seq<Event>, id: EventId, k: nat)
    requires k < |events| && events[k].id == id
    requires forall j :: 0 <= j < k ==> events[j].id != id
    ensures FirstIndexWithId(events, id) == Some(k)
  {
    assert events[k].id == id;
  }

  /** Repeating an update changes nothing more. */
  lemma UpdateIdempotent(events: seq<Event>, e: Event)
    ensures UpdateEvent(UpdateEvent(events, e).events, e).events == UpdateEvent(events, e).events
  {
    if HasId(events, e.id) {
      var k := FirstIndexWithId(events, e.id).value;
      var r := UpdateEvent(events, e).events;
      FirstIndexWithIdAt(r, e.id, k);
    }
  }

  /** The events starting in the half-open window `[lo, hi)`. */
  function StartsIn(lo: Instant, hi: Instant): Event -> bool {
    (x: Event) => lo <= x.start < hi
  }

  /** An event's start, the sort key of every event listing. */
  function StartOf(x: Event): int {
    x.start
  }

  /** The events starting in `[lo, hi)`, earliest first. */
  function EventsInWindow(events: seq<Event>, lo: Instant, hi: Instant): (r: seq<Event>)
    ensures |r| <= |events|
    ensures SortedBy(r, StartOf)
    ensures forall i :: 0 <= i < |r| ==> lo <= r[i].start < hi
  {
    var kept := Filter(events, StartsIn(lo, hi));
    InWindowAfterSort(kept, lo, hi);
    SortBy(kept, StartOf)
  }

  /** Sorting events that all start in `[lo, hi)` keeps them there. */
  lemma InWindowAfterSort(kept: seq<Event>, lo: Instant, hi: Instant)
    requires forall i :: 0 <= i < |kept| ==> StartsIn(lo, hi)(kept[i])
    ensures forall i :: 0 <= i < |SortBy(kept, StartOf)| ==> lo <= SortBy(kept, StartOf)[i].start < hi
  {
    var r := SortBy(kept, StartOf);
    forall i | 0 <= i < |r|
      ensures lo <= r[i].start < hi
    {
      SortByMember(kept, StartOf, r[i]);
      var j :| 0 <= j < |kept| && kept[j] == r[i];
    }
  }

  /** Each event is listed for `[lo, hi)` as often as it is stored when it starts in the
      window, and not at all otherwise. */
  lemma EventsInWindowCount(events: seq<Event>, lo: Instant, hi: Instant, x: Event)
    ensures multiset(EventsInWindow(events, lo, hi))[x]
            == if lo <= x.start < hi then multiset(events)[x] else 0
  {
    FilterCount(events, StartsIn(lo, hi), x);
  }

  /** An event is listed for `[lo, hi)` exactly when it is stored and starts in it. */
  lemma EventsInWindowMember(events: seq<Event>, lo: Instant, hi: Instant, x: Event)
    ensures x in EventsInWindow(events, lo, hi) <==> x in events && lo <= x.start < hi
  {
    var r := EventsInWindow(events, lo, hi);
    EventsInWindowCount(events, lo, hi, x);
    assert x in r <==> multiset(r)[x] > 0;
    assert x in events <==> multiset(events)[x] > 0;
  }

  /** `eventsForDate`: the events from the start of the date's day up to the start of the
      next day, earliest first. */
  function EventsForDate(events: seq<Event>, cal: Calendar, date: Instant): (r: seq<Event>)
    ensures SortedBy(r, StartOf)
    ensures forall i :: 0 <= i < |r| ==>
              cal.startOfDay(date) <= r[i].start < cal.nextDay(cal.startOfDay(date))
  {
    var lo := cal.startOfDay(date);
    EventsInWindow(events, lo, cal.nextDay(lo))
  }

  /** An added event is listed for a day exactly when it starts in that day's window. */
  lemma AddedEventListedOnItsDay(events: seq<Event>, e: Event, cal: Calendar, date: Instant)
    ensures var lo := cal.startOfDay(date);
            e in EventsForDate(AddEvent(events, e).events, cal, date)
            <==> lo <= e.start < cal.nextDay(lo)
  {
    var lo := cal.startOfDay(date);
    EventsInWindowMember(AddEvent(events, e).events, lo, cal.nextDay(lo), e);
    assert e in AddEvent(events, e).events;
  }

  /** A cleared list has no events on any day. */
  lemma ClearedDayIsEmpty(events: seq<Event>, cal: Calendar, date: Instant)
    ensures EventsForDate(ClearAllEvents(events).events, cal, date) == []
  {
  }
}

=== FILE: extraction.dfy ===
/** Event extraction: `AITextExtractor.extractEventInfo` and its fallback,
    `TextExtractor.parseEventInfo`, and the empty-text guard of `TextExtractor.extractText`.
    The chat request, OCR, JSON text parsing and ISO-8601 parsing are inputs. */
module Extraction {
  import opened Wrappers
  import opened Strings
  import opened Civil
  import opened Models
  import opened Decoding

  /** AIExtractionError. */
  datatype ExtractionError =
    | InvalidURL
    | NoData
    | InvalidResponse
    | InvalidJSON
    | ApiError(message: string)
    | ClientNotInitialized

  /** `errorDescription`, which is what `localizedDescription` shows. */
  function Description(e: ExtractionError): (d: string)
    ensures e.ApiError? ==> d == "API Error: " + e.message
    ensures e.InvalidURL? ==> d == "Invalid API URL"
    ensures e.NoData? ==> d == "No data received from API"
    ensures e.InvalidResponse? ==> d == "Invalid response from AI service"
    ensures e.InvalidJSON? ==> d == "Invalid JSON in AI response"
    ensures e.ClientNotInitialized? ==> d == "OpenAI client not initialized"
  {
    match e
    case InvalidURL => "Invalid API URL"
    case NoData => "No data received from API"
    case InvalidResponse => "Invalid response from AI service"
    case InvalidJSON => "Invalid JSON in AI response"
    case ApiError(m) => "API Error: " + m
    case ClientNotInitialized => "OpenAI client not initialized"
  }

  /** How the chat request ended. */
  datatype ChatOutcome =
    | OpenAIFailure(message: string)  // an `OpenAIError`, with its localized description
    | OtherFailure                    // any other thrown error
    | NoContent                       // no first choice, or one without content
    | Content(text: string)           // the first choice's message content

  const FallbackConfidence: real := 0.3
  const DefaultTitle: string := "Event"
  const LocationWord: string := "Location"

  // ---------------------------------------------------------------------------------
  // Fallback title

  /** A trimmed line that can serve as a title: non-empty and free of the words "Date",
      "Time" and "Location" (case-sensitive). */
  predicate TitleCandidate(t: string) {
    t != "" && !Contains(t, "Date") && !Contains(t, "Time") && !Contains(t, "Location")
  }

  /** Index of the first line whose trimmed text is a title candidate. */
  function FirstTitleIndex(lines: seq<string>, from: nat): (r: Option<nat>)
    requires from <= |lines|
    ensures r.Some? ==> from <= r.value < |lines| && TitleCandidate(Trim(lines[r.value]))
                        && forall k :: from <= k < r.value ==> !TitleCandidate(Trim(lines[k]))
    ensures r.None? ==> forall k :: from <= k < |lines| ==> !TitleCandidate(Trim(lines[k]))
    decreases |lines| - from
  {
    if from == |lines| then None
    else if TitleCandidate(Trim(lines[from])) then Some(from)
    else FirstTitleIndex(lines, from + 1)
  }

  /** The fallback title: the first candidate line, trimmed, or "Event". */
  function FallbackTitle(text: string): (t: string)
    ensures t != ""
  {
    var lines := Lines(text);
    match FirstTitleIndex(lines, 0)
    case Some(k) => Trim(lines[k])
    case None => DefaultTitle
  }

  /** Line `k` is the first whose trimmed text is a title candidate. */
  predicate FirstCandidateAt(lines: seq<string>, k: int) {
    0 <= k < |lines| && TitleCandidate(Trim(lines[k]))
    && forall m :: 0 <= m < k ==> !TitleCandidate(Trim(lines[m]))
  }

  /** The fallback title is the first candidate line, trimmed, and "Event" when no line
      qualifies. */
  lemma FallbackTitleIsFirstCandidate(text: string)
    ensures var lines := Lines(text);
            (forall k :: 0 <= k < |lines| ==> !TitleCandidate(Trim(lines[k]))) ==> FallbackTitle(text) == DefaultTitle
    ensures var lines := Lines(text);
            forall k :: FirstCandidateAt(lines, k) ==> FallbackTitle(text) == Trim(lines[k])
  {
    var lines := Lines(text);
    match FirstTitleIndex(lines, 0)
    case Some(k) =>
      forall k' | FirstCandidateAt(lines, k')
        ensures FallbackTitle(text) == Trim(lines[k'])
      {
        assert k' == k;
      }
    case None =>
  }

  // ---------------------------------------------------------------------------------
  // Fallback location: the regular expression `Location[\s\n]*([^\n]+)`

  /** ICU's `\s`: tab, line feed, form feed, carriage return and the Unicode separators. */
  predicate IsRegexSpace(c: char) {
    c == '\t' || c == '\n' || c == '\U{0C}' || c == '\r' || c == ' ' || c == '\U{A0}' || c == '\U{1680}'
    || ('\U{2000}' <= c <= '\U{200A}') || c == '\U{2028}' || c == '\U{2029}'
    || c == '\U{202F}' || c == '\U{205F}' || c == '\U{3000}'
  }

  /** End of the longest run of `\s` characters starting at `k`. */
  function SpaceRunEnd(s: string, k: nat): (r: nat)
    requires k <= |s|
    ensures k <= r <= |s|
    ensures forall m :: k <= m < r ==> IsRegexSpace(s[m])
    ensures r == |s| || !IsRegexSpace(s[r])
    decreases |s| - k
  {
    if k < |s| && IsRegexSpace(s[k]) then SpaceRunEnd(s, k + 1) else k
  }

  /** End of the longest run of non-line-feed characters starting at `p`. */
  function LineEndFrom(s: string, p: nat): (r: nat)
    requires p <= |s|
    ensures p <= r <= |s|
    ensures forall m :: p <= m < r ==> s[m] != '\n'
    ensures r == |s| || s[r] == '\n'
    decreases |s| - p
  {
    if p < |s| && s[p] != '\n' then LineEndFrom(s, p + 1) else p
  }

  /** The last position in `[k, e)` not holding a line feed. */
  function LastNonLineFeed(s: string, k: nat, e: nat): (r: Option<nat>)
    requires k <= e <= |s|
    ensures r.Some? ==> k <= r.value < e && s[r.value] != '\n'
                        && forall m :: r.value < m < e ==> s[m] == '\n'
    ensures r.None? ==> forall m :: k <= m < e ==> s[m] == '\n'
    decreases e - k
  {
    if e == k then None
    else if s[e - 1] != '\n' then Some(e - 1)
    else LastNonLineFeed(s, k, e - 1)
  }

  /** End of the match starting at `i`, if one does. "Location" must occur at `i`; the
      greedy `[\s\n]*` takes the whole space run, giving back characters only when the run
      reaches the end of the text; `[^\n]+` then runs to the end of its line. */
  function MatchEndAt(s: string, i: nat): (r: Option<nat>)
    requires i <= |s|
    ensures r.Some? ==> OccursAt(s, LocationWord, i) && i + |LocationWord| < r.value <= |s|
    ensures r.Some? ==> s[r.value - 1] != '\n' && (r.value == |s| || s[r.value] == '\n')
  {
    if !OccursAt(s, LocationWord, i) then None
    else
      var k := i + |LocationWord|;
      var w := SpaceRunEnd(s, k);
      if w < |s| then
        assert s[w] != '\n';
        Some(LineEndFrom(s, w))
      else
        match LastNonLineFeed(s, k, w)
        case None => None
        case Some(p) => Some(LineEndFrom(s, p))
  }

  /** Start of the leftmost match at or after `i`. */
  function FindMatchFrom(s: string, i: nat): (r: Option<nat>)
    requires i <= |s|
    ensures r.Some? ==> i <= r.value <= |s| && MatchEndAt(s, r.value).Some?
    decreases |s| - i
  {
    if MatchEndAt(s, i).Some? then Some(i)
    else if i == |s| then None
    else FindMatchFrom(s, i + 1)
  }

  /** The search finds the leftmost match: whenever a match starts at `m`, one is found
      and it starts no later than `m`. */
  lemma {:induction false} FindMatchFromLeftmost(s: string, i: nat, m: nat)
    requires i <= m <= |s| && MatchEndAt(s, m).Some?
    ensures FindMatchFrom(s, i).Some? && FindMatchFrom(s, i).value <= m
    decreases |s| - i
  {
    if MatchEndAt(s, i).None? {
      assert i < m;
      FindMatchFromLeftmost(s, i + 1, m);
    }
  }

  /** `text.range(of: "Location[\\s\\n]*([^\\n]+)", options: .regularExpression)`, as the
      matched text (the whole match, not the capture group). */
  function LocationMatch(text: string): (r: Option<string>)
    ensures r.Some? <==> FindMatchFrom(text, 0).Some?
    ensures r.Some? ==> var i := FindMatchFrom(text, 0).value;
                        r.value == text[i..MatchEndAt(text, i).value]
    ensures r.Some? ==> StartsWith(r.value, LocationWord) && |r.value| > |LocationWord|
    ensures r.Some? ==> Contains(text, LocationWord)
  {
    match FindMatchFrom(text, 0)
    case None => None
    case Some(i) =>
      var e := MatchEndAt(text, i).value;
      var m := text[i..e];
      assert m[..|LocationWord|] == text[i..i + |LocationWord|];
      assert OccursAt(text, LocationWord, i);
      Some(m)
  }

  /** Trimming keeps a leading "Location": its letters are not whitespace. */
  lemma TrimKeepsLocationWord(m: string)
    requires StartsWith(m, LocationWord)
    ensures StartsWith(Trim(m), LocationWord)
  {
    assert !IsWhitespace(m[0]);
    assert TrimStart(m) == m;
    var b := TrimEndDropsWhitespace(m);
    assert m[|LocationWord| - 1] == 'n';
    assert b >= |LocationWord|;
    assert Trim(m) == m[..b];
    assert m[..b][..|LocationWord|] == m[..|LocationWord|];
  }

  /** The fallback location: the trimmed match, `nil` when empty or absent. */
  function FallbackLocation(text: string): (r: Option<string>)
    ensures r.Some? ==> r.value != "" && StartsWith(r.value, LocationWord)
    ensures !Contains(text, LocationWord) ==> r.None?
  {
    match LocationMatch(text)
    case None => None
    case Some(m) =>
      TrimKeepsLocationWord(m);
      var t := Trim(m);
      if t == "" then None else Some(t)
  }

  /** The whole match is kept, so the location starts with the word "Location" rather
      than being the text after it. */
  lemma LocationKeepsTheWord()
    ensures FallbackLocation("Location: Cafe") == Some("Location: Cafe")
  {
    var s := "Location: Cafe";
    assert OccursAt(s, LocationWord, 0);
    assert SpaceRunEnd(s, 8) == 8;
    assert LineEndFrom(s, 8) == 14;
    assert MatchEndAt(s, 0) == Some(14);
    assert FindMatchFrom(s, 0) == Some(0);
    assert s[0..14] == s;
    TrimKeepsSolidText(s);
  }

  /** "Location" with nothing after it does not match, so the location is `nil` even
      though the word is present. */
  lemma BareLocationWordGivesNil()
    ensures Contains("Location", LocationWord) && FallbackLocation("Location") == None
  {
    var s := "Location";
    assert OccursAt(s, LocationWord, 0);
    assert FindMatchFrom(s, 0) == None by {
      forall m | 0 <= m <= |s| ensures MatchEndAt(s, m).None? {
        if 0 < m { assert !OccursAt(s, LocationWord, m); }
      }
    }
  }

  // ---------------------------------------------------------------------------------
  // Records

  /** `createFallbackExtraction`, with `now` the clock reading. */
  function FallbackExtraction(text: string, now: Instant): (r: ExtractedInfo)
    ensures r.rawText == text && r.description == Some(text)
    ensures r.confidence == FallbackConfidence
    ensures r.title.Some? && r.title.value != ""
    ensures r.startDateTime == Some(now) && r.endDateTime == Some(now + SecondsPerHour)
    ensures r.location.Some? ==> StartsWith(r.location.value, LocationWord)
    ensures !Contains(text, LocationWord) ==> r.location.None?
  {
    ExtractedInfo(text, Some(FallbackTitle(text)), Some(now), Some(now + SecondsPerHour),
                  FallbackLocation(text), Some(text), FallbackConfidence)
  }

  /** An ISO-8601 date field: present only when the value is a string the formatter reads. */
  function DateField(obj: Json, key: string, parseIso: string -> Option<Instant>): (r: Option<Instant>)
    ensures AsString(Field(obj, key)).None? ==> r.None?
    ensures AsString(Field(obj, key)).Some? ==> r == parseIso(AsString(Field(obj, key)).value)
  {
    match AsString(Field(obj, key))
    case None => None
    case Some(s) => parseIso(s)
  }

  /** The record built from the reply's JSON object. */
  function FromJson(text: string, obj: Json, parseIso: string -> Option<Instant>): (r: ExtractedInfo)
    ensures r.rawText == text
    ensures r.title == AsString(Field(obj, "title"))
    ensures r.location == AsString(Field(obj, "location"))
    ensures r.description == AsString(Field(obj, "description"))
    ensures var c := Field(obj, "confidence");
            (c.Some? && c.value.JNumber? ==> r.confidence == c.value.n)
            && (c.Some? && c.value.JBool? ==> r.confidence == if c.value.b then 1.0 else 0.0)
            && (!(c.Some? && (c.value.JNumber? || c.value.JBool?)) ==> r.confidence == DefaultConfidence)
    ensures r.startDateTime == DateField(obj, "startDateTime", parseIso)
    ensures r.endDateTime == DateField(obj, "endDateTime", parseIso)
  {
    MakeExtractedInfo(text, AsString(Field(obj, "title")), DateField(obj, "startDateTime", parseIso),
                      DateField(obj, "endDateTime", parseIso), AsString(Field(obj, "location")),
                      AsString(Field(obj, "description")), AsDouble(Field(obj, "confidence")).GetOr(DefaultConfidence))
  }

  /** `extractEventInfo`. A missing client and an OpenAI error are failures; every other
      error — no content, content that is not a JSON object, any other thrown error —
      becomes the fallback record. The content is parsed as it arrives, without cleaning. */
  function ExtractEventInfo(text: string, clientReady: bool, outcome: ChatOutcome,
                            parseJson: string -> Option<Json>, parseIso: string -> Option<Instant>,
                            now: Instant): (r: Result<ExtractedInfo, ExtractionError>)
    ensures !clientReady ==> r == Failure(ClientNotInitialized)
    ensures clientReady && outcome.OpenAIFailure? ==> r == Failure(ApiError(outcome.message))
    ensures clientReady && (outcome.OtherFailure? || outcome.NoContent?) ==> r == Success(FallbackExtraction(text, now))
    ensures clientReady && outcome.Content? ==>
              var j := parseJson(outcome.text);
              (j.Some? && j.value.JObject? ==> r == Success(FromJson(text, j.value, parseIso)))
              && (!(j.Some? && j.value.JObject?) ==> r == Success(FallbackExtraction(text, now)))
  {
    if !clientReady then Failure(ClientNotInitialized)
    else
      match outcome
      case OpenAIFailure(m) => Failure(ApiError(m))
      case OtherFailure => Success(FallbackExtraction(text, now))
      case NoContent => Success(FallbackExtraction(text, now))      // invalidResponse, caught
      case Content(c) =>
        match parseJson(c)
        case Some(JObject(fields)) => Success(FromJson(text, JObject(fields), parseIso))
        case _ => Success(FallbackExtraction(text, now))            // invalidJSON or a parse error, caught
  }

  /** The extractor fails exactly for a missing client or an OpenAI error, and every record
      it produces carries the input text. */
  lemma ExtractionFailsOnlyForClientOrApi(text: string, clientReady: bool, outcome: ChatOutcome,
                                          parseJson: string -> Option<Json>,
                                          parseIso: string -> Option<Instant>, now: Instant)
    ensures var r := ExtractEventInfo(text, clientReady, outcome, parseJson, parseIso, now);
            (r.Failure? <==> !clientReady || outcome.OpenAIFailure?)
            && (r.Success? ==> r.value.rawText == text)
  {
  }

  /** A reply wrapped in a Markdown fence that the JSON parser rejects gives the fallback,
      since the extractor does not clean its input. */
  lemma FencedReplyFallsBack(text: string, body: string, parseJson: string -> Option<Json>,
                             parseIso: string -> Option<Instant>, now: Instant)
    requires parseJson("```json" + body + "```").None?
    ensures ExtractEventInfo(text, true, Content("```json" + body + "```"), parseJson, parseIso, now)
         == Success(FallbackExtraction(text, now))
  {
  }

  /** `parseEventInfo`'s record for a failed extraction. */
  function FailureRecord(text: string, e: ExtractionError, now: Instant): (r: ExtractedInfo)
    ensures r.rawText == text && r.title == Some("AI Extraction Failed") && r.location.None?
    ensures r.confidence == 0.0
    ensures r.startDateTime == Some(now) && r.endDateTime == Some(now + SecondsPerHour)
    ensures r.description == Some("Please check your API key and try again. Error: " + Description(e))
  {
    ExtractedInfo(text, Some("AI Extraction Failed"), Some(now), Some(now + SecondsPerHour), None,
                  Some("Please check your API key and try again. Error: " + Description(e)), 0.0)
  }

  /** `parseEventInfo`: a success passes through unchanged; a failure becomes the failure
      record. Exactly one record is produced either way. */
  function ParseEventInfo(text: string, result: Result<ExtractedInfo, ExtractionError>, now: Instant): (r: ExtractedInfo)
    ensures result.Success? ==> r == result.value
    ensures result.Failure? ==> r == FailureRecord(text, result.error, now)
  {
    match result
    case Success(info) => info
    case Failure(e) => FailureRecord(text, e, now)
  }

  /** Through the whole pipeline the record keeps the input text; a failed extractor
      gives confidence 0.0, and a fallback gives the fallback confidence. */
  lemma PipelineKeepsRawText(text: string, clientReady: bool, outcome: ChatOutcome,
                             parseJson: string -> Option<Json>, parseIso: string -> Option<Instant>,
                             now: Instant)
    ensures var r := ParseEventInfo(text, ExtractEventInfo(text, clientReady, outcome, parseJson, parseIso, now), now);
            r.rawText == text
            && ((!clientReady || outcome.OpenAIFailure?) ==> r.confidence == 0.0 && r.title == Some("AI Extraction Failed"))
            && (clientReady && !outcome.Content? && !outcome.OpenAIFailure? ==> r.confidence == FallbackConfidence)
  {
  }

  // ---------------------------------------------------------------------------------
  // OCR result guard

  /** TextExtractionError. */
  datatype TextExtractionError = InvalidImage | NoTextFound | VisionError(message: string)

  /** What the Vision request produced. */
  datatype OcrOutcome =
    | NoImage                                   // the image has no bitmap
    | RequestError(message: string)             // the request reported an error
    | NoObservations                            // results were not text observations
    | Observations(candidates: seq<Option<string>>)  // each observation's top candidate, if any

  /** The present candidates, in order (`compactMap`). */
  function Present(cs: seq<Option<string>>): (r: seq<string>)
    ensures |r| <= |cs|
    ensures forall k :: 0 <= k < |cs| && cs[k].Some? ==> cs[k].value in r
    ensures forall i :: 0 <= i < |r| ==> exists k :: 0 <= k < |cs| && cs[k] == Some(r[i])
    decreases |cs|
  {
    if |cs| == 0 then []
    else
      var head := if cs[0].Some? then [cs[0].value] else [];
      var rest := Present(cs[1..]);
      assert forall i :: 0 <= i < |rest| ==> exists k :: 1 <= k < |cs| && cs[k] == Some(rest[i]) by {
        forall i | 0 <= i < |rest| ensures exists k :: 1 <= k < |cs| && cs[k] == Some(rest[i]) {
          var k :| 0 <= k < |cs[1..]| && cs[1..][k] == Some(rest[i]);
          assert cs[k + 1] == Some(rest[i]);
        }
      }
      head + rest
  }

  /** Collecting keeps the order: the candidates of a concatenation are those of each
      part, one after the other. */
  lemma {:induction false} PresentAppend(a: seq<Option<string>>, b: seq<Option<string>>)
    ensures Present(a + b) == Present(a) + Present(b)
    decreases |a|
  {
    if |a| == 0 {
      assert a + b == b;
    } else {
      assert (a + b)[0] == a[0];
      assert (a + b)[1..] == a[1..] + b;
      PresentAppend(a[1..], b);
    }
  }

  /** One observation contributes its candidate when it has one, and nothing otherwise. */
  lemma PresentSingle(c: Option<string>)
    ensures Present([c]) == if c.Some? then [c.value] else []
  {
    assert [c][1..] == [];
  }

  /** `extractText`'s outcome: the present candidates joined by line feeds, or
      `noTextFound` when that text is empty. */
  function ExtractText(ocr: OcrOutcome): (r: Result<string, TextExtractionError>)
    ensures r.Success? ==> r.value != "" && ocr.Observations? && r.value == Join(Present(ocr.candidates), "\n")
    ensures ocr.Observations? && Join(Present(ocr.candidates), "\n") == "" ==> r == Failure(NoTextFound)
    ensures ocr.Observations? && Join(Present(ocr.candidates), "\n") != "" ==> r == Success(Join(Present(ocr.candidates), "\n"))
    ensures ocr.NoImage? ==> r == Failure(InvalidImage)
    ensures ocr.RequestError? ==> r == Failure(VisionError(ocr.message))
    ensures ocr.NoObservations? ==> r == Failure(NoTextFound)
  {
    match ocr
    case NoImage => Failure(InvalidImage)
    case RequestError(m) => Failure(VisionError(m))
    case NoObservations => Failure(NoTextFound)
    case Observations(cs) =>
      var text := Join(Present(cs), "\n");
      if text == "" then Failure(NoTextFound) else Success(text)
  }

  /** The recognised text is empty exactly when no candidate is present or the only one
      present is empty. */
  lemma NoTextFoundIff(cs: seq<Option<string>>)
    ensures ExtractText(Observations(cs)) == Failure(NoTextFound)
            <==> |Present(cs)| == 0 || Present(cs) == [""]
  {
    JoinEmptyIff(Present(cs), "\n");
  }
}

=== FILE: ics_export.dfy ===
/** `CalendarManager.exportCalendarEvents`: the iCalendar text of a list of events
    (the VCALENDAR object of section 3.4 of RFC 5545 holding one VEVENT of section 3.6.1
    per event). Lines end in a bare line feed, long lines are not folded and text values
    are not escaped, unlike sections 3.1 and 3.3.11 of RFC 5545; the model keeps that.
    The UTC date formatter and the generated UIDs are inputs. */
module IcsExport {
  import opened Wrappers
  import opened Strings
  import opened Civil
  import opened Models

  const Header: string := "BEGIN:VCALENDAR" + "\n" + ("VERSION:2.0" + "\n" + "PRODID:-//ScheduleShare//EN") + "\n"
  const Footer: string := "END:VCALENDAR"

  /** The three header lines. */
  const HeaderLines: seq<string> := ["BEGIN:VCALENDAR", "VERSION:2.0", "PRODID:-//ScheduleShare//EN"]

  /** The fixed first part of a block: the BEGIN, UID, DTSTART, DTEND and SUMMARY lines,
      without a line feed after the last. */
  function BlockHead(e: Event, uid: string, stamp: Instant -> string): string {
    "BEGIN:VEVENT" + "\n" + ("UID:" + uid + "\n" + ("DTSTART:" + stamp(e.start) + "\n"
    + ("DTEND:" + stamp(e.end) + "\n" + ("SUMMARY:" + e.title))))
  }

  /** The LOCATION line when there is a location, then the DESCRIPTION line when there
      are notes, each after a line feed. */
  function OptionalLines(e: Event): string {
    (if e.location.Some? then "\n" + ("LOCATION:" + e.location.value) else "")
    + (if e.notes.Some? then "\n" + ("DESCRIPTION:" + e.notes.value) else "")
  }

  /** One event's VEVENT text, ending in a line feed. */
  function EventBlock(e: Event, uid: string, stamp: Instant -> string): (r: string)
    ensures StartsWith(r, "BEGIN:VEVENT\n") && EndsWith(r, "\nEND:VEVENT\n")
  {
    var head := BlockHead(e, uid, stamp);
    var r := head + OptionalLines(e) + "\n" + "END:VEVENT" + "\n";
    assert head[..13] == "BEGIN:VEVENT\n";
    assert r[..13] == head[..13];
    assert r[|r| - 12..] == "\nEND:VEVENT\n";
    r
  }

  /** The VEVENT texts of all events, in order; event `i` gets `uids[i]`. */
  function Blocks(events: seq<Event>, uids: seq<string>, stamp: Instant -> string): string
    requires |uids| == |events|
    decreases |events|
  {
    if |events| == 0 then ""
    else EventBlock(events[0], uids[0], stamp) + Blocks(events[1..], uids[1..], stamp)
  }

  /** `exportCalendarEvents`, with `uids` the fresh UUID strings drawn for the events. */
  function ExportCalendarEvents(events: seq<Event>, uids: seq<string>, stamp: Instant -> string): (r: string)
    requires |uids| == |events|
    ensures StartsWith(r, Header) && EndsWith(r, Footer)
    ensures |events| == 0 ==> r == Header + Footer
  {
    var r := Header + Blocks(events, uids, stamp) + Footer;
    assert r[..|Header|] == Header;
    assert r[|r| - |Footer|..] == Footer;
    r
  }

  /** The content lines of one VEVENT: BEGIN, UID, DTSTART, DTEND and SUMMARY, then a
      LOCATION line when there is a location and a DESCRIPTION line when there are notes,
      then END. */
  function BlockLines(e: Event, uid: string, stamp: Instant -> string): (r: seq<string>)
    ensures 6 <= |r| <= 8
    ensures r[0] == "BEGIN:VEVENT" && r[1] == "UID:" + uid && r[2] == "DTSTART:" + stamp(e.start)
            && r[3] == "DTEND:" + stamp(e.end) && r[4] == "SUMMARY:" + e.title
            && r[|r| - 1] == "END:VEVENT"
    ensures |r| == 6 + (if e.location.Some? then 1 else 0) + (if e.notes.Some? then 1 else 0)
    ensures e.location.Some? ==> r[5] == "LOCATION:" + e.location.value
    ensures e.notes.Some? ==> r[|r| - 2] == "DESCRIPTION:" + e.notes.value
  {
    ["BEGIN:VEVENT", "UID:" + uid, "DTSTART:" + stamp(e.start), "DTEND:" + stamp(e.end),
     "SUMMARY:" + e.title]
    + (if e.location.Some? then ["LOCATION:" + e.location.value] else [])
    + (if e.notes.Some? then ["DESCRIPTION:" + e.notes.value] else [])
    + ["END:VEVENT"]
  }

  /** The content lines of all events' VEVENTs, in order. */
  function AllBlockLines(events: seq<Event>, uids: seq<string>, stamp: Instant -> string): seq<string>
    requires |uids| == |events|
    decreases |events|
  {
    if |events| == 0 then []
    else BlockLines(events[0], uids[0], stamp) + AllBlockLines(events[1..], uids[1..], stamp)
  }

  /** The export as a list of content lines: the header, every event's block, the footer. */
  function ExportLines(events: seq<Event>, uids: seq<string>, stamp: Instant -> string): seq<string>
    requires |uids| == |events|
  {
    HeaderLines + AllBlockLines(events, uids, stamp) + [Footer]
  }

  /** The header text is its three lines, each ended by a line feed. */
  lemma HeaderIsLines()
    ensures Header == Join(HeaderLines, "\n") + "\n"
  {
    var a, b, c := "BEGIN:VCALENDAR", "VERSION:2.0", "PRODID:-//ScheduleShare//EN";
    assert Join([b, c], "\n") == b + "\n" + c by { assert [b, c][1..] == [c]; }
    assert HeaderLines[1..] == [b, c];
  }

  /** Joining five parts. */
  lemma JoinFive(a: string, b: string, c: string, d: string, t: string, sep: string)
    ensures Join([a, b, c, d, t], sep) == a + sep + (b + sep + (c + sep + (d + sep + t)))
  {
    var l := [a, b, c, d, t];
    assert l[1..][1..][1..][1..] == [t];
    assert Join([d, t], sep) == d + sep + t by { assert [d, t][1..] == [t]; }
    assert Join([c, d, t], sep) == c + sep + Join([d, t], sep) by { assert [c, d, t][1..] == [d, t]; }
    assert Join([b, c, d, t], sep) == b + sep + Join([c, d, t], sep) by { assert [b, c, d, t][1..] == [c, d, t]; }
    assert l[1..] == [b, c, d, t];
  }

  /** Joining with one more part appends a separator and that part. */
  lemma JoinSnoc(parts: seq<string>, x: string, sep: string)
    requires |parts| > 0
    ensures Join(parts + [x], sep) == Join(parts, sep) + sep + x
  {
    JoinAppend(parts, [x], sep);
  }

  /** The five fixed lines joined give the fixed first part of a block. */
  lemma BlockHeadIsLines(e: Event, uid: string, stamp: Instant -> string)
    ensures Join(BlockLines(e, uid, stamp)[..5], "\n") == BlockHead(e, uid, stamp)
  {
    var l := BlockLines(e, uid, stamp);
    assert l[..5] == ["BEGIN:VEVENT", "UID:" + uid, "DTSTART:" + stamp(e.start), "DTEND:" + stamp(e.end),
                      "SUMMARY:" + e.title];
    JoinFive("BEGIN:VEVENT", "UID:" + uid, "DTSTART:" + stamp(e.start), "DTEND:" + stamp(e.end),
             "SUMMARY:" + e.title, "\n");
  }

  /** Joining with two more parts. */
  lemma JoinSnocSnoc(head: seq<string>, u: string, v: string, sep: string)
    requires |head| > 0
    ensures Join(head + [u, v], sep) == Join(head, sep) + ((sep + u) + (sep + v))
  {
    assert head + [u, v] == (head + [u]) + [v];
    JoinSnoc(head, u, sep);
    JoinSnoc(head + [u], v, sep);
    Regroup(Join(head, sep), sep, u, sep, v);
  }

  /** Regrouping four appended texts. */
  lemma Regroup(j: string, a: string, b: string, c: string, d: string)
    ensures j + a + b + c + d == j + ((a + b) + (c + d))
  {
  }

  /** The parts of the optional lines that are present. */
  function OptionalParts(x: Option<string>, y: Option<string>): seq<string> {
    (if x.Some? then [x.value] else []) + (if y.Some? then [y.value] else [])
  }

  /** The text of the optional lines that are present, each after a separator. */
  function OptionalText(x: Option<string>, y: Option<string>, sep: string): string {
    (if x.Some? then sep + x.value else "") + (if y.Some? then sep + y.value else "")
  }

  /** Up to two optional parts after a joined head, each after a separator. */
  lemma JoinOptional(head: seq<string>, x: Option<string>, y: Option<string>, sep: string)
    requires |head| > 0
    ensures Join(head + OptionalParts(x, y), sep) == Join(head, sep) + OptionalText(x, y, sep)
  {
    if x.Some? && y.Some? {
      JoinBothPresent(head, x.value, y.value, sep);
    } else if x.Some? || y.Some? {
      JoinOnePresent(head, x, y, sep);
    } else {
      assert head + OptionalParts(x, y) == head;
      assert Join(head, sep) + OptionalText(x, y, sep) == Join(head, sep);
    }
  }

  /** Both optional parts present. */
  lemma JoinBothPresent(head: seq<string>, u: string, v: string, sep: string)
    requires |head| > 0
    ensures Join(head + OptionalParts(Some(u), Some(v)), sep) == Join(head, sep) + OptionalText(Some(u), Some(v), sep)
  {
    assert OptionalParts(Some(u), Some(v)) == [u, v];
    JoinSnocSnoc(head, u, v, sep);
  }

  /** Exactly one optional part present. */
  lemma JoinOnePresent(head: seq<string>, x: Option<string>, y: Option<string>, sep: string)
    requires |head| > 0 && x.Some? != y.Some?
    ensures Join(head + OptionalParts(x, y), sep) == Join(head, sep) + OptionalText(x, y, sep)
  {
    var u := if x.Some? then x.value else y.value;
    assert OptionalParts(x, y) == [u];
    assert OptionalText(x, y, sep) == sep + u;
    JoinSnocGrouped(head, u, sep);
  }

  /** Joining with one more part, the separator kept with the part. */
  lemma JoinSnocGrouped(head: seq<string>, u: string, sep: string)
    requires |head| > 0
    ensures Join(head + [u], sep) == Join(head, sep) + (sep + u)
  {
    JoinSnoc(head, u, sep);
    assert Join(head, sep) + sep + u == Join(head, sep) + (sep + u);
  }

  /** The LOCATION line as an optional part. */
  function LocationLine(e: Event): Option<string> {
    if e.location.Some? then Some("LOCATION:" + e.location.value) else None
  }

  /** The DESCRIPTION line as an optional part. */
  function DescriptionLine(e: Event): Option<string> {
    if e.notes.Some? then Some("DESCRIPTION:" + e.notes.value) else None
  }

  /** The optional lines after the joined head. */
  lemma OptionalLinesJoin(e: Event, head: seq<string>)
    requires |head| > 0
    ensures var opt := (if e.location.Some? then ["LOCATION:" + e.location.value] else [])
                       + (if e.notes.Some? then ["DESCRIPTION:" + e.notes.value] else []);
            Join(head + opt, "\n") == Join(head, "\n") + OptionalLines(e)
  {
    JoinOptional(head, LocationLine(e), DescriptionLine(e), "\n");
    assert OptionalParts(LocationLine(e), DescriptionLine(e))
        == (if e.location.Some? then ["LOCATION:" + e.location.value] else [])
           + (if e.notes.Some? then ["DESCRIPTION:" + e.notes.value] else []);
  }

  /** One block's text is its lines joined by line feeds, ended by a line feed. */
  lemma EventBlockIsLines(e: Event, uid: string, stamp: Instant -> string)
    ensures EventBlock(e, uid, stamp) == Join(BlockLines(e, uid, stamp), "\n") + "\n"
  {
    var ls := BlockLines(e, uid, stamp);
    var head := ls[..5];
    var opt := (if e.location.Some? then ["LOCATION:" + e.location.value] else [])
               + (if e.notes.Some? then ["DESCRIPTION:" + e.notes.value] else []);
    assert ls == head + opt + ["END:VEVENT"];
    BlockHeadIsLines(e, uid, stamp);
    OptionalLinesJoin(e, head);
    JoinSnoc(head + opt, "END:VEVENT", "\n");
  }

  /** Joining a non-empty prefix, the events' lines and the footer. */
  lemma {:induction false} JoinedFromPrefix(prefix: seq<string>, events: seq<Event>, uids: seq<string>,
                                            stamp: Instant -> string)
    requires |prefix| > 0 && |uids| == |events|
    ensures Join(prefix + AllBlockLines(events, uids, stamp) + [Footer], "\n")
         == Join(prefix, "\n") + "\n" + Blocks(events, uids, stamp) + Footer
    decreases |events|
  {
    var sep := "\n";
    if |events| == 0 {
      assert prefix + AllBlockLines(events, uids, stamp) + [Footer] == prefix + [Footer];
      JoinSnoc(prefix, Footer, sep);
    } else {
      var bl := BlockLines(events[0], uids[0], stamp);
      var rest := AllBlockLines(events[1..], uids[1..], stamp);
      LinesRegroup(prefix, bl, rest, [Footer]);
      JoinedFromPrefix(prefix + bl, events[1..], uids[1..], stamp);
      JoinAppend(prefix, bl, sep);
      EventBlockIsLines(events[0], uids[0], stamp);
      PrefixStep(Join(prefix, sep), Join(bl, sep), Blocks(events[1..], uids[1..], stamp), sep);
    }
  }

  /** Regrouping the line lists around the first block. */
  lemma LinesRegroup(p: seq<string>, b: seq<string>, r: seq<string>, f: seq<string>)
    ensures p + (b + r) + f == (p + b) + r + f
  {
  }

  /** Regrouping the texts around the first block. */
  lemma PrefixStep(j: string, b: string, r: string, sep: string)
    ensures j + sep + b + sep + r + Footer == j + sep + (b + sep + r) + Footer
  {
  }

  /** The exported text is exactly the content lines joined by line feeds: the header
      lines, each event's block lines in input order, and END:VCALENDAR last. */
  lemma ExportIsLines(events: seq<Event>, uids: seq<string>, stamp: Instant -> string)
    requires |uids| == |events|
    ensures ExportCalendarEvents(events, uids, stamp) == Join(ExportLines(events, uids, stamp), "\n")
  {
    HeaderIsLines();
    JoinedFromPrefix(HeaderLines, events, uids, stamp);
  }

  /** Blocks work event by event, so the export of a concatenation lists the blocks of
      the first list before those of the second. */
  lemma {:induction false} BlocksAppend(a: seq<Event>, ua: seq<string>, b: seq<Event>, ub: seq<string>,
                                        stamp: Instant -> string)
    requires |ua| == |a| && |ub| == |b|
    ensures Blocks(a + b, ua + ub, stamp) == Blocks(a, ua, stamp) + Blocks(b, ub, stamp)
    decreases |a|
  {
    if |a| == 0 {
      assert a + b == b && ua + ub == ub;
    } else {
      assert (a + b)[1..] == a[1..] + b && (ua + ub)[1..] == ua[1..] + ub;
      BlocksAppend(a[1..], ua[1..], b, ub, stamp);
    }
  }

  /** `s` does not start with `p` when they differ at position `k`. */
  lemma DiffersAt(s: string, p: string, k: nat)
    requires k < |s| && k < |p| && s[k] != p[k]
    ensures !StartsWith(s, p)
  {
    if |p| <= |s| {
      assert s[..|p|][k] != p[k];
    }
  }

  /** A block has a LOCATION line exactly when the event has a location, and a
      DESCRIPTION line exactly when it has notes; LOCATION comes first. */
  lemma OptionalLinesIff(e: Event, uid: string, stamp: Instant -> string)
    ensures var r := BlockLines(e, uid, stamp);
            (exists i :: 0 <= i < |r| && StartsWith(r[i], "LOCATION:")) <==> e.location.Some?
    ensures var r := BlockLines(e, uid, stamp);
            (exists i :: 0 <= i < |r| && StartsWith(r[i], "DESCRIPTION:")) <==> e.notes.Some?
    ensures var r := BlockLines(e, uid, stamp);
            e.location.Some? && e.notes.Some? ==> r[5] == "LOCATION:" + e.location.value
                                                  && r[6] == "DESCRIPTION:" + e.notes.value
  {
    var r := BlockLines(e, uid, stamp);
    var L, D := "LOCATION:", "DESCRIPTION:";
    DiffersAt(r[0], L, 0); DiffersAt(r[0], D, 0);
    DiffersAt(r[1], L, 0); DiffersAt(r[1], D, 0);
    DiffersAt(r[2], L, 0); DiffersAt(r[2], D, 1);
    DiffersAt(r[3], L, 0); DiffersAt(r[3], D, 1);
    DiffersAt(r[4], L, 0); DiffersAt(r[4], D, 0);
    DiffersAt(r[|r| - 1], L, 0); DiffersAt(r[|r| - 1], D, 0);
    if e.location.Some? {
      assert r[5][..|L|] == L;
      DiffersAt(r[5], D, 0);
    }
    if e.notes.Some? {
      assert r[|r| - 2][..|D|] == D;
      DiffersAt(r[|r| - 2], L, 0);
    }
  }

  /** Text values go into their lines verbatim: the SUMMARY line carries the title as it
      is, so a line feed in the title is a line feed in the export. */
  lemma TitleNotEscaped(e: Event, uid: string, stamp: Instant -> string, k: nat)
    requires k < |e.title| && e.title[k] == '\n'
    ensures var line := BlockLines(e, uid, stamp)[4];
            line[8..] == e.title && line[8 + k] == '\n'
  {
  }
}

=== FILE: models.dfy ===
/** The app's records: calendar events, extracted event information, coordinates,
    transportation modes, route segments and route plans, with their constructors and
    the travel-time formatting. */
module Models {
  import opened Wrappers
  import opened Strings
  import opened Civil

  /** A `UUID`; freshly generated identities are supplied by the caller. */
  type EventId = nat

  /** ExtractedEventInfo. */
  datatype ExtractedInfo = ExtractedInfo(
    rawText: string,
    title: Option<string>,
    startDateTime: Option<Instant>,
    endDateTime: Option<Instant>,
    location: Option<string>,
    description: Option<string>,
    confidence: real
  )

  /** Confidence an `ExtractedEventInfo` gets when the initialiser is not told one. */
  const DefaultConfidence: real := 0.5

  /** `ExtractedEventInfo.init` with its default arguments. */
  function MakeExtractedInfo(rawText: string, title: Option<string> := None,
                             startDateTime: Option<Instant> := None, endDateTime: Option<Instant> := None,
                             location: Option<string> := None, description: Option<string> := None,
                             confidence: real := DefaultConfidence): (r: ExtractedInfo)
    ensures r.rawText == rawText && r.title == title && r.location == location && r.description == description
    ensures r.startDateTime == startDateTime && r.endDateTime == endDateTime && r.confidence == confidence
  {
    ExtractedInfo(rawText, title, startDateTime, endDateTime, location, description, confidence)
  }

  /** The initialiser called with the raw text alone gives an empty record of confidence 0.5. */
  lemma MakeExtractedInfoDefaults(rawText: string)
    ensures MakeExtractedInfo(rawText)
         == ExtractedInfo(rawText, None, None, None, None, None, 0.5)
  {
  }

  /** CalendarEvent. */
  datatype Event = Event(
    id: EventId,
    title: string,
    start: Instant,
    end: Instant,
    location: Option<string>,
    notes: Option<string>,
    extractedInfo: Option<ExtractedInfo>,
    eventIdentifier: Option<string>
  )

  /** The member-wise initialiser `CalendarEvent(id:title:startDate:endDate:...)`. */
  function MakeEvent(id: EventId, title: string, start: Instant, end: Instant,
                     location: Option<string> := None, notes: Option<string> := None,
                     extractedInfo: Option<ExtractedInfo> := None,
                     eventIdentifier: Option<string> := None): (r: Event)
    ensures r.id == id && r.title == title && r.start == start && r.end == end
    ensures r.location == location && r.notes == notes
    ensures r.extractedInfo == extractedInfo && r.eventIdentifier == eventIdentifier
  {
    Event(id, title, start, end, location, notes, extractedInfo, eventIdentifier)
  }

  /** `CalendarEvent(from:title:startDate:endDate:location:notes:)`: every argument left nil
      keeps the old value; identity, extracted info and native identifier are kept. */
  function EditedFrom(e: Event, title: Option<string> := None, start: Option<Instant> := None,
                      end: Option<Instant> := None, location: Option<string> := None,
                      notes: Option<string> := None): (r: Event)
    ensures r.id == e.id && r.extractedInfo == e.extractedInfo && r.eventIdentifier == e.eventIdentifier
    ensures title.Some? ==> r.title == title.value
    ensures start.Some? ==> r.start == start.value
    ensures end.Some? ==> r.end == end.value
    ensures location.Some? ==> r.location == location
    ensures notes.Some? ==> r.notes == notes
  {
    Event(e.id, title.GetOr(e.title), start.GetOr(e.start), end.GetOr(e.end),
          if location.Some? then location else e.location,
          if notes.Some? then notes else e.notes,
          e.extractedInfo, e.eventIdentifier)
  }

  /** With no arguments the edit constructor copies the event. */
  lemma EditedFromNothingIsCopy(e: Event)
    ensures EditedFrom(e) == e
  {
  }

  /** A location or notes value present before an edit is present after it: the edit
      constructor has no way to clear them. */
  lemma {:induction false} EditedFromCannotClear(e: Event, title: Option<string>, start: Option<Instant>,
                                                 end: Option<Instant>, location: Option<string>,
                                                 notes: Option<string>)
    ensures e.location.Some? ==> EditedFrom(e, title, start, end, location, notes).location.Some?
    ensures e.notes.Some? ==> EditedFrom(e, title, start, end, location, notes).notes.Some?
  {
  }

  /** Two successive edits are one edit whose arguments are the later ones, falling back
      to the earlier ones. */
  lemma EditedFromComposes(e: Event, t1: Option<string>, s1: Option<Instant>, e1: Option<Instant>,
                           l1: Option<string>, n1: Option<string>,
                           t2: Option<string>, s2: Option<Instant>, e2: Option<Instant>,
                           l2: Option<string>, n2: Option<string>)
    ensures EditedFrom(EditedFrom(e, t1, s1, e1, l1, n1), t2, s2, e2, l2, n2)
         == EditedFrom(e, if t2.Some? then t2 else t1, if s2.Some? then s2 else s1,
                       if e2.Some? then e2 else e1, if l2.Some? then l2 else l1,
                       if n2.Some? then n2 else n1)
  {
  }

  /** LocationCoordinate. */
  datatype Coordinate = Coordinate(latitude: real, longitude: real, address: Option<string>)

  /** The fixed point used where no real coordinate is known (lower Manhattan). */
  const DefaultLatitude: real := 40.7128
  const DefaultLongitude: real := -74.0060

  /** TransportationMode. */
  datatype Mode = Walking | Subway | Bus | Taxi | Rideshare | Driving

  /** The enum's raw value. */
  function RawValue(m: Mode): (r: string)
    ensures ModeFromRaw(r) == Some(m)
  {
    match m
    case Walking => "walking"
    case Subway => "subway"
    case Bus => "bus"
    case Taxi => "taxi"
    case Rideshare => "rideshare"
    case Driving => "driving"
  }

  /** `TransportationMode(rawValue:)`: exact, case-sensitive match of a raw value. */
  function ModeFromRaw(s: string): (r: Option<Mode>)
    ensures r.Some? <==> s in {"walking", "subway", "bus", "taxi", "rideshare", "driving"}
  {
    if s == "walking" then Some(Walking)
    else if s == "subway" then Some(Subway)
    else if s == "bus" then Some(Bus)
    else if s == "taxi" then Some(Taxi)
    else if s == "rideshare" then Some(Rideshare)
    else if s == "driving" then Some(Driving)
    else None
  }

  /** Every mode round-trips through its raw value, and a text decodes to a mode only if
      it is that mode's raw value. */
  lemma ModeRawRoundTrip(m: Mode, s: string)
    ensures ModeFromRaw(RawValue(m)) == Some(m)
    ensures ModeFromRaw(s) == Some(m) ==> RawValue(m) == s
  {
  }

  /** `displayName`. */
  function DisplayName(m: Mode): (r: string)
    ensures |r| == |RawValue(m)| && r[1..] == RawValue(m)[1..]
    ensures r[0] as int == RawValue(m)[0] as int - 32
  {
    match m
    case Walking => "Walking"
    case Subway => "Subway"
    case Bus => "Bus"
    case Taxi => "Taxi"
    case Rideshare => "Rideshare"
    case Driving => "Driving"
  }

  /** RouteSegment (its generated `id` is not modelled). */
  datatype Segment = Segment(
    fromLocation: Coordinate,
    toLocation: Coordinate,
    mode: Mode,
    travelTime: int,
    cost: real,
    instructions: string,
    departureTime: Instant,
    arrivalTime: Instant
  )

  /** RoutePlan. */
  datatype RoutePlan = RoutePlan(segments: seq<Segment>, totalTravelTime: int, totalCost: real)

  /** RouteSegmentData: one leg as the route-planning model reports it. */
  datatype SegmentData = SegmentData(
    fromLocation: string,
    toLocation: string,
    transportationMode: string,
    travelTime: int,
    cost: real,
    instructions: string
  )

  /** CompleteRoutePlanResponse. */
  datatype PlanResponse = PlanResponse(segments: seq<SegmentData>, totalTravelTime: int, totalCost: real)

  /** Swift's `Int` division, which truncates toward zero. */
  function TruncDiv(a: int, b: int): int
    requires b > 0
  {
    if a >= 0 then a / b else -((-a) / b)
  }

  /** `RouteSegment.formattedTravelTime`: whole minutes (truncated), written `<m>m` below an
      hour and `<h>h <r>m` from an hour on. */
  function FormattedTravelTime(travelTime: int): (r: string)
    ensures EndsWith(r, "m")
    ensures (TruncDiv(travelTime, 60) >= 60) == ('h' in r)
  {
    var minutes := TruncDiv(travelTime, 60);
    if minutes >= 60 then IntToString(minutes / 60) + "h " + IntToString(minutes % 60) + "m"
    else IntToString(minutes) + "m"
  }

  /** Reads a minute count back from a travel-time text: `<h>h <r>m` is `60h + r`, `<m>m`
      and `-<m>m` are `m` and `-m`. */
  function ReadMinutes(s: string): Option<int> {
    if |s| == 0 || s[|s| - 1] != 'm' then None
    else ReadMinutesBody(s[..|s| - 1])
  }

  /** The text before the closing `m`. */
  function ReadMinutesBody(body: string): Option<int> {
    match FirstIndexOf(body, 'h')
    case Some(k) => ReadHours(body, k)
    case None => ReadSigned(body)
  }

  /** `<h>h <r>` with the `h` at position `k`. */
  function ReadHours(body: string, k: nat): Option<int>
    requires k < |body|
  {
    if k + 1 < |body| && body[k + 1] == ' ' && AllDigits(body[..k]) && AllDigits(body[k + 2..])
    then Some(60 * ParseNat(body[..k]) + ParseNat(body[k + 2..]))
    else None
  }

  /** `<m>` or `-<m>`. */
  function ReadSigned(body: string): Option<int> {
    if |body| > 0 && body[0] == '-' && AllDigits(body[1..]) then Some(0 - ParseNat(body[1..]) as int)
    else if AllDigits(body) then Some(ParseNat(body))
    else None
  }

  lemma DigitsHaveNoH(s: string)
    requires AllDigits(s)
    ensures 'h' !in s
  {
  }

  /** In a digit text followed by `h`, the first `h` is the one after the digits. */
  lemma FirstHAfterDigits(ds: string, rest: string)
    requires AllDigits(ds)
    ensures FirstIndexOf(ds + "h" + rest, 'h') == Some(|ds|)
  {
    var body := ds + "h" + rest;
    assert forall j :: 0 <= j < |ds| ==> body[j] == ds[j];
    FirstIndexOfAt(body, 'h', |ds|);
  }

  /** A body `<hs>h <rs>` of two digit texts reads as `60 hs + rs`. */
  lemma ReadHourBody(hs: string, rs: string)
    requires AllDigits(hs) && AllDigits(rs)
    ensures var r := ReadMinutesBody(hs + "h" + (" " + rs));
            r.Some? && r.value == 60 * ParseNat(hs) + ParseNat(rs)
  {
    var body := hs + "h" + (" " + rs);
    FirstHAfterDigits(hs, " " + rs);
    assert body[..|hs|] == hs;
    assert body[|hs| + 2..] == rs;
  }

  /** Regrouping of the hour form around its `h` and closing `m`. */
  lemma HourFormShape(a: string, b: string)
    ensures a + "h " + b + "m" == (a + "h" + (" " + b)) + "m"
    ensures ((a + "h" + (" " + b)) + "m")[..|a + "h" + (" " + b)|] == a + "h" + (" " + b)
  {
  }

  /** The hour form reads back as `60h + r`. */
  lemma ReadHourForm(h: nat, r: nat)
    ensures var v := ReadMinutes(NatToString(h) + "h " + NatToString(r) + "m");
            v.Some? && v.value == 60 * h + r
  {
    var hs, rs := NatToString(h), NatToString(r);
    var body := hs + "h" + (" " + rs);
    HourFormShape(hs, rs);
    ReadHourBody(hs, rs);
    NatToStringRoundTrip(h);
    NatToStringRoundTrip(r);
  }

  /** A body without `h` is read as a signed count. */
  lemma ReadMinutesWithoutH(body: string)
    requires 'h' !in body
    ensures ReadMinutes(body + "m") == ReadSigned(body)
  {
    var s := body + "m";
    assert s[..|s| - 1] == body;
  }

  /** A digit text reads as its value. */
  lemma ReadSignedDigits(ds: string)
    requires AllDigits(ds)
    ensures 'h' !in ds && ReadSigned(ds) == Some(ParseNat(ds))
  {
    DigitsHaveNoH(ds);
  }

  /** A minus sign before a digit text reads as the negated value. */
  lemma ReadSignedNegative(ds: string)
    requires AllDigits(ds)
    ensures 'h' !in "-" + ds && ReadSigned("-" + ds) == Some(0 - ParseNat(ds))
  {
    var body := "-" + ds;
    assert body[1..] == ds;
    DigitsHaveNoH(ds);
    assert forall c :: c in body ==> c == '-' || c in ds;
  }

  /** The minute form reads back as the minute count, negative or not. */
  lemma ReadMinuteForm(m: int)
    ensures ReadMinutes(IntToString(m) + "m") == Some(m)
  {
    if m < 0 {
      ReadNegativeMinuteForm(-m);
    } else {
      ReadNaturalMinuteForm(m);
    }
  }

  /** `-<n>m` reads back as `-n`. */
  lemma ReadNegativeMinuteForm(n: nat)
    requires n > 0
    ensures ReadMinutes(IntToString(-(n as int)) + "m") == Some(-(n as int))
  {
    var ds := NatToString(n);
    assert IntToString(-(n as int)) == "-" + ds;
    ReadNegativeDigits(ds);
    NatToStringRoundTrip(n);
  }

  /** `-<digits>m` reads back as the negated value of the digits. */
  lemma ReadNegativeDigits(ds: string)
    requires AllDigits(ds)
    ensures ReadMinutes("-" + ds + "m") == Some(0 - ParseNat(ds))
  {
    ReadSignedNegative(ds);
    ReadMinutesWithoutH("-" + ds);
  }

  /** `<n>m` reads back as `n`. */
  lemma ReadNaturalMinuteForm(n: nat)
    ensures ReadMinutes(IntToString(n) + "m") == Some(n)
  {
    var body := IntToString(n);
    assert body == NatToString(n);
    ReadSignedDigits(body);
    ReadMinutesWithoutH(body);
    NatToStringRoundTrip(n);
  }

  /** The formatted travel time always reads back as the truncated minute count. */
  lemma FormattedTravelTimeReadsBack(travelTime: int)
    ensures ReadMinutes(FormattedTravelTime(travelTime)) == Some(TruncDiv(travelTime, 60))
  {
    var minutes := TruncDiv(travelTime, 60);
    if minutes >= 60 {
      var h, r := minutes / 60, minutes % 60;
      assert IntToString(h) == NatToString(h);
      assert IntToString(r) == NatToString(r);
      ReadHourForm(h, r);
      assert 60 * h + r == minutes;
    } else {
      ReadMinuteForm(minutes);
    }
  }

  /** From an hour on, the two printed parts are an hour count and a remainder below 60
      that recompose the minute count. */
  lemma FormattedTravelTimeHourSplit(travelTime: int)
    requires TruncDiv(travelTime, 60) >= 60
    ensures var m := TruncDiv(travelTime, 60);
            FormattedTravelTime(travelTime) == NatToString(m / 60) + "h " + NatToString(m % 60) + "m"
            && 0 <= m % 60 < 60 && 60 * (m / 60) + m % 60 == m
  {
  }
}

=== FILE: route_planner.dfy ===
/** `AIRoutePlanner`: turns the model's reply into a route plan over the day's events, or
    falls back to one subway leg per event. The chat request itself is not modelled: its
    outcome is an input. */
module RoutePlanner {
  import opened Wrappers
  import opened Strings
  import opened Civil
  import opened Models
  import opened Decoding
  import opened Sanitizer

  /** How the chat request ended. */
  datatype LlmOutcome =
    | RequestFailed           // the request threw
    | NoContent               // no first choice, or a choice without content
    | Content(text: string)   // the first choice's message content

  /** Fixed leg of the fallback plan: thirty minutes and one subway fare. */
  const FallbackTravelTime: int := 1800
  const FallbackCost: real := 2.75
  const StartingPoint: string := "Starting Point"

  /** The lower-Manhattan coordinate carrying `address`: neither the parser nor the
      fallback geocodes anything. */
  function NycCoordinate(address: Option<string>): (c: Coordinate)
    ensures c.latitude == DefaultLatitude && c.longitude == DefaultLongitude && c.address == address
  {
    Coordinate(DefaultLatitude, DefaultLongitude, address)
  }

  /** The plan with no legs. */
  const EmptyPlan: RoutePlan := RoutePlan([], 0, 0.0)

  /** The event a decoded leg `i` is attached to: index `i`, clamped to the last event. */
  function AttachedIndex(i: nat, eventCount: nat): (k: nat)
    requires eventCount > 0
    ensures k < eventCount
    ensures k == i || (i >= eventCount && k == eventCount - 1)
  {
    if i < eventCount - 1 then i else eventCount - 1
  }

  /** One decoded leg turned into a segment arriving at the start of `e`. */
  function SegmentFor(d: SegmentData, e: Event): (s: Segment)
    ensures s.fromLocation == NycCoordinate(Some(d.fromLocation))
    ensures s.toLocation == NycCoordinate(Some(d.toLocation))
    ensures ModeFromRaw(d.transportationMode).Some? ==> RawValue(s.mode) == d.transportationMode
    ensures ModeFromRaw(d.transportationMode).None? ==> s.mode == Subway
    ensures s.travelTime == d.travelTime && s.cost == d.cost && s.instructions == d.instructions
    ensures s.arrivalTime == e.start && s.departureTime == s.arrivalTime - d.travelTime
  {
    var mode := ModeFromRaw(d.transportationMode).GetOr(Subway);
    ModeRawRoundTrip(mode, d.transportationMode);
    Segment(NycCoordinate(Some(d.fromLocation)), NycCoordinate(Some(d.toLocation)), mode,
            d.travelTime, d.cost, d.instructions, e.start - d.travelTime, e.start)
  }

  /** The decoded legs in order, each attached to its clamped event. */
  function AttachSegments(ds: seq<SegmentData>, events: seq<Event>): (r: seq<Segment>)
    requires |events| > 0
    ensures |r| == |ds|
    ensures forall i :: 0 <= i < |ds| ==> r[i] == SegmentFor(ds[i], events[AttachedIndex(i, |events|)])
  {
    seq(|ds|, i requires 0 <= i < |ds| => SegmentFor(ds[i], events[AttachedIndex(i, |events|)]))
  }

  /** `createFallbackRoutePlan`'s legs from `current` through every event in order. */
  function FallbackSegments(events: seq<Event>, current: Coordinate): (r: seq<Segment>)
    ensures |r| == |events|
    ensures |r| > 0 ==> r[0].fromLocation == current
    ensures forall i :: 0 < i < |r| ==> r[i].fromLocation == r[i - 1].toLocation
    ensures forall i :: 0 <= i < |r| ==>
              r[i].toLocation == NycCoordinate(events[i].location)
              && r[i].mode == Subway && r[i].travelTime == FallbackTravelTime && r[i].cost == FallbackCost
              && r[i].instructions == "Take subway to " + events[i].title
              && r[i].arrivalTime == events[i].start
              && r[i].departureTime == events[i].start - FallbackTravelTime
    decreases |events|
  {
    if |events| == 0 then []
    else
      var e := events[0];
      var to := NycCoordinate(e.location);
      var leg := Segment(current, to, Subway, FallbackTravelTime, FallbackCost,
                         "Take subway to " + e.title, e.start - FallbackTravelTime, e.start);
      var rest := FallbackSegments(events[1..], to);
      assert forall i :: 0 < i < |events| ==> events[i] == events[1..][i - 1];
      [leg] + rest
  }

  /** `createFallbackRoutePlan`: one subway leg per event, chained from "Starting Point",
      with totals counted per leg. */
  function FallbackPlan(events: seq<Event>): (p: RoutePlan)
    ensures |p.segments| == |events|
    ensures |events| > 0 ==> p.segments[0].fromLocation == NycCoordinate(Some(StartingPoint))
    ensures p.totalTravelTime == FallbackTravelTime * |events|
    ensures p.totalCost == FallbackCost * |events| as real
  {
    var segs := FallbackSegments(events, NycCoordinate(Some(StartingPoint)));
    RoutePlan(segs, |segs| * FallbackTravelTime, |segs| as real * FallbackCost)
  }

  /** Sum of the legs' travel times. */
  function TravelTimeSum(segs: seq<Segment>): int
    decreases |segs|
  {
    if |segs| == 0 then 0 else segs[0].travelTime + TravelTimeSum(segs[1..])
  }

  /** Sum of the legs' costs. */
  function CostSum(segs: seq<Segment>): real
    decreases |segs|
  {
    if |segs| == 0 then 0.0 else segs[0].cost + CostSum(segs[1..])
  }

  /** The fallback's totals are the sums over its legs. */
  lemma {:induction false} FallbackTotalsAreSums(events: seq<Event>, current: Coordinate)
    ensures TravelTimeSum(FallbackSegments(events, current)) == FallbackTravelTime * |events|
    ensures CostSum(FallbackSegments(events, current)) == FallbackCost * |events| as real
    decreases |events|
  {
    if |events| > 0 {
      var segs := FallbackSegments(events, current);
      var to := NycCoordinate(events[0].location);
      FallbackTotalsAreSums(events[1..], to);
      assert segs[1..] == FallbackSegments(events[1..], to);
    }
  }

  /** `parseCompleteRoutePlan`, using the corrected cleaner: the decoded legs attached to
      their events and the totals as reported, or the fallback when the reply does not
      parse or decode. */
  function ParsePlan(content: string, events: seq<Event>, parseJson: string -> Option<Json>): (p: RoutePlan)
    requires |events| > 0
    ensures var j := parseJson(CleanJsonSafe(content));
            var resp := if j.Some? then DecodeResponse(j.value) else None;
            (resp.None? ==> p == FallbackPlan(events))
            && (resp.Some? ==> p.segments == AttachSegments(resp.value.segments, events)
                               && |p.segments| == |resp.value.segments|
                               && p.totalTravelTime == resp.value.totalTravelTime
                               && p.totalCost == resp.value.totalCost)
  {
    PlanFromJson(parseJson(CleanJsonSafe(content)), events)
  }

  /** The plan for a parsed reply: the decoded legs and totals, or the fallback. */
  function PlanFromJson(j: Option<Json>, events: seq<Event>): (p: RoutePlan)
    requires |events| > 0
    ensures var resp := if j.Some? then DecodeResponse(j.value) else None;
            (resp.None? ==> p == FallbackPlan(events))
            && (resp.Some? ==> p.segments == AttachSegments(resp.value.segments, events)
                               && p.totalTravelTime == resp.value.totalTravelTime
                               && p.totalCost == resp.value.totalCost)
  {
    match j
    case None => FallbackPlan(events)
    case Some(v) =>
      match DecodeResponse(v)
      case None => FallbackPlan(events)
      case Some(resp) =>
        RoutePlan(AttachSegments(resp.segments, events), resp.totalTravelTime, resp.totalCost)
  }

  /** `parseCompleteRoutePlan` as written, with the cleaner that stops the program when the
      reply's last `}` precedes its first `{`: it is defined only where that cleaner is,
      and there it plans exactly as the corrected version does. */
  function ParsePlanAsWritten(content: string, events: seq<Event>, parseJson: string -> Option<Json>): (p: RoutePlan)
    requires |events| > 0 && CleanDefined(content)
    ensures p == ParsePlan(content, events, parseJson)
  {
    PlanFromJson(parseJson(CleanJson(content)), events)
  }

  /** On the parsed path, leg `i` arrives at the start of event `min(i, n - 1)` and leaves
      its travel time earlier. */
  lemma ParsedLegTiming(content: string, events: seq<Event>, parseJson: string -> Option<Json>, i: nat)
    requires |events| > 0
    requires parseJson(CleanJsonSafe(content)).Some?
    requires DecodeResponse(parseJson(CleanJsonSafe(content)).value).Some?
    requires i < |ParsePlan(content, events, parseJson).segments|
    ensures var resp := DecodeResponse(parseJson(CleanJsonSafe(content)).value).value;
            var leg := ParsePlan(content, events, parseJson).segments[i];
            var n := |events|;
            leg.arrivalTime == events[if i < n then i else n - 1].start
            && leg.departureTime == leg.arrivalTime - resp.segments[i].travelTime
  {
  }

  /** What `generateCompleteRoutePlan` hands to its completion, and whether it asked the
      model at all. */
  datatype Generation = Generation(plan: RoutePlan, queried: bool)

  /** `generateCompleteRoutePlan`: no events give the empty plan without a request; a
      reply with content is parsed; no content or a failed request give the fallback. */
  function GeneratePlan(events: seq<Event>, outcome: LlmOutcome, parseJson: string -> Option<Json>): (g: Generation)
    ensures |events| == 0 <==> !g.queried
    ensures |events| == 0 ==> g.plan.segments == [] && g.plan.totalTravelTime == 0 && g.plan.totalCost == 0.0
    ensures |events| > 0 && !outcome.Content? ==> g.plan == FallbackPlan(events)
    ensures |events| > 0 && outcome.Content? ==> g.plan == ParsePlan(outcome.text, events, parseJson)
  {
    if |events| == 0 then Generation(EmptyPlan, false)
    else
      match outcome
      case Content(text) => Generation(ParsePlan(text, events, parseJson), true)
      case _ => Generation(FallbackPlan(events), true)
  }

  /** Whatever the reply, a non-empty event list gets a plan whose legs each arrive at the
      start of some event. */
  lemma {:induction false} EveryLegArrivesAtAnEvent(events: seq<Event>, outcome: LlmOutcome,
                                                     parseJson: string -> Option<Json>, i: nat)
    requires |events| > 0
    requires i < |GeneratePlan(events, outcome, parseJson).plan.segments|
    ensures exists k :: 0 <= k < |events|
                        && GeneratePlan(events, outcome, parseJson).plan.segments[i].arrivalTime == events[k].start
  {
    var p := GeneratePlan(events, outcome, parseJson).plan;
    if p == FallbackPlan(events) {
      assert p.segments[i].arrivalTime == events[i].start;
    } else {
      var j := parseJson(CleanJsonSafe(outcome.text));
      var resp := DecodeResponse(j.value).value;
      var k := AttachedIndex(i, |events|);
      assert p.segments == AttachSegments(resp.segments, events);
      assert p.segments[i].arrivalTime == events[k].start;
    }
  }

  /** A reply naming an unknown mode gets a subway leg. */
  lemma UnknownModeIsSubway(d: SegmentData, e: Event)
    requires d.transportationMode !in {"walking", "subway", "bus", "taxi", "rideshare", "driving"}
    ensures SegmentFor(d, e).mode == Subway
  {
  }
}

=== FILE: routes.dfy ===
/** The route screens: the `Route` record built from a generated plan, the fixed
    landmark tables that stand in for geocoding, the minute display of travel times,
    and the cycling "thinking" caption. */
module Routes {
  import opened Wrappers
  import opened Strings
  import opened Models
  import opened Decoding
  import opened RoutePlanner

  /** Route: the events it covers, where it starts, and the plan's legs and totals. */
  datatype Route = Route(
    events: seq<Event>,
    startingLocation: Option<Coordinate>,
    segments: seq<Segment>,
    totalTravelTime: int,
    totalCost: real
  )

  /** `Route(events:startingLocation:)`: no legs and zero totals until a plan is copied in. */
  function NewRoute(events: seq<Event>, startingLocation: Option<Coordinate>): (r: Route)
    ensures r.events == events && r.startingLocation == startingLocation
    ensures r.segments == [] && r.totalTravelTime == 0 && r.totalCost == 0.0
  {
    Route(events, startingLocation, [], 0, 0.0)
  }

  /** `calculateRoute` of the route screen: whatever the events, the generated plan's
      legs and totals are copied into a fresh route. `startingLocation` is the device
      position, if known; `outcome` is how the chat request ended. */
  function ViewCalculateRoute(events: seq<Event>, startingLocation: Option<Coordinate>, outcome: LlmOutcome,
                              parseJson: string -> Option<Json>): (r: Route)
    ensures r.events == events && r.startingLocation == startingLocation
    ensures |events| == 0 ==> r.segments == [] && r.totalTravelTime == 0 && r.totalCost == 0.0
    ensures |events| > 0 && !outcome.Content? ==>
              |r.segments| == |events| && r.totalTravelTime == FallbackTravelTime * |events|
              && r.totalCost == FallbackCost * |events| as real
    ensures |events| > 0 && !outcome.Content? ==> r.segments == FallbackPlan(events).segments
    ensures |events| > 0 && outcome.Content? ==>
              var p := ParsePlan(outcome.text, events, parseJson);
              r.segments == p.segments && r.totalTravelTime == p.totalTravelTime && r.totalCost == p.totalCost
  {
    var plan := GeneratePlan(events, outcome, parseJson).plan;
    NewRoute(events, startingLocation).(segments := plan.segments, totalTravelTime := plan.totalTravelTime,
                                        totalCost := plan.totalCost)
  }

  /** `AppState.calculateRoute`: the same copy behind a guard, so an empty event list
      leaves the current route as it was. */
  function AppCalculateRoute(current: Option<Route>, events: seq<Event>, startingLocation: Option<Coordinate>,
                             outcome: LlmOutcome, parseJson: string -> Option<Json>): (r: Option<Route>)
    ensures |events| == 0 ==> r == current
    ensures |events| > 0 ==> r == Some(ViewCalculateRoute(events, startingLocation, outcome, parseJson))
  {
    if |events| == 0 then current
    else
      var plan := GeneratePlan(events, outcome, parseJson).plan;
      Some(Route(events, startingLocation, plan.segments, plan.totalTravelTime, plan.totalCost))
  }

  /** Every leg of a computed route arrives at the start of one of the route's events. */
  lemma RouteLegsArriveAtEvents(events: seq<Event>, startingLocation: Option<Coordinate>, outcome: LlmOutcome,
                                parseJson: string -> Option<Json>, i: nat)
    requires i < |ViewCalculateRoute(events, startingLocation, outcome, parseJson).segments|
    ensures var r := ViewCalculateRoute(events, startingLocation, outcome, parseJson);
            exists k :: 0 <= k < |r.events| && r.segments[i].arrivalTime == r.events[k].start
  {
    EveryLegArrivesAtAnEvent(events, outcome, parseJson, i);
  }

  /** Without a usable reply the route's totals are the sums over its legs. */
  lemma FallbackRouteTotalsAreSums(events: seq<Event>, startingLocation: Option<Coordinate>, outcome: LlmOutcome,
                                   parseJson: string -> Option<Json>)
    requires !outcome.Content?
    ensures var r := ViewCalculateRoute(events, startingLocation, outcome, parseJson);
            r.totalTravelTime == TravelTimeSum(r.segments) && r.totalCost == CostSum(r.segments)
  {
    if |events| > 0 {
      FallbackTotalsAreSums(events, NycCoordinate(Some(StartingPoint)));
    }
  }

  /** A latitude and longitude pair. */
  datatype Point = Point(latitude: real, longitude: real)

  /** A name looked for in a location text, and where it is taken to be. */
  datatype Landmark = Landmark(name: string, at: Point)

  /** Where an unknown place is taken to be. */
  const NycDefault: Point := Point(DefaultLatitude, DefaultLongitude)

  const WashingtonSquare: Landmark := Landmark("Washington Square Park", Point(40.7308, -73.9976))
  const AbingdonSquare: Landmark := Landmark("Abingdon Square", Point(40.7378, -74.0057))
  const SheepMeadow: Landmark := Landmark("Sheep Meadow", Point(40.7645, -73.9731))
  const TheHugh: Landmark := Landmark("The Hugh", Point(40.7589, -73.9851))
  const Shipyard: Landmark := Landmark("SHIPYARD", Point(40.7484, -74.0047))

  /** The table of the event details screen, tested in this order. */
  const DetailTable: seq<Landmark> := [WashingtonSquare, AbingdonSquare, SheepMeadow, TheHugh, Shipyard]

  /** The route screen's table as written: Abingdon Square carries SHIPYARD's point. */
  const PlanningTableAsWritten: seq<Landmark> :=
    [WashingtonSquare, Landmark("Abingdon Square", Shipyard.at), SheepMeadow, TheHugh, Shipyard]

  /** The route overview card's shorter table. */
  const OverviewTable: seq<Landmark> := [WashingtonSquare, AbingdonSquare, SheepMeadow]

  /** Entry `k` is the first entry whose name occurs in `location`. */
  predicate FirstMatchAt(table: seq<Landmark>, location: string, k: int) {
    0 <= k < |table| && Contains(location, table[k].name)
    && forall j :: 0 <= j < k ==> !Contains(location, table[j].name)
  }

  /** An if-else chain of `contains` tests: the point of the first entry whose name
      occurs in `location` (case-sensitively), or the default when none does. */
  function Lookup(table: seq<Landmark>, location: string): (p: Point)
    ensures (forall k :: 0 <= k < |table| ==> !Contains(location, table[k].name)) ==> p == NycDefault
    ensures forall k :: FirstMatchAt(table, location, k) ==> p == table[k].at
    ensures p == NycDefault || exists k :: 0 <= k < |table| && p == table[k].at
    decreases |table|
  {
    if |table| == 0 then NycDefault
    else if Contains(location, table[0].name) then table[0].at
    else
      var p := Lookup(table[1..], location);
      assert forall k :: FirstMatchAt(table, location, k) ==> FirstMatchAt(table[1..], location, k - 1);
      assert forall k :: 0 <= k < |table[1..]| ==> table[1..][k] == table[k + 1];
      p
  }

  /** Entries after `n` whose names do not occur cannot change the answer. */
  lemma {:induction false} LookupIgnoresUnmatchedTail(table: seq<Landmark>, location: string, n: nat)
    requires n <= |table|
    requires forall k :: n <= k < |table| ==> !Contains(location, table[k].name)
    ensures Lookup(table, location) == Lookup(table[..n], location)
    decreases n
  {
    if n == 0 {
      assert table[..n] == [];
    } else if Contains(location, table[0].name) {
      assert table[..n][0] == table[0];
    } else {
      var front := table[..n];
      assert front[0] == table[0];
      assert front[1..] == table[1..][..n - 1];
      calc {
        Lookup(table, location);
        Lookup(table[1..], location);
        { LookupIgnoresUnmatchedTail(table[1..], location, n - 1); }
        Lookup(table[1..][..n - 1], location);
        Lookup(front[1..], location);
        Lookup(front, location);
      }
    }
  }

  /** `extractCoordinatesFromLocation` of the event details screen. */
  function DetailCoordinates(location: string): (p: Point)
    ensures p == NycDefault || exists k :: 0 <= k < |DetailTable| && p == DetailTable[k].at
  {
    Lookup(DetailTable, location)
  }

  /** `extractCoordinatesFromLocation` of the route screen as written: no location is the
      default, otherwise its own table. */
  function PlanningCoordinatesAsWritten(location: Option<string>): (p: Point)
    ensures location.None? ==> p == NycDefault
  {
    if location.None? then NycDefault else Lookup(PlanningTableAsWritten, location.value)
  }

  /** The route screen's lookup with the details screen's table. */
  function PlanningCoordinates(location: Option<string>): (p: Point)
    ensures location.None? ==> p == NycDefault
    ensures location.Some? ==> p == DetailCoordinates(location.value)
  {
    if location.None? then NycDefault else Lookup(DetailTable, location.value)
  }

  /** `extractCoordinatesFromLocation` of the route overview card. */
  function OverviewCoordinates(location: Option<string>): (p: Point)
    ensures location.None? ==> p == NycDefault
  {
    if location.None? then NycDefault else Lookup(OverviewTable, location.value)
  }

  /** "The Hugh" is tested before "SHIPYARD": a text naming both, and none of the parks,
      is placed at The Hugh. */
  lemma HughBeforeShipyard(location: string)
    requires !Contains(location, WashingtonSquare.name) && !Contains(location, AbingdonSquare.name)
    requires !Contains(location, SheepMeadow.name)
    requires Contains(location, TheHugh.name) && Contains(location, Shipyard.name)
    ensures DetailCoordinates(location) == TheHugh.at
  {
    assert FirstMatchAt(DetailTable, location, 3);
  }

  /** Matching is case-sensitive: "shipyard" in lower case names no landmark. */
  lemma LowerCaseShipyardMisses()
    ensures DetailCoordinates("shipyard") == NycDefault
  {
    var s := "shipyard";
    assert !Contains(s, Shipyard.name) by {
      assert s[0] != Shipyard.name[0];
    }
    assert !Contains(s, TheHugh.name) by {
      assert s[0] != TheHugh.name[0];
    }
  }

  /** The route screen as written places Abingdon Square at SHIPYARD's point, where the
      details screen and the overview card place it at Abingdon Square's own. */
  lemma PlanningAbingdonIsShipyard(location: string)
    requires !Contains(location, WashingtonSquare.name) && Contains(location, AbingdonSquare.name)
    ensures PlanningCoordinatesAsWritten(Some(location)) == Shipyard.at
    ensures DetailCoordinates(location) == AbingdonSquare.at
    ensures OverviewCoordinates(Some(location)) == AbingdonSquare.at
    ensures PlanningCoordinatesAsWritten(Some(location)) != DetailCoordinates(location)
  {
    assert FirstMatchAt(PlanningTableAsWritten, location, 1);
    assert FirstMatchAt(DetailTable, location, 1);
    assert FirstMatchAt(OverviewTable, location, 1);
  }

  /** With the shared table, the route screen agrees with the overview card wherever
      the text names neither The Hugh nor SHIPYARD. */
  lemma PlanningAgreesWithOverview(location: Option<string>)
    requires location.Some? ==> !Contains(location.value, TheHugh.name) && !Contains(location.value, Shipyard.name)
    ensures PlanningCoordinates(location) == OverviewCoordinates(location)
  {
    if location.Some? {
      LookupIgnoresUnmatchedTail(DetailTable, location.value, 3);
      assert DetailTable[..3] == OverviewTable;
    }
  }

  /** The overview card has no entry for The Hugh: a text naming only it gets the default,
      where the details screen places it. */
  lemma OverviewLacksHugh(location: string)
    requires !Contains(location, WashingtonSquare.name) && !Contains(location, AbingdonSquare.name)
    requires !Contains(location, SheepMeadow.name) && Contains(location, TheHugh.name)
    ensures OverviewCoordinates(Some(location)) == NycDefault
    ensures DetailCoordinates(location) == TheHugh.at
  {
    assert FirstMatchAt(DetailTable, location, 3);
  }

  /** Swift's `Int(x)` of a real: truncation toward zero. */
  function Truncate(x: real): (n: int)
    ensures 0.0 <= x ==> n as real <= x < n as real + 1.0
    ensures x < 0.0 ==> n as real - 1.0 < x <= n as real
  {
    if x >= 0.0 then x.Floor else -((-x).Floor)
  }

  /** `formatTime(_: TimeInterval)`: whole minutes, truncated, then " min". */
  function FormatTime(seconds: real): (r: string)
    ensures EndsWith(r, " min")
  {
    IntToString(Truncate(seconds / 60.0)) + " min"
  }

  /** Truncating a whole number of seconds divided by sixty is Swift's integer division. */
  lemma TruncateMinutes(seconds: int)
    ensures Truncate(seconds as real / 60.0) == TruncDiv(seconds, 60)
  {
    var a := if seconds >= 0 then seconds else -seconds;
    var q := a / 60;
    assert a == 60 * q + a % 60;
    assert q as real <= a as real / 60.0 < q as real + 1.0;
    assert (a as real / 60.0).Floor == q;
    if seconds < 0 {
      assert seconds as real / 60.0 == -(a as real / 60.0);
    }
  }

  /** Every travel time is shown with the same minute count as a leg's own
      `formattedTravelTime` counts. */
  lemma FormatTimeOfWholeSeconds(seconds: int)
    ensures FormatTime(seconds as real) == IntToString(TruncDiv(seconds, 60)) + " min"
  {
    TruncateMinutes(seconds);
    FormatTimeShowsMinutes(seconds as real, TruncDiv(seconds, 60));
  }

  /** The text shows the truncated minute count and nothing else varies. */
  lemma FormatTimeShowsMinutes(seconds: real, minutes: int)
    requires Truncate(seconds / 60.0) == minutes
    ensures FormatTime(seconds) == IntToString(minutes) + " min"
  {
  }

  /** The number of captions the thinking view cycles through. */
  const ThinkingStepCount: nat := 5

  /** One timer tick of the thinking view. */
  function NextStep(step: int): (r: int)
    ensures 0 <= r < ThinkingStepCount
  {
    (step + 1) % ThinkingStepCount
  }

  /** The step after `ticks` ticks from the initial step 0. */
  function StepAfter(ticks: nat): (r: int)
    ensures 0 <= r < ThinkingStepCount
  {
    if ticks == 0 then 0 else NextStep(StepAfter(ticks - 1))
  }

  /** The captions come round in order: after `ticks` ticks the view shows caption
      `ticks mod 5`. */
  lemma {:induction false} StepAfterCycles(ticks: nat)
    ensures StepAfter(ticks) == ticks % ThinkingStepCount
  {
    if ticks > 0 {
      StepAfterCycles(ticks - 1);
    }
  }
}

=== FILE: sanitizer.dfy ===
/** `AIRoutePlanner.cleanJsonString`: strips Markdown code fences and any text around
    the outermost braces of a model reply. */
module Sanitizer {
  import opened Wrappers
  import opened Strings

  const JsonFence: string := "```json"
  const Fence: string := "```"

  /** `s` without the prefix `p` when it has it (`dropFirst(p.count)` under `hasPrefix`). */
  function DropPrefix(s: string, p: string): (r: string)
    ensures |r| <= |s|
    ensures StartsWith(s, p) ==> s == p + r
    ensures !StartsWith(s, p) ==> r == s
  {
    if StartsWith(s, p) then s[|p|..] else s
  }

  /** `s` without the suffix `p` when it has it (`dropLast(p.count)` under `hasSuffix`). */
  function DropSuffix(s: string, p: string): (r: string)
    ensures |r| <= |s|
    ensures EndsWith(s, p) ==> s == r + p
    ensures !EndsWith(s, p) ==> r == s
  {
    if EndsWith(s, p) then s[..|s| - |p|] else s
  }

  /** The reply trimmed, then without a leading "```json", then without a leading "```",
      then without a trailing "```" — each dropped at most once, in that order. */
  function StripFences(s: string): (r: string)
    ensures |r| <= |s|
    ensures !StartsWith(Trim(s), Fence) && !EndsWith(Trim(s), Fence) ==> r == Trim(s)
  {
    var t := Trim(s);
    JsonFenceIsFenced(t);
    DropSuffix(DropPrefix(DropPrefix(t, JsonFence), Fence), Fence)
  }

  /** A text opening with "```json" opens with "```". */
  lemma JsonFenceIsFenced(t: string)
    ensures StartsWith(t, JsonFence) ==> StartsWith(t, Fence)
  {
    if StartsWith(t, JsonFence) {
      assert t[..|Fence|] == t[..|JsonFence|][..|Fence|];
    }
  }

  /** The first `{` of `t` does not come after its last `}`. Where both exist in the other
      order the inclusive range `start...end` is malformed and Swift stops the program. */
  predicate BracesOrdered(t: string) {
    var i, j := FirstIndexOf(t, '{'), LastIndexOf(t, '}');
    i.None? || j.None? || i.value <= j.value
  }

  /** The span from the first `{` to the last `}` of `t` when both exist, otherwise `t`. */
  function CutObject(t: string): (r: string)
    requires BracesOrdered(t)
    ensures |r| <= |t|
    ensures ('{' !in t || '}' !in t) ==> r == t
    ensures var i, j := FirstIndexOf(t, '{'), LastIndexOf(t, '}');
            i.Some? && j.Some? ==> r == t[i.value..j.value + 1] && r[0] == '{' && r[|r| - 1] == '}'
  {
    var i, j := FirstIndexOf(t, '{'), LastIndexOf(t, '}');
    if i.Some? && j.Some? then t[i.value..j.value + 1] else t
  }

  /** `cleanJsonString` is defined on `s`. */
  predicate CleanDefined(s: string) {
    BracesOrdered(StripFences(s))
  }

  /** `cleanJsonString` as written: fences stripped, the object span cut out, trimmed.
      Defined only where the brace range is well formed. */
  function CleanJson(s: string): (r: string)
    requires CleanDefined(s)
    ensures |r| <= |s|
    ensures r == [] || (!IsWhitespace(r[0]) && !IsWhitespace(r[|r| - 1]))
  {
    var t := StripFences(s);
    var c := CutObject(t);
    assert |c| <= |t| <= |s|;
    Trim(c)
  }

  /** When the fence-stripped reply has braces, the cleaner returns exactly the inclusive
      span from its first `{` to its last `}`. */
  lemma CleanJsonSpan(s: string)
    requires CleanDefined(s)
    ensures var t := StripFences(s);
            var i, j := FirstIndexOf(t, '{'), LastIndexOf(t, '}');
            i.Some? && j.Some? ==> CleanJson(s) == t[i.value..j.value + 1]
  {
    TrimmedCut(StripFences(s));
  }

  /** Trimming the object span changes nothing, as it starts and ends with a brace. */
  lemma TrimmedCut(t: string)
    requires BracesOrdered(t)
    ensures var i, j := FirstIndexOf(t, '{'), LastIndexOf(t, '}');
            i.Some? && j.Some? ==> Trim(CutObject(t)) == t[i.value..j.value + 1]
  {
    if FirstIndexOf(t, '{').Some? && LastIndexOf(t, '}').Some? {
      TrimBraced(CutObject(t));
    }
  }

  /** A text from a `{` to a `}` has nothing to trim. */
  lemma TrimBraced(c: string)
    requires |c| > 0 && c[0] == '{' && c[|c| - 1] == '}'
    ensures Trim(c) == c
  {
    TrimKeepsSolidText(c);
  }

  /** Without a `{` or without a `}` the cleaner only strips fences and trims. */
  lemma CleanJsonWithoutBraces(s: string)
    requires '{' !in StripFences(s) || '}' !in StripFences(s)
    ensures CleanDefined(s) && CleanJson(s) == Trim(StripFences(s))
  {
  }

  /** The corrected cleaner: where the last `}` precedes the first `{` there is no object
      to cut out, so the stripped text is kept as it is. */
  function CleanJsonSafe(s: string): (r: string)
    ensures CleanDefined(s) ==> r == CleanJson(s)
    ensures !CleanDefined(s) ==> r == Trim(StripFences(s))
  {
    if CleanDefined(s) then CleanJson(s) else Trim(StripFences(s))
  }

  /** A reply `}{` makes the as-written cleaner stop the program. */
  lemma CleanJsonTraps()
    ensures !CleanDefined("}{")
  {
    var t := StripFences("}{");
    assert Trim("}{") == "}{";
    assert t == "}{";
    assert FirstIndexOf(t, '{') == Some(1);
    assert LastIndexOf(t, '}') == Some(0);
  }

  /** The corrected cleaner returns such a reply unchanged. */
  lemma CleanJsonSafeKeepsReversedBraces()
    ensures CleanJsonSafe("}{") == "}{"
  {
    CleanJsonTraps();
    assert Trim("}{") == "}{";
  }

  /** A text whose first character differs from that of `p` does not start with `p`. */
  lemma FirstCharBlocksPrefix(s: string, p: string)
    requires |s| > 0 && |p| > 0 && s[0] != p[0]
    ensures !StartsWith(s, p)
  {
    if |p| <= |s| {
      assert s[..|p|][0] != p[0];
    }
  }

  /** A text whose last character differs from that of `p` does not end with `p`. */
  lemma LastCharBlocksSuffix(s: string, p: string)
    requires |s| > 0 && |p| > 0 && s[|s| - 1] != p[|p| - 1]
    ensures !EndsWith(s, p)
  {
    if |p| <= |s| {
      assert s[|s| - |p|..][|p| - 1] != p[|p| - 1];
    }
  }

  /** A fenced block "```json<b>```" loses exactly its two fences, provided the body does
      not itself begin with a backquote. */
  lemma StripFencesOfFencedBlock(b: string)
    requires b == [] || b[0] != '`'
    ensures StripFences(JsonFence + b + Fence) == b
  {
    var s := JsonFence + b + Fence;
    assert s[0] == '`' && s[|s| - 1] == '`';
    TrimKeepsSolidText(s);
    assert s[..|JsonFence|] == JsonFence;
    var t1 := DropPrefix(s, JsonFence);
    assert t1 == b + Fence;
    if |b| > 0 {
      assert t1[0] == b[0];
      FirstCharBlocksPrefix(t1, Fence);
      assert t1[|t1| - |Fence|..] == Fence;
      assert t1[..|t1| - |Fence|] == b;
    } else {
      assert t1 == Fence;
      assert t1[..|Fence|] == Fence;
      assert DropPrefix(t1, Fence) == [];
    }
  }

  /** A leading "```" is dropped once only: a doubled fence keeps one. */
  lemma StripFencesDropsOnce()
    ensures StripFences("``````x") == "```x"
  {
    var s := "``````x";
    TrimKeepsSolidText(s);
    assert !StartsWith(s, JsonFence) by { assert s[..7][3] != JsonFence[3]; }
    assert s[..3] == Fence;
    var t2 := DropPrefix(s, Fence);
    assert t2 == "```x";
    LastCharBlocksSuffix(t2, Fence);
  }

  /** A text that begins with `{` and ends with `}` passes through the cleaner unchanged. */
  lemma CleanKeepsBraced(t: string)
    requires |t| > 0 && t[0] == '{' && t[|t| - 1] == '}'
    ensures CleanDefined(t) && CleanJson(t) == t
  {
    TrimKeepsSolidText(t);
    FirstCharBlocksPrefix(t, JsonFence);
    FirstCharBlocksPrefix(t, Fence);
    LastCharBlocksSuffix(t, Fence);
    assert StripFences(t) == t;
    FirstIndexOfAt(t, '{', 0);
    LastIndexOfAt(t, '}', |t| - 1);
    assert t[0..|t|] == t;
  }

  /** Cleaning an output that looks like an object again changes nothing. */
  lemma CleanIdempotentOnObjects(s: string)
    requires CleanDefined(s)
    requires var r := CleanJson(s); |r| > 0 && r[0] == '{' && r[|r| - 1] == '}'
    ensures CleanDefined(CleanJson(s)) && CleanJson(CleanJson(s)) == CleanJson(s)
  {
    CleanKeepsBraced(CleanJson(s));
  }

  /** Without braces the cleaner is not idempotent: a second pass strips a fence that the
      first pass uncovered. */
  lemma CleanNotIdempotent()
    ensures CleanDefined("``` ```x```") && CleanJson("``` ```x```") == "```x"
    ensures CleanDefined("```x") && CleanJson("```x") == "x"
  {
    FirstCleaning();
    SecondCleaning();
  }

  lemma FirstCleaning()
    ensures CleanDefined("``` ```x```") && CleanJson("``` ```x```") == "```x"
  {
    FirstStripping();
    var t := " ```x";
    assert '{' !in t;
    assert CutObject(t) == t;
    LeadingSpaceTrimmed();
  }

  lemma FirstStripping()
    ensures StripFences("``` ```x```") == " ```x"
  {
    assert "``` ```x```" == Fence + " ```x" + Fence;
    StripFencesOfPlainBlock(" ```x");
  }

  /** A block fenced by plain "```" on both sides loses both fences, provided its body
      does not begin with the `j` of "```json". */
  lemma StripFencesOfPlainBlock(b: string)
    requires |b| > 0 && b[0] != 'j'
    ensures StripFences(Fence + b + Fence) == b
  {
    var s := Fence + b + Fence;
    assert s[0] == '`' && s[|s| - 1] == '`';
    TrimKeepsSolidText(s);
    assert s[3] == b[0];
    assert JsonFence[3] == 'j';
    assert !StartsWith(s, JsonFence) by { assert s[..7][3] == s[3]; }
    assert s[..3] == Fence;
    var t := DropPrefix(s, Fence);
    assert t == b + Fence;
    assert t[|t| - 3..] == Fence;
    assert t[..|t| - 3] == b;
  }

  lemma LeadingSpaceTrimmed()
    ensures Trim(" ```x") == "```x"
  {
    assert TrimStart(" ```x") == "```x";
    TrimKeepsSolidText("```x");
  }

  lemma SecondCleaning()
    ensures StripFences("```x") == "x"
    ensures CleanDefined("```x") && CleanJson("```x") == "x"
  {
    var u := "```x";
    TrimKeepsSolidText(u);
    FirstCharBlocksPrefix(u[3..], "`");
    assert !StartsWith(u, JsonFence);
    assert u[..3] == Fence;
    assert DropPrefix(u, Fence) == "x";
    LastCharBlocksSuffix("x", Fence);
    assert '{' !in "x";
    TrimKeepsSolidText("x");
  }
}

=== FILE: seqs.dfy ===
/** Sequence operations standing for Swift's `filter`, `removeAll(where:)` and
    `sorted(by:)` on arrays. */
module Seqs {

  /** `filter(p)`: the elements satisfying `p`, in their original order. */
  function Filter<T(!new)>(s: seq<T>, p: T -> bool): (r: seq<T>)
    ensures |r| <= |s|
    ensures forall i :: 0 <= i < |r| ==> p(r[i])
    decreases |s|
  {
    if |s| == 0 then []
    else (if p(s[0]) then [s[0]] else []) + Filter(s[1..], p)
  }

  /** Filtering keeps every satisfying element as often as it occurs and drops the rest. */
  lemma {:induction false} FilterCount<T(!new)>(s: seq<T>, p: T -> bool, x: T)
    ensures multiset(Filter(s, p))[x] == if p(x) then multiset(s)[x] else 0
    decreases |s|
  {
    if |s| > 0 {
      assert s == [s[0]] + s[1..];
      FilterCount(s[1..], p, x);
    }
  }

  /** An element survives filtering exactly when it occurs and satisfies `p`. */
  lemma FilterMember<T(!new)>(s: seq<T>, p: T -> bool, x: T)
    ensures x in Filter(s, p) <==> x in s && p(x)
  {
    FilterCount(s, p, x);
    assert x in Filter(s, p) <==> multiset(Filter(s, p))[x] > 0;
    assert x in s <==> multiset(s)[x] > 0;
  }

  /** Filtering distributes over concatenation, so the kept elements stay in order. */
  lemma {:induction false} FilterAppend<T(!new)>(a: seq<T>, b: seq<T>, p: T -> bool)
    ensures Filter(a + b, p) == Filter(a, p) + Filter(b, p)
    decreases |a|
  {
    if |a| > 0 {
      assert (a + b)[0] == a[0];
      assert (a + b)[1..] == a[1..] + b;
      FilterAppend(a[1..], b, p);
      var head := if p(a[0]) then [a[0]] else [];
      assert Filter(a + b, p) == head + (Filter(a[1..], p) + Filter(b, p));
    } else {
      assert a + b == b;
    }
  }

  /** Keys ascend along `s`. */
  ghost predicate SortedBy<T>(s: seq<T>, key: T -> int) {
    forall i, j :: 0 <= i < j < |s| ==> key(s[i]) <= key(s[j])
  }

  /** Inserts `x` in front of the first element with a larger or equal key. */
  function InsertBy<T>(x: T, s: seq<T>, key: T -> int): (r: seq<T>)
    requires SortedBy(s, key)
    ensures |r| == |s| + 1
    ensures SortedBy(r, key)
    ensures multiset(r) == multiset(s) + multiset{x}
    decreases |s|
  {
    if |s| == 0 then [x]
    else if key(x) <= key(s[0]) then
      SortedCons(x, s, key);
      [x] + s
    else
      var rest := InsertBy(x, s[1..], key);
      HeadBoundsInsertion(x, s, key, rest);
      SortedCons(s[0], rest, key);
      assert s == [s[0]] + s[1..];
      [s[0]] + rest
  }

  /** An element no larger than the first of a sorted sequence, or than all of it,
      keeps it sorted when put in front. */
  lemma SortedCons<T>(h: T, s: seq<T>, key: T -> int)
    requires SortedBy(s, key)
    requires (|s| > 0 && key(h) <= key(s[0])) || forall j :: 0 <= j < |s| ==> key(h) <= key(s[j])
    ensures SortedBy([h] + s, key)
  {
    var r := [h] + s;
    forall i, j | 0 <= i < j < |r| ensures key(r[i]) <= key(r[j]) {
      assert r[j] == s[j - 1];
      if i > 0 {
        assert r[i] == s[i - 1];
      } else if |s| > 0 && key(h) <= key(s[0]) {
        assert key(s[0]) <= key(s[j - 1]);
      }
    }
  }

  /** The head of a sorted sequence bounds every element of a permutation of its tail
      with a larger `x` added. */
  lemma HeadBoundsInsertion<T>(x: T, s: seq<T>, key: T -> int, rest: seq<T>)
    requires SortedBy(s, key) && |s| > 0 && key(s[0]) < key(x)
    requires multiset(rest) == multiset(s[1..]) + multiset{x}
    ensures forall j :: 0 <= j < |rest| ==> key(s[0]) <= key(rest[j])
  {
    forall j | 0 <= j < |rest|
      ensures key(s[0]) <= key(rest[j])
    {
      assert rest[j] in multiset(rest);
      if rest[j] != x {
        assert rest[j] in multiset(s[1..]);
        assert rest[j] in s[1..];
        var i :| 0 <= i < |s[1..]| && s[1..][i] == rest[j];
        assert s[i + 1] == rest[j];
      }
    }
  }

  /** `sorted { key($0) < key($1) }`: a permutation of `s` in ascending key order. */
  function SortBy<T>(s: seq<T>, key: T -> int): (r: seq<T>)
    ensures |r| == |s|
    ensures SortedBy(r, key)
    ensures multiset(r) == multiset(s)
    decreases |s|
  {
    if |s| == 0 then []
    else
      assert s == [s[0]] + s[1..];
      InsertBy(s[0], SortBy(s[1..], key), key)
  }

  /** Filtering with a predicate every element satisfies changes nothing. */
  lemma {:induction false} FilterAll<T(!new)>(s: seq<T>, p: T -> bool)
    requires forall i :: 0 <= i < |s| ==> p(s[i])
    ensures Filter(s, p) == s
    decreases |s|
  {
    if |s| > 0 {
      FilterAll(s[1..], p);
      assert [s[0]] + s[1..] == s;
    }
  }

  /** Two predicates that agree on every element of `s` keep the same elements. */
  lemma {:induction false} FilterAgree<T(!new)>(s: seq<T>, p: T -> bool, q: T -> bool)
    requires forall i :: 0 <= i < |s| ==> p(s[i]) == q(s[i])
    ensures Filter(s, p) == Filter(s, q)
    decreases |s|
  {
    if |s| > 0 {
      FilterAgree(s[1..], p, q);
    }
  }

  /** Sorting keeps exactly the elements it is given. */
  lemma SortByMember<T>(s: seq<T>, key: T -> int, x: T)
    ensures x in SortBy(s, key) <==> x in s
  {
    var r := SortBy(s, key);
    assert x in r <==> multiset(r)[x] > 0;
    assert x in s <==> multiset(s)[x] > 0;
  }

  /** The head of a sorted permutation has the least key of all elements. */
  lemma SortByHeadIsLeast<T>(s: seq<T>, key: T -> int, x: T)
    requires |s| > 0 && x in s
    ensures key(SortBy(s, key)[0]) <= key(x)
  {
    var r := SortBy(s, key);
    SortByMember(s, key, x);
    var k :| 0 <= k < |r| && r[k] == x;
    assert k == 0 || key(r[0]) <= key(r[k]);
  }
}

=== FILE: share_selection.dfy ===
/** `SharingOptionsView`: which events a time range selects for sharing, the events from
    today on, the selection toggle, and what pressing a sharing method leads to,
    including the fallback to the general share sheet. */
module ShareSelection {
  import opened Wrappers
  import opened Seqs
  import opened Civil
  import opened Models
  import opened EventList
  import opened Sharing

  datatype TimeRange = ThisEvent | SelectEvents | Today | ThisWeek | ThisMonth

  /** The raw value of each range, which is also its label. */
  function RangeRawValue(t: TimeRange): string {
    match t
    case ThisEvent => "This Event"
    case SelectEvents => "Select Events"
    case Today => "Today"
    case ThisWeek => "This Week"
    case ThisMonth => "This Month"
  }

  /** `SharingTimeRange(rawValue:)`. */
  function RangeFromRaw(s: string): (r: Option<TimeRange>)
    ensures r.Some? ==> RangeRawValue(r.value) == s
  {
    if s == "This Event" then Some(ThisEvent)
    else if s == "Select Events" then Some(SelectEvents)
    else if s == "Today" then Some(Today)
    else if s == "This Week" then Some(ThisWeek)
    else if s == "This Month" then Some(ThisMonth)
    else None
  }

  /** Every range is read back from its raw value. */
  lemma RangeRawRoundTrip(t: TimeRange)
    ensures RangeFromRaw(RangeRawValue(t)) == Some(t)
  {
  }

  /** The view's state that `updateEventsToShare` reads. */
  datatype Selection = Selection(range: TimeRange, selectedEvent: Option<Event>,
                                 selectedDate: Option<Instant>, selectedIds: set<EventId>)

  /** Keeps the events whose identity is selected. */
  function IdIn(ids: set<EventId>): Event -> bool {
    (x: Event) => x.id in ids
  }

  /** The half-open window of the Today, This Week and This Month ranges: from the start of
      the day, week or month holding `now` (or `now` itself when the calendar finds no
      such week or month) to one day, week or month later. */
  function RangeWindow(t: TimeRange, cal: Calendar, now: Instant): (w: (Instant, Instant))
    requires t == Today || t == ThisWeek || t == ThisMonth
    ensures t == Today ==> w == (cal.startOfDay(now), cal.nextDay(cal.startOfDay(now)))
    ensures t == ThisWeek ==> w.0 == cal.weekStart(now).GetOr(now) && w.1 == cal.nextWeek(w.0)
    ensures t == ThisMonth ==> w.0 == cal.monthStart(now).GetOr(now) && w.1 == cal.nextMonth(w.0)
  {
    match t
    case Today => (cal.startOfDay(now), cal.nextDay(cal.startOfDay(now)))
    case ThisWeek => var lo := cal.weekStart(now).GetOr(now); (lo, cal.nextWeek(lo))
    case ThisMonth => var lo := cal.monthStart(now).GetOr(now); (lo, cal.nextMonth(lo))
  }

  /** The This Event range without a selected event: the earliest stored event of the
      selected date's day (today's when no date is selected), or none. */
  function FirstOfDay(events: seq<Event>, cal: Calendar, date: Instant): (r: seq<Event>)
    ensures |r| <= 1
  {
    var day := EventsForDate(events, cal, date);
    if |day| == 0 then [] else [day[0]]
  }

  /** `updateEventsToShare`: the events the range picks, sorted by start at the end. */
  function EventsToShare(events: seq<Event>, sel: Selection, cal: Calendar, now: Instant): (r: seq<Event>)
    ensures SortedBy(r, StartOf)
    ensures sel.range == ThisEvent && sel.selectedEvent.Some? ==> r == [sel.selectedEvent.value]
    ensures sel.range == ThisEvent && sel.selectedEvent.None? ==>
              r == FirstOfDay(events, cal, sel.selectedDate.GetOr(now))
  {
    var picked :=
      match sel.range
      case ThisEvent =>
        (match sel.selectedEvent
         case Some(e) => [e]
         case None => FirstOfDay(events, cal, sel.selectedDate.GetOr(now)))
      case SelectEvents => Filter(events, IdIn(sel.selectedIds))
      case _ =>
        var (lo, hi) := RangeWindow(sel.range, cal, now);
        Filter(events, StartsIn(lo, hi));
    SortBy(picked, StartOf)
  }

  /** Without a selected event, This Event shares nothing exactly when no stored event
      starts on the target day, and otherwise one stored event of that day starting no
      later than any other. */
  lemma ThisEventEarliest(events: seq<Event>, sel: Selection, cal: Calendar, now: Instant)
    requires sel.range == ThisEvent && sel.selectedEvent.None?
    ensures var r := EventsToShare(events, sel, cal, now);
            var lo := cal.startOfDay(sel.selectedDate.GetOr(now));
            var hi := cal.nextDay(lo);
            (r == [] <==> forall x :: x in events ==> !(lo <= x.start < hi))
            && (r != [] ==>
                  |r| == 1 && r[0] in events && lo <= r[0].start < hi
                  && forall x :: x in events && lo <= x.start < hi ==> r[0].start <= x.start)
  {
    var date := sel.selectedDate.GetOr(now);
    var lo := cal.startOfDay(date);
    var hi := cal.nextDay(lo);
    var kept := Filter(events, StartsIn(lo, hi));
    var day := EventsForDate(events, cal, date);
    assert day == SortBy(kept, StartOf);
    forall x | x in events
      ensures x in day <==> lo <= x.start < hi
    {
      EventsInWindowMember(events, lo, hi, x);
    }
    if |day| > 0 {
      assert day[0] in day;
      EventsInWindowMember(events, lo, hi, day[0]);
      forall x | x in events && lo <= x.start < hi
        ensures day[0].start <= x.start
      {
        FilterMember(events, StartsIn(lo, hi), x);
        SortByHeadIsLeast(kept, StartOf, x);
      }
    }
  }

  /** Today, This Week and This Month share each stored event exactly when it starts in
      the range's window, as often as it is stored. */
  lemma WindowRangeMembers(events: seq<Event>, sel: Selection, cal: Calendar, now: Instant, x: Event)
    requires sel.range == Today || sel.range == ThisWeek || sel.range == ThisMonth
    ensures var (lo, hi) := RangeWindow(sel.range, cal, now);
            var r := EventsToShare(events, sel, cal, now);
            (x in r <==> x in events && lo <= x.start < hi)
            && multiset(r)[x] == if lo <= x.start < hi then multiset(events)[x] else 0
  {
    var (lo, hi) := RangeWindow(sel.range, cal, now);
    assert EventsToShare(events, sel, cal, now) == EventsInWindow(events, lo, hi);
    EventsInWindowMember(events, lo, hi, x);
    EventsInWindowCount(events, lo, hi, x);
  }

  /** Select Events shares exactly the stored events whose identity is selected. */
  lemma SelectedMembers(events: seq<Event>, sel: Selection, cal: Calendar, now: Instant, x: Event)
    requires sel.range == SelectEvents
    ensures x in EventsToShare(events, sel, cal, now) <==> x in events && x.id in sel.selectedIds
  {
    var kept := Filter(events, IdIn(sel.selectedIds));
    FilterMember(events, IdIn(sel.selectedIds), x);
    SortByMember(kept, StartOf, x);
  }

  /** Keeps the events starting at or after `lo`. */
  function StartsFrom(lo: Instant): Event -> bool {
    (x: Event) => lo <= x.start
  }

  /** `getEventsFromToday`: the stored events starting at or after the start of today,
      earliest first. */
  function EventsFromToday(events: seq<Event>, cal: Calendar, now: Instant): (r: seq<Event>)
    ensures SortedBy(r, StartOf) && |r| <= |events|
  {
    SortBy(Filter(events, StartsFrom(cal.startOfDay(now))), StartOf)
  }

  /** An event is listed from today on exactly when it is stored and starts no earlier
      than the start of today; whatever Today shares is among them. */
  lemma EventsFromTodayMembers(events: seq<Event>, cal: Calendar, now: Instant, x: Event)
    ensures x in EventsFromToday(events, cal, now) <==> x in events && cal.startOfDay(now) <= x.start
    ensures x in EventsToShare(events, Selection(Today, None, None, {}), cal, now) ==> x in EventsFromToday(events, cal, now)
  {
    var lo := cal.startOfDay(now);
    FilterMember(events, StartsFrom(lo), x);
    SortByMember(Filter(events, StartsFrom(lo)), StartOf, x);
    WindowRangeMembers(events, Selection(Today, None, None, {}), cal, now, x);
  }

  /** The selection row's toggle: a selected identity is removed, any other added. */
  function Toggle(ids: set<EventId>, id: EventId): (r: set<EventId>)
    ensures id in r <==> id !in ids
    ensures forall other :: other != id ==> (other in r <==> other in ids)
  {
    if id in ids then ids - {id} else ids + {id}
  }

  /** Toggling the same identity twice restores the selection. */
  lemma ToggleTwice(ids: set<EventId>, id: EventId)
    ensures Toggle(Toggle(ids, id), id) == ids
  {
  }

  /** Toggles of different identities commute. */
  lemma ToggleCommutes(ids: set<EventId>, a: EventId, b: EventId)
    ensures Toggle(Toggle(ids, a), b) == Toggle(Toggle(ids, b), a)
  {
  }

  /** The Share button is disabled when there is nothing to share. */
  predicate ShareDisabled(eventsToShare: seq<Event>) {
    |eventsToShare| == 0
  }

  /** What pressing a sharing method did: the methods tried, in order, and whether the
      options sheet was dismissed. */
  datatype OptionsShare = OptionsShare(tried: seq<SharingMethod>, dismissed: bool)

  /** `shareCalendar` of the options view: nothing without events; a success dismisses the
      sheet; an unavailable composer falls back to the general share sheet, whose
      success dismisses it; any other failure leaves the sheet open. The calendar is
      exported afresh for each try, `uids` and `fallbackUids` being the identifiers it
      draws. */
  function ShareFromOptions(eventsToShare: seq<Event>, via: SharingMethod, device: Device, f: Formats,
                            uids: seq<string>, fallbackUids: seq<string>): (r: OptionsShare)
    requires |uids| == |eventsToShare| && |fallbackUids| == |eventsToShare|
    ensures |eventsToShare| == 0 ==> r.tried == [] && !r.dismissed
    ensures |eventsToShare| > 0 ==> 1 <= |r.tried| <= 2 && r.tried[0] == via
    ensures |r.tried| == 2 <==>
              |eventsToShare| > 0 && ((via == Message && !device.canSendText) || (via == Email && !device.canSendMail))
    ensures |r.tried| == 2 ==> r.tried[1] == Link
    ensures r.dismissed <==>
              (|eventsToShare| > 0 &&
               (Outcome(via, device).Succeeded? || (|r.tried| == 2 && Outcome(Link, device).Succeeded?)))
  {
    if |eventsToShare| == 0 then OptionsShare([], false)
    else
      match ShareCalendar(eventsToShare, via, device, f, uids).completion
      case Succeeded => OptionsShare([via], true)
      case Failed(Sharing(MessageNotAvailable)) | Failed(Sharing(EmailNotAvailable)) =>
        var fallback := ShareCalendar(eventsToShare, Link, device, f, fallbackUids).completion;
        OptionsShare([via, Link], fallback.Succeeded?)
      case _ => OptionsShare([via], false)
  }

  /** The sheet is dismissed exactly when there is something to share, the app has a
      root view to present from, and the calendar file, if that was the method, could be
      written. */
  lemma DismissedIff(eventsToShare: seq<Event>, via: SharingMethod, device: Device, f: Formats,
                     uids: seq<string>, fallbackUids: seq<string>)
    requires |uids| == |eventsToShare| && |fallbackUids| == |eventsToShare|
    ensures ShareFromOptions(eventsToShare, via, device, f, uids, fallbackUids).dismissed
            <==> |eventsToShare| > 0 && device.hasRootView && !(via == IcsFile && device.writeError.Some?)
  {
  }

  /** An enabled Share button always tries the chosen method. */
  lemma EnabledShareTries(eventsToShare: seq<Event>, via: SharingMethod, device: Device, f: Formats,
                          uids: seq<string>, fallbackUids: seq<string>)
    requires !ShareDisabled(eventsToShare)
    requires |uids| == |eventsToShare| && |fallbackUids| == |eventsToShare|
    ensures ShareFromOptions(eventsToShare, via, device, f, uids, fallbackUids).tried[0] == via
  {
  }

  /** The Share button is enabled exactly when pressing it would try some method. */
  lemma ShareEnabledIffTries(eventsToShare: seq<Event>, via: SharingMethod, device: Device, f: Formats,
                             uids: seq<string>, fallbackUids: seq<string>)
    requires |uids| == |eventsToShare| && |fallbackUids| == |eventsToShare|
    ensures !ShareDisabled(eventsToShare) <==> ShareFromOptions(eventsToShare, via, device, f, uids, fallbackUids).tried != []
  {
  }
}

=== FILE: sharing.dfy ===
/** `SharingManager`: the texts, link and e-mail body built for a list of events, and
    which composer or share sheet each sharing method presents. The date formatters,
    percent-encoding and URL parsing are inputs; whether a composer can be shown is
    described by a `Device`. */
module Sharing {
  import opened Wrappers
  import opened Strings
  import opened Civil
  import opened Models
  import opened IcsExport

  /** The emoji the texts use. */
  const CalendarMark: string := "\U{1F4C5}"
  const PinMark: string := "\U{1F4CD}"
  const ClockMark: string := "\U{1F550}"
  const PhoneMark: string := "\U{1F4F1}"
  const BulbMark: string := "\U{1F4A1}"

  /** The formatters and URL helpers the manager calls. */
  datatype Formats = Formats(
    medium: Instant -> string,             // DateFormatter, medium date and short time
    utc: Instant -> string,                // yyyyMMdd'T'HHmmss'Z' in UTC
    encode: string -> Option<string>,      // addingPercentEncoding(withAllowedCharacters: .urlQueryAllowed)
    isValidUrl: string -> bool             // URL(string:) != nil
  )

  // ---------------------------------------------------------------- per-event entries

  function TitleLine(e: Event): string {
    PinMark + " " + e.title
  }

  function TimeLine(e: Event, medium: Instant -> string): string {
    ClockMark + " " + medium(e.start)
  }

  /** The location line, when the event has a location. */
  function LocationLines(e: Event): (r: seq<string>)
    ensures |r| <= 1 && (|r| == 1 <==> e.location.Some?)
  {
    if e.location.Some? then [PinMark + " " + e.location.value] else []
  }

  /** The text one event adds to the share text and to the text summary: the title line,
      the time line, the location line when there is a location, and an empty line. */
  function Entry(e: Event, medium: Instant -> string): string {
    TitleLine(e) + "\n" + (TimeLine(e, medium) + "\n"
    + ((if e.location.Some? then PinMark + " " + e.location.value + "\n" else "") + "\n"))
  }

  /** The lines of one entry: title, time, the location when there is one, and a blank
      line. */
  function EntryLines(e: Event, medium: Instant -> string): (r: seq<string>)
    ensures |r| == 3 + |LocationLines(e)| && r[|r| - 1] == ""
  {
    [TitleLine(e), TimeLine(e, medium)] + LocationLines(e) + [""]
  }

  /** The entries of all events, in order. */
  function Entries(events: seq<Event>, medium: Instant -> string): string
    decreases |events|
  {
    if |events| == 0 then "" else Entry(events[0], medium) + Entries(events[1..], medium)
  }

  function AllEntryLines(events: seq<Event>, medium: Instant -> string): seq<string>
    decreases |events|
  {
    if |events| == 0 then [] else EntryLines(events[0], medium) + AllEntryLines(events[1..], medium)
  }

  /** No title, location or formatted start of the events holds a line break. */
  predicate Printable(events: seq<Event>, medium: Instant -> string) {
    forall i :: 0 <= i < |events| ==>
      SingleLine(events[i].title) && SingleLine(medium(events[i].start))
      && (events[i].location.Some? ==> SingleLine(events[i].location.value))
  }

  /** Rearranges the four appends of an entry into terminated lines. */
  lemma EntryShape(a: string, b: string, loc: seq<string>, l: string)
    requires (loc == [] && l == "") || (|loc| == 1 && l == loc[0] + "\n")
    ensures a + "\n" + (b + "\n" + (l + "\n")) == Unlines([a, b] + loc + [""])
  {
    var tail := loc + [""];
    assert [a, b] + loc + [""] == [a, b] + tail;
    calc {
      Unlines([a, b] + loc + [""]);
      { UnlinesAppend([a, b], tail); }
      Unlines([a, b]) + Unlines(tail);
      { UnlinesPair(a, b); EntryTail(loc, l); }
      (a + "\n" + (b + "\n")) + (l + "\n");
      a + "\n" + (b + "\n" + (l + "\n"));
    }
  }

  /** Two terminated lines. */
  lemma UnlinesPair(a: string, b: string)
    ensures Unlines([a, b]) == a + "\n" + (b + "\n")
  {
    assert [a, b][1..] == [b];
    assert [b][1..] == [];
    assert Unlines([b]) == b + "\n" + "";
    assert b + "\n" + "" == b + "\n";
  }

  /** The optional location line and the blank line ending an entry. */
  lemma EntryTail(loc: seq<string>, l: string)
    requires (loc == [] && l == "") || (|loc| == 1 && l == loc[0] + "\n")
    ensures Unlines(loc + [""]) == l + "\n"
  {
    assert Unlines([""]) == "" + "\n" + Unlines([]);
    if loc != [] {
      assert (loc + [""])[1..] == [""];
    } else {
      assert loc + [""] == [""];
    }
  }

  /** Every one of `lines` is a single line. */
  predicate AllSingle(lines: seq<string>) {
    forall k :: 0 <= k < |lines| ==> SingleLine(lines[k])
  }

  lemma SingleLineAppend(a: string, b: string)
    requires SingleLine(a) && SingleLine(b)
    ensures SingleLine(a + b)
  {
  }

  /** An entry is its lines, each ended by a line feed. */
  lemma EntryIsLines(e: Event, medium: Instant -> string)
    ensures Entry(e, medium) == Unlines(EntryLines(e, medium))
  {
    EntryShape(TitleLine(e), TimeLine(e, medium), LocationLines(e),
               if e.location.Some? then PinMark + " " + e.location.value + "\n" else "");
  }

  /** The entries of a list are the lines of its entries, each ended by a line feed. */
  lemma {:induction false} EntriesAreLines(events: seq<Event>, medium: Instant -> string)
    ensures Entries(events, medium) == Unlines(AllEntryLines(events, medium))
    decreases |events|
  {
    if |events| > 0 {
      EntryIsLines(events[0], medium);
      EntriesAreLines(events[1..], medium);
      UnlinesAppend(EntryLines(events[0], medium), AllEntryLines(events[1..], medium));
    }
  }

  /** Entries of concatenated lists concatenate. */
  lemma {:induction false} EntriesAppend(a: seq<Event>, b: seq<Event>, medium: Instant -> string)
    ensures Entries(a + b, medium) == Entries(a, medium) + Entries(b, medium)
    decreases |a|
  {
    if |a| == 0 {
      assert a + b == b;
    } else {
      assert (a + b)[1..] == a[1..] + b;
      EntriesAppend(a[1..], b, medium);
    }
  }

  /** The lines of printable events hold no line break. */
  lemma {:induction false} EntryLinesSingle(events: seq<Event>, medium: Instant -> string)
    requires Printable(events, medium)
    ensures AllSingle(AllEntryLines(events, medium))
    decreases |events|
  {
    if |events| > 0 {
      var e := events[0];
      assert SingleLine(PinMark + " ");
      assert SingleLine(ClockMark + " ");
      SingleLineAppend(PinMark + " ", e.title);
      SingleLineAppend(ClockMark + " ", medium(e.start));
      if e.location.Some? {
        SingleLineAppend(PinMark + " ", e.location.value);
      }
      assert Printable(events[1..], medium) by {
        forall i | 0 <= i < |events[1..]| ensures events[1..][i] == events[i + 1] { }
      }
      EntryLinesSingle(events[1..], medium);
    }
  }

  /** Every event contributes exactly its entry's lines: 3 or, with a location, 4. */
  lemma {:induction false} AllEntryLinesCount(events: seq<Event>, medium: Instant -> string)
    ensures |AllEntryLines(events, medium)| == 3 * |events| + LocatedCount(events)
    decreases |events|
  {
    if |events| > 0 {
      AllEntryLinesCount(events[1..], medium);
    }
  }

  /** How many of the events have a location. */
  function LocatedCount(events: seq<Event>): (n: nat)
    ensures n <= |events|
    decreases |events|
  {
    if |events| == 0 then 0 else (if events[0].location.Some? then 1 else 0) + LocatedCount(events[1..])
  }

  // ---------------------------------------------------------------- share text and summary

  const CountPrefix: string := CalendarMark + " My Calendar Events ("
  const CountSuffix: string := " events)"

  /** The first line of the share text, counting the events. */
  function ShareCountLine(n: nat): string {
    CountPrefix + NatToString(n) + CountSuffix
  }

  /** The two closing lines of the share text, with no line feed after the last. */
  const ShareFooter: string :=
    PhoneMark + " Shared via ScheduleShare\n" + BulbMark + " You can import the attached .ics file into your calendar app!"

  /** `createShareableText`. */
  function ShareableText(events: seq<Event>, medium: Instant -> string): (r: string)
    ensures StartsWith(r, ShareCountLine(|events|) + "\n\n")
    ensures EndsWith(r, ShareFooter)
  {
    ShareCountLine(|events|) + "\n\n" + Entries(events, medium) + ShareFooter
  }

  /** The count in the first line reads back as the number of events. */
  lemma ShareCountReadsBack(n: nat)
    ensures var line := ShareCountLine(n);
            var digits := line[|CountPrefix|..|line| - |CountSuffix|];
            AllDigits(digits) && ParseNat(digits) == n
  {
    var line := ShareCountLine(n);
    assert line[|CountPrefix|..|line| - |CountSuffix|] == NatToString(n);
    NatToStringRoundTrip(n);
  }

  /** A header line, a blank line and the terminated body lines split into exactly
      those lines, followed by the lines of whatever comes after. */
  lemma HeadBodyRest(head: string, body: seq<string>, bodyText: string, rest: string)
    requires bodyText == Unlines(body)
    requires SingleLine(head) && AllSingle(body)
    ensures Lines(head + "\n\n" + bodyText + rest) == [head, ""] + body + Lines(rest)
  {
    assert Unlines([head, ""]) == head + "\n\n" by {
      assert Unlines([head, ""][1..]) == "\n";
    }
    UnlinesAppend([head, ""], body);
    var lines := [head, ""] + body;
    assert head + "\n\n" + bodyText + rest == Unlines(lines) + rest;
    LinesOfUnlines(lines, rest);
  }

  /** The first line of the share text holds no line break. */
  lemma CountLineSingle(n: nat)
    ensures SingleLine(ShareCountLine(n))
  {
    assert SingleLine(CountPrefix);
    assert SingleLine(CountSuffix);
    SingleLineAppend(CountPrefix, NatToString(n));
    SingleLineAppend(CountPrefix + NatToString(n), CountSuffix);
  }

  /** The first line of the summary holds no line break. */
  lemma SummaryTitleSingle()
    ensures SingleLine(SummaryTitle)
  {
    assert SingleLine(CalendarMark);
    assert SingleLine(" Shared Calendar Events:");
    SingleLineAppend(CalendarMark, " Shared Calendar Events:");
  }

  /** The share text's lines: the count line, a blank line, each event's lines (title,
      time, the location only when there is one, a blank line), then the footer's. */
  lemma ShareableTextLines(events: seq<Event>, medium: Instant -> string)
    requires Printable(events, medium)
    ensures Lines(ShareableText(events, medium))
         == [ShareCountLine(|events|), ""] + AllEntryLines(events, medium) + Lines(ShareFooter)
  {
    EntriesAreLines(events, medium);
    EntryLinesSingle(events, medium);
    CountLineSingle(|events|);
    HeadBodyRest(ShareCountLine(|events|), AllEntryLines(events, medium), Entries(events, medium), ShareFooter);
  }

  const SummaryTitle: string := CalendarMark + " Shared Calendar Events:"
  const SummaryFooter: string := "Shared via ScheduleShare " + PhoneMark

  /** `createTextSummary`, the body of a text message. */
  function TextSummary(events: seq<Event>, medium: Instant -> string): (r: string)
    ensures StartsWith(r, SummaryTitle) && EndsWith(r, SummaryFooter)
  {
    SummaryTitle + "\n\n" + Entries(events, medium) + SummaryFooter
  }

  /** The summary's lines: its title, a blank line, the same event lines as the share
      text, and one footer line. */
  lemma TextSummaryLines(events: seq<Event>, medium: Instant -> string)
    requires Printable(events, medium)
    ensures Lines(TextSummary(events, medium))
         == [SummaryTitle, ""] + AllEntryLines(events, medium) + Lines(SummaryFooter)
  {
    EntriesAreLines(events, medium);
    EntryLinesSingle(events, medium);
    SummaryTitleSingle();
    HeadBodyRest(SummaryTitle, AllEntryLines(events, medium), Entries(events, medium), SummaryFooter);
  }

  /** The share text and the summary list the events identically; only their first and
      last lines differ. */
  lemma SummaryMatchesShareText(events: seq<Event>, medium: Instant -> string)
    requires Printable(events, medium)
    ensures var a := Lines(ShareableText(events, medium));
            var b := Lines(TextSummary(events, medium));
            var n := |AllEntryLines(events, medium)|;
            |a| >= n + 2 && |b| >= n + 2 && a[2..n + 2] == b[2..n + 2] == AllEntryLines(events, medium)
  {
    ShareableTextLines(events, medium);
    TextSummaryLines(events, medium);
  }

  // ---------------------------------------------------------------- share link

  const CalendarBase: string := "https://calendar.google.com/calendar/render?"

  /** The location parameter of the link: present only for an event with a location, the
      encoding falling back to the empty text. */
  function LocationParameter(e: Event, encode: string -> Option<string>): (r: string)
    ensures r == "" <==> e.location.None?
    ensures e.location.Some? ==> StartsWith(r, "&location=")
  {
    if e.location.Some? then "&location=" + encode(e.location.value).GetOr("") else ""
  }

  /** The link text for one event, appended piece by piece as the source does. */
  function LinkText(e: Event, f: Formats): string {
    CalendarBase + "action=TEMPLATE" + "&text=" + f.encode(e.title).GetOr("")
    + "&dates=" + f.utc(e.start) + "/" + f.utc(e.end) + LocationParameter(e, f.encode)
  }

  /** `createShareableURL`: no link for no events; otherwise the link for the first event,
      when the text parses as a URL. */
  function ShareableUrl(events: seq<Event>, f: Formats): (r: Option<string>)
    ensures |events| == 0 ==> r.None?
    ensures r.Some? ==> |events| > 0 && r.value == LinkText(events[0], f) && f.isValidUrl(r.value)
    ensures |events| > 0 && f.isValidUrl(LinkText(events[0], f)) ==> r.Some?
  {
    if |events| == 0 then None
    else
      var s := LinkText(events[0], f);
      if f.isValidUrl(s) then Some(s) else None
  }

  /** Only the first event matters to the link. */
  lemma ShareableUrlFirstOnly(a: seq<Event>, b: seq<Event>, f: Formats)
    requires |a| > 0 && |b| > 0 && a[0] == b[0]
    ensures ShareableUrl(a, f) == ShareableUrl(b, f)
  {
  }

  /** The link of an event is the link of the same event without location, followed by
      the location parameter exactly when it has one; the dates follow `&dates=` as
      start, slash, end. */
  lemma LinkLocationSuffix(e: Event, f: Formats)
    ensures var bare := LinkText(e.(location := None), f);
            LinkText(e, f) == bare + LocationParameter(e, f.encode)
            && EndsWith(bare, "&dates=" + f.utc(e.start) + "/" + f.utc(e.end))
  {
    var d := "&dates=" + f.utc(e.start) + "/" + f.utc(e.end);
    var head := CalendarBase + "action=TEMPLATE" + "&text=" + f.encode(e.title).GetOr("");
    assert LinkText(e.(location := None), f) == head + d;
  }

  // ---------------------------------------------------------------- e-mail body

  /** The lines of the multi-line literal the body starts with: the page start, the
      heading, the table and its header row up to its closing tag. */
  const EmailHeadTop: seq<string> := [
    "<html>",
    "<body>",
    "<h2>" + CalendarMark + " Shared Calendar Events</h2>",
    "<p>I'm sharing my calendar events with you using ScheduleShare!</p>",
    "<table border=\"1\" cellpadding=\"8\" cellspacing=\"0\" style=\"border-collapse: collapse;\">",
    "<tr style=\"background-color: #f0f0f0;\">",
    "<th>Event</th>",
    "<th>Date & Time</th>",
    "<th>Location</th>"
  ]

  /** The opening literal's lines: the head and the header row's closing `</tr>`. */
  const EmailHeadLines: seq<string> := EmailHeadTop + ["</tr>"]

  /** The lines of the closing literal. */
  const EmailFootLines: seq<string> := [
    "</table>",
    "<p><em>You can import the attached .ics file into your calendar app to add these events.</em></p>",
    "<p>Best regards,<br>ScheduleShare " + PhoneMark + "</p>",
    "</body>",
    "</html>"
  ]

  /** The location cell's text: the location, verbatim, or "No location". */
  function LocationCell(e: Event): (r: string)
    ensures e.location.Some? ==> r == e.location.value
    ensures e.location.None? ==> r == "No location"
  {
    e.location.GetOr("No location")
  }

  /** The three cells of an event's row, inserted without HTML escaping. */
  function CellLines(e: Event, medium: Instant -> string): seq<string> {
    ["<td><strong>" + e.title + "</strong></td>", "<td>" + medium(e.start) + "</td>", "<td>" + LocationCell(e) + "</td>"]
  }

  /** One table row: a multi-line literal, so its lines are joined by line feeds with no
      line feed after the last. */
  function Row(e: Event, medium: Instant -> string): string {
    Join(["<tr>"] + CellLines(e, medium) + ["</tr>"], "\n")
  }

  function Rows(events: seq<Event>, medium: Instant -> string): string
    decreases |events|
  {
    if |events| == 0 then "" else Row(events[0], medium) + Rows(events[1..], medium)
  }

  /** `createEmailBody`. */
  function EmailBody(events: seq<Event>, medium: Instant -> string): (r: string)
    ensures StartsWith(r, Join(EmailHeadLines, "\n")) && EndsWith(r, Join(EmailFootLines, "\n"))
  {
    Join(EmailHeadLines, "\n") + Rows(events, medium) + Join(EmailFootLines, "\n")
  }

  /** The lines each row contributes once rows are glued together: the previous
      `</tr>` and this row's `<tr>` share a line, then the three cells. */
  function RowLines(events: seq<Event>, medium: Instant -> string): (r: seq<string>)
    ensures |r| == 4 * |events|
    decreases |events|
  {
    if |events| == 0 then []
    else ["</tr><tr>"] + CellLines(events[0], medium) + RowLines(events[1..], medium)
  }

  /** A row is its opening tag and cells, each ended by a line feed, then `</tr>`. */
  lemma RowShape(e: Event, medium: Instant -> string)
    ensures Row(e, medium) == Unlines(["<tr>"] + CellLines(e, medium)) + "</tr>"
  {
    var lines := ["<tr>"] + CellLines(e, medium) + ["</tr>"];
    JoinIsUnlines(lines);
    assert lines[..|lines| - 1] == ["<tr>"] + CellLines(e, medium);
  }

  /** A text glued in front of terminated lines joins their first line. */
  lemma GlueFront(x: string, first: string, rest: seq<string>)
    ensures x + Unlines([first] + rest) == Unlines([x + first] + rest)
  {
    assert ([first] + rest)[1..] == rest;
    assert ([x + first] + rest)[1..] == rest;
  }

  /** After a closing `</tr>`, the rows and then `tail` split into the glued row lines
      followed by `</tr>` and `tail`. */
  lemma {:induction false} RowsGlued(events: seq<Event>, medium: Instant -> string, tail: string)
    ensures "</tr>" + Rows(events, medium) + tail == Unlines(RowLines(events, medium)) + ("</tr>" + tail)
    decreases |events|
  {
    if |events| > 0 {
      var e := events[0];
      var cells := CellLines(e, medium);
      var rest := Rows(events[1..], medium);
      var later := RowLines(events[1..], medium);
      assert "</tr>" + "<tr>" == "</tr><tr>";
      calc {
        "</tr>" + Rows(events, medium) + tail;
        "</tr>" + (Row(e, medium) + rest) + tail;
        { RowShape(e, medium); }
        "</tr>" + (Unlines(["<tr>"] + cells) + "</tr>" + rest) + tail;
        ("</tr>" + Unlines(["<tr>"] + cells)) + ("</tr>" + rest + tail);
        { GlueFront("</tr>", "<tr>", cells); }
        Unlines(["</tr><tr>"] + cells) + ("</tr>" + rest + tail);
        { RowsGlued(events[1..], medium, tail); }
        Unlines(["</tr><tr>"] + cells) + (Unlines(later) + ("</tr>" + tail));
        { UnlinesAppend(["</tr><tr>"] + cells, later); }
        Unlines(["</tr><tr>"] + cells + later) + ("</tr>" + tail);
        Unlines(RowLines(events, medium)) + ("</tr>" + tail);
      }
    }
  }

  /** The closing literal with the last row's `</tr>` glued to its first line. */
  const EmailClosing: string := Join(["</tr></table>"] + EmailFootLines[1..], "\n")

  /** The body is the head's lines but its `</tr>`, each ended by a line feed, then four
      terminated lines per event (the glued `</tr><tr>` and the three cells, text
      inserted verbatim), then the closing lines. */
  lemma EmailBodyShape(events: seq<Event>, medium: Instant -> string)
    ensures EmailBody(events, medium)
         == Unlines(EmailHeadTop) + Unlines(RowLines(events, medium)) + EmailClosing
  {
    var foot := EmailFootLines;
    RowsGlued(events, medium, Join(foot, "\n"));
    assert "</tr>" + foot[0] == "</tr></table>";
    GluedBody("</tr>", EmailHeadTop, Rows(events, medium), RowLines(events, medium), foot);
  }

  /** After the fixed head, the body of printable events splits into exactly four lines
      per event, followed by the closing lines. */
  lemma EmailBodyLines(events: seq<Event>, medium: Instant -> string)
    requires Printable(events, medium)
    ensures var top := Unlines(EmailHeadTop);
            var body := EmailBody(events, medium);
            StartsWith(body, top) && Lines(body[|top|..]) == RowLines(events, medium) + Lines(EmailClosing)
  {
    EmailBodyShape(events, medium);
    RowLinesSingle(events, medium);
    SplitAfterTop(Unlines(EmailHeadTop), RowLines(events, medium), EmailClosing, EmailBody(events, medium));
  }

  /** A text made of a top part, terminated single lines and a rest splits, after the
      top, into those lines and the lines of the rest. */
  lemma SplitAfterTop(top: string, lines: seq<string>, rest: string, text: string)
    requires text == top + Unlines(lines) + rest && AllSingle(lines)
    ensures StartsWith(text, top) && Lines(text[|top|..]) == lines + Lines(rest)
  {
    assert text[|top|..] == Unlines(lines) + rest;
    LinesOfUnlines(lines, rest);
  }

  /** A head ending in `t` and rows glued after it: the head's other lines, the row lines,
      then `t` glued to the first footer line. */
  lemma GluedBody(t: string, top: seq<string>, rowsText: string, rows: seq<string>, foot: seq<string>)
    requires |foot| > 1
    requires t + rowsText + Join(foot, "\n") == Unlines(rows) + (t + Join(foot, "\n"))
    ensures Join(top + [t], "\n") + rowsText + Join(foot, "\n")
         == Unlines(top) + Unlines(rows) + Join([t + foot[0]] + foot[1..], "\n")
  {
    var head := top + [t];
    var j := Join(foot, "\n");
    JoinIsUnlines(head);
    assert head[..|head| - 1] == top;
    calc {
      Join(head, "\n") + rowsText + j;
      Unlines(top) + t + rowsText + j;
      { Regroup(Unlines(top), t, rowsText, j); }
      Unlines(top) + (t + rowsText + j);
      Unlines(top) + (Unlines(rows) + (t + j));
      Unlines(top) + Unlines(rows) + (t + j);
      { GlueJoin(t, foot); }
      Unlines(top) + Unlines(rows) + Join([t + foot[0]] + foot[1..], "\n");
    }
  }

  /** Text glued in front of joined lines joins their first line. */
  lemma GlueJoin(t: string, foot: seq<string>)
    requires |foot| > 1
    ensures t + Join(foot, "\n") == Join([t + foot[0]] + foot[1..], "\n")
  {
    var glued := [t + foot[0]] + foot[1..];
    assert glued[1..] == foot[1..];
  }

  lemma Regroup(u: string, t: string, r: string, j: string)
    ensures u + t + r + j == u + (t + r + j)
  {
  }

  /** The glued row lines of printable events hold no line break. */
  lemma {:induction false} RowLinesSingle(events: seq<Event>, medium: Instant -> string)
    requires Printable(events, medium)
    ensures AllSingle(RowLines(events, medium))
    decreases |events|
  {
    if |events| > 0 {
      var e := events[0];
      SingleLineAppend("<td><strong>", e.title);
      SingleLineAppend("<td><strong>" + e.title, "</strong></td>");
      SingleLineAppend("<td>", medium(e.start));
      SingleLineAppend("<td>" + medium(e.start), "</td>");
      assert SingleLine(LocationCell(e));
      SingleLineAppend("<td>", LocationCell(e));
      SingleLineAppend("<td>" + LocationCell(e), "</td>");
      assert Printable(events[1..], medium) by {
        forall i | 0 <= i < |events[1..]| ensures events[1..][i] == events[i + 1] { }
      }
      RowLinesSingle(events[1..], medium);
    }
  }

  // ---------------------------------------------------------------- dispatch

  datatype SharingMethod = IcsFile | Message | Email | Link

  datatype SharingError = MessageNotAvailable | EmailNotAvailable | ExportFailed

  /** `errorDescription` of each sharing error. */
  function ErrorDescription(e: SharingError): (d: string)
    ensures e.MessageNotAvailable? ==> d == "Messages are not available on this device"
    ensures e.EmailNotAvailable? ==> d == "Email is not configured on this device"
    ensures e.ExportFailed? ==> d == "Failed to export calendar"
  {
    match e
    case MessageNotAvailable => "Messages are not available on this device"
    case EmailNotAvailable => "Email is not configured on this device"
    case ExportFailed => "Failed to export calendar"
  }

  /** An error reaching the completion handler: a sharing error, or the error writing
      the calendar file threw. */
  datatype ShareFailure = Sharing(error: SharingError) | WriteError(message: string)

  /** What the completion handler receives, if it is called at all. */
  datatype Completion = Succeeded | Failed(failure: ShareFailure) | NeverCalled

  /** What the device offers: the compose services, a window with a root view controller,
      and the outcome of writing the temporary calendar file. */
  datatype Device = Device(canSendText: bool, canSendMail: bool, hasRootView: bool, writeError: Option<string>)

  datatype ShareItem = TextItem(text: string) | UrlItem(url: string) | FileItem(name: string, content: string) | DataItem(content: string)

  /** What the manager presents. */
  datatype Presentation =
    | ActivitySheet(items: seq<ShareItem>)
    | MessageComposer(body: string)
    | MailComposer(subject: string, html: string, attachmentName: string, attachment: string)

  datatype Shared = Shared(shown: Option<Presentation>, completion: Completion)

  const IcsFileName: string := "ScheduleShare_Calendar.ics"
  const MailSubject: string := "Shared Calendar - ScheduleShare"
  const MailAttachmentName: string := "calendar.ics"

  const IcsTextPrefix: string := CalendarMark + " Calendar Events ("
  const IcsTextSuffix: string := " events)\n\nImport this .ics file into your calendar app to add all events!"

  /** The text accompanying a shared calendar file: the event count, in decimal, between
      a fixed opening and a fixed closing. */
  function IcsShareText(n: nat): (r: string)
    ensures StartsWith(r, IcsTextPrefix) && EndsWith(r, IcsTextSuffix)
    ensures |r| >= |IcsTextPrefix| + |IcsTextSuffix|
    ensures var digits := r[|IcsTextPrefix|..|r| - |IcsTextSuffix|];
            AllDigits(digits) && ParseNat(digits) == n
  {
    var r := IcsTextPrefix + NatToString(n) + IcsTextSuffix;
    assert r[..|IcsTextPrefix|] == IcsTextPrefix;
    assert r[|r| - |IcsTextSuffix|..] == IcsTextSuffix;
    assert r[|IcsTextPrefix|..|r| - |IcsTextSuffix|] == NatToString(n);
    NatToStringRoundTrip(n);
    r
  }

  /** The items of the general share sheet: the share text, the link when there is one,
      and the calendar data. */
  function LinkItems(events: seq<Event>, f: Formats, ics: string): (r: seq<ShareItem>)
    ensures |r| == 2 + (if ShareableUrl(events, f).Some? then 1 else 0)
    ensures r[0] == TextItem(ShareableText(events, f.medium)) && r[|r| - 1] == DataItem(ics)
  {
    [TextItem(ShareableText(events, f.medium))]
    + (if ShareableUrl(events, f).Some? then [UrlItem(ShareableUrl(events, f).value)] else [])
    + [DataItem(ics)]
  }

  /** What the completion handler of each method's handler receives on a given device:
      the composers report being unavailable, a missing root view is an export failure
      for the composers and leaves the completion uncalled for the share sheets, and
      the calendar file's write error is passed on. */
  function Outcome(via: SharingMethod, device: Device): (c: Completion)
    ensures c == Failed(Sharing(MessageNotAvailable)) <==> via == Message && !device.canSendText
    ensures c == Failed(Sharing(EmailNotAvailable)) <==> via == Email && !device.canSendMail
    ensures c == Failed(Sharing(ExportFailed)) <==>
              !device.hasRootView && ((via == Message && device.canSendText) || (via == Email && device.canSendMail))
    ensures c.Failed? && c.failure.WriteError? <==> via == IcsFile && device.writeError.Some?
    ensures c == NeverCalled <==>
              !device.hasRootView && (via == Link || (via == IcsFile && device.writeError.None?))
  {
    match via
    case IcsFile =>
      if device.writeError.Some? then Failed(WriteError(device.writeError.value))
      else if device.hasRootView then Succeeded else NeverCalled
    case Message =>
      if !device.canSendText then Failed(Sharing(MessageNotAvailable))
      else if device.hasRootView then Succeeded else Failed(Sharing(ExportFailed))
    case Email =>
      if !device.canSendMail then Failed(Sharing(EmailNotAvailable))
      else if device.hasRootView then Succeeded else Failed(Sharing(ExportFailed))
    case Link =>
      if device.hasRootView then Succeeded else NeverCalled
  }

  /** `shareCalendar`: each method goes to its own handler, which presents something
      exactly when it reports success; `uids` are the identifiers the calendar export
      draws. */
  function ShareCalendar(events: seq<Event>, via: SharingMethod, device: Device, f: Formats,
                         uids: seq<string>): (r: Shared)
    requires |uids| == |events|
    ensures r.completion == Outcome(via, device)
    ensures r.shown.Some? <==> r.completion.Succeeded?
  {
    var ics := ExportCalendarEvents(events, uids, f.utc);
    match via
    case IcsFile =>
      if device.writeError.Some? then Shared(None, Failed(WriteError(device.writeError.value)))
      else if device.hasRootView then
        Shared(Some(ActivitySheet([TextItem(IcsShareText(|events|)), FileItem(IcsFileName, ics)])), Succeeded)
      else Shared(None, NeverCalled)
    case Message =>
      if !device.canSendText then Shared(None, Failed(Sharing(MessageNotAvailable)))
      else if device.hasRootView then Shared(Some(MessageComposer(TextSummary(events, f.medium))), Succeeded)
      else Shared(None, Failed(Sharing(ExportFailed)))
    case Email =>
      if !device.canSendMail then Shared(None, Failed(Sharing(EmailNotAvailable)))
      else if device.hasRootView then
        Shared(Some(MailComposer(MailSubject, EmailBody(events, f.medium), MailAttachmentName, ics)), Succeeded)
      else Shared(None, Failed(Sharing(ExportFailed)))
    case Link =>
      if device.hasRootView then Shared(Some(ActivitySheet(LinkItems(events, f, ics))), Succeeded)
      else Shared(None, NeverCalled)
  }

  /** Each method presents its own kind of content: the calendar file, the text summary,
      the e-mail body with the calendar attached, or the share text. */
  lemma SharedContent(events: seq<Event>, via: SharingMethod, device: Device, f: Formats, uids: seq<string>)
    requires |uids| == |events|
    ensures var r := ShareCalendar(events, via, device, f, uids);
            var ics := ExportCalendarEvents(events, uids, f.utc);
            r.shown.Some? ==>
              match via
              case IcsFile => r.shown.value == ActivitySheet([TextItem(IcsShareText(|events|)), FileItem(IcsFileName, ics)])
              case Message => r.shown.value == MessageComposer(TextSummary(events, f.medium))
              case Email => r.shown.value.MailComposer? && r.shown.value.html == EmailBody(events, f.medium)
                            && r.shown.value.attachment == ics
              case Link => r.shown.value.ActivitySheet? && r.shown.value.items[0] == TextItem(ShareableText(events, f.medium))
  {
  }
}

=== FILE: strings.dfy ===
/** Text helpers standing for the Foundation string operations the app uses:
    trimming `.whitespacesAndNewlines`, `hasPrefix`/`hasSuffix`, `contains`,
    `firstIndex(of:)`/`lastIndex(of:)`, `components(separatedBy: .newlines)`,
    `joined(separator:)` and decimal interpolation of integers.
    Strings are sequences of Unicode scalars. */
module Strings {
  import opened Wrappers

  /** Members of `CharacterSet.newlines`. */
  predicate IsNewline(c: char) {
    c == '\n' || c == '\U{0B}' || c == '\U{0C}' || c == '\r'
    || c == '\U{85}' || c == '\U{2028}' || c == '\U{2029}'
  }

  /** Members of `CharacterSet.whitespacesAndNewlines`: the Unicode space separators,
      the tab and the newlines. */
  predicate IsWhitespace(c: char) {
    IsNewline(c) || c == ' ' || c == '\t' || c == '\U{A0}' || c == '\U{1680}'
    || ('\U{2000}' <= c <= '\U{200A}') || c == '\U{202F}' || c == '\U{205F}' || c == '\U{3000}'
  }

  /** Drops leading whitespace. */
  function TrimStart(s: string): (r: string)
    ensures |r| <= |s|
    ensures r == [] || !IsWhitespace(r[0])
    decreases |s|
  {
    if |s| > 0 && IsWhitespace(s[0]) then TrimStart(s[1..]) else s
  }

  /** Drops trailing whitespace. */
  function TrimEnd(s: string): (r: string)
    ensures |r| <= |s|
    ensures r == [] || !IsWhitespace(r[|r| - 1])
    decreases |s|
  {
    if |s| > 0 && IsWhitespace(s[|s| - 1]) then TrimEnd(s[..|s| - 1]) else s
  }

  /** `trimmingCharacters(in: .whitespacesAndNewlines)`. */
  function Trim(s: string): (r: string)
    ensures |r| <= |s|
    ensures r == [] || (!IsWhitespace(r[0]) && !IsWhitespace(r[|r| - 1]))
  {
    var u := TrimStart(s);
    TrimEndIsPrefix(u);
    TrimEnd(u)
  }

  /** `TrimEnd` keeps a prefix. */
  lemma {:induction false} TrimEndIsPrefix(s: string)
    ensures TrimEnd(s) == s[..|TrimEnd(s)|]
    decreases |s|
  {
    if |s| > 0 && IsWhitespace(s[|s| - 1]) {
      TrimEndIsPrefix(s[..|s| - 1]);
      assert s[..|s| - 1][..|TrimEnd(s)|] == s[..|TrimEnd(s)|];
    }
  }

  /** Trimming drops only whitespace, and only at the two ends: the result is a slice
      `s[a..b]` with whitespace before `a` and from `b` on. */
  lemma {:induction false} TrimDropsOnlyWhitespace(s: string)
    ensures exists a, b :: 0 <= a <= b <= |s| && Trim(s) == s[a..b]
                        && (forall i :: 0 <= i < a ==> IsWhitespace(s[i]))
                        && (forall i :: b <= i < |s| ==> IsWhitespace(s[i]))
  {
    var a := TrimStartDropsWhitespace(s);
    var u := s[a..];
    var b := TrimEndDropsWhitespace(u);
    assert Trim(s) == s[a..a + b];
    assert forall i :: a + b <= i < |s| ==> s[i] == u[i - a];
  }

  /** The number of characters `TrimStart` drops, all of them whitespace. */
  lemma {:induction false} TrimStartDropsWhitespace(s: string) returns (a: nat)
    ensures a <= |s| && TrimStart(s) == s[a..]
    ensures forall i :: 0 <= i < a ==> IsWhitespace(s[i])
    decreases |s|
  {
    if |s| > 0 && IsWhitespace(s[0]) {
      var a' := TrimStartDropsWhitespace(s[1..]);
      a := a' + 1;
      assert s[1..][a'..] == s[a..];
      assert forall i :: 1 <= i < a ==> s[i] == s[1..][i - 1];
    } else {
      a := 0;
    }
  }

  /** The length `TrimEnd` keeps; everything after it is whitespace. */
  lemma {:induction false} TrimEndDropsWhitespace(s: string) returns (b: nat)
    ensures b <= |s| && TrimEnd(s) == s[..b]
    ensures forall i :: b <= i < |s| ==> IsWhitespace(s[i])
    decreases |s|
  {
    if |s| > 0 && IsWhitespace(s[|s| - 1]) {
      b := TrimEndDropsWhitespace(s[..|s| - 1]);
      assert s[..|s| - 1][..b] == s[..b];
      assert forall i :: b <= i < |s| - 1 ==> s[i] == s[..|s| - 1][i];
    } else {
      b := |s|;
    }
  }

  /** Trimming a text whose ends are not whitespace changes nothing. */
  lemma TrimKeepsSolidText(s: string)
    requires s == [] || (!IsWhitespace(s[0]) && !IsWhitespace(s[|s| - 1]))
    ensures Trim(s) == s
  {
  }

  /** Trimming twice is trimming once. */
  lemma TrimIdempotent(s: string)
    ensures Trim(Trim(s)) == Trim(s)
  {
    TrimKeepsSolidText(Trim(s));
  }

  predicate StartsWith(s: string, p: string) {
    |p| <= |s| && s[..|p|] == p
  }

  predicate EndsWith(s: string, p: string) {
    |p| <= |s| && s[|s| - |p|..] == p
  }

  /** `p` occurs in `s` at position `i`. */
  predicate OccursAt(s: string, p: string, i: int) {
    0 <= i && i + |p| <= |s| && s[i..i + |p|] == p
  }

  /** Substring search, as `String.contains(_:)`. */
  predicate Contains(s: string, p: string) {
    exists i | 0 <= i <= |s| - |p| :: OccursAt(s, p, i)
  }

  /** A text contains whatever it starts with. */
  lemma StartsWithContains(s: string, p: string)
    requires StartsWith(s, p)
    ensures Contains(s, p)
  {
    assert OccursAt(s, p, 0);
  }

  /** `firstIndex(of: c)`. */
  function FirstIndexOf(s: string, c: char): (r: Option<nat>)
    ensures r.None? <==> c !in s
    ensures r.Some? ==> r.value < |s| && s[r.value] == c
    ensures r.Some? ==> forall j :: 0 <= j < r.value ==> s[j] != c
  {
    if |s| == 0 then None
    else if s[0] == c then Some(0)
    else
      match FirstIndexOf(s[1..], c)
      case None => None
      case Some(i) => Some(i + 1)
  }

  /** The first occurrence is the unique position holding `c` with no `c` before it. */
  lemma FirstIndexOfAt(s: string, c: char, i: nat)
    requires i < |s| && s[i] == c
    requires forall j :: 0 <= j < i ==> s[j] != c
    ensures FirstIndexOf(s, c) == Some(i)
  {
  }

  /** `lastIndex(of: c)`. */
  function LastIndexOf(s: string, c: char): (r: Option<nat>)
    ensures r.None? <==> c !in s
    ensures r.Some? ==> r.value < |s| && s[r.value] == c
    ensures r.Some? ==> forall j :: r.value < j < |s| ==> s[j] != c
  {
    if |s| == 0 then None
    else if s[|s| - 1] == c then Some(|s| - 1)
    else
      match LastIndexOf(s[..|s| - 1], c)
      case None => None
      case Some(i) => Some(i)
  }

  /** The last occurrence is the unique position holding `c` with no `c` after it. */
  lemma LastIndexOfAt(s: string, c: char, i: nat)
    requires i < |s| && s[i] == c
    requires forall j :: i < j < |s| ==> s[j] != c
    ensures LastIndexOf(s, c) == Some(i)
  {
  }

  /** Number of newline characters in `s`. */
  function NewlineCount(s: string): nat {
    if |s| == 0 then 0 else (if IsNewline(s[0]) then 1 else 0) + NewlineCount(s[1..])
  }

  /** `components(separatedBy: .newlines)`: every newline character separates two
      components, so `k` newlines give `k + 1` components, none holding a newline. */
  function Lines(s: string): (r: seq<string>)
    ensures |r| == NewlineCount(s) + 1
    ensures forall k, j :: 0 <= k < |r| && 0 <= j < |r[k]| ==> !IsNewline(r[k][j])
    decreases |s|
  {
    if |s| == 0 then [""]
    else if IsNewline(s[0]) then [""] + Lines(s[1..])
    else
      var rest := Lines(s[1..]);
      [[s[0]] + rest[0]] + rest[1..]
  }

  /** `joined(separator:)`. */
  function Join(parts: seq<string>, sep: string): string
    decreases |parts|
  {
    if |parts| == 0 then ""
    else if |parts| == 1 then parts[0]
    else parts[0] + sep + Join(parts[1..], sep)
  }

  /** Joining splits at the seam between two non-empty lists of parts. */
  lemma {:induction false} JoinAppend(a: seq<string>, b: seq<string>, sep: string)
    requires |a| > 0 && |b| > 0
    ensures Join(a + b, sep) == Join(a, sep) + sep + Join(b, sep)
    decreases |a|
  {
    if |a| == 1 {
      assert (a + b)[1..] == b;
    } else {
      assert (a + b)[1..] == a[1..] + b;
      JoinAppend(a[1..], b, sep);
    }
  }

  /** Joining with a non-empty separator gives the empty text exactly for no parts
      or a single empty part. */
  lemma JoinEmptyIff(parts: seq<string>, sep: string)
    requires |sep| > 0
    ensures Join(parts, sep) == "" <==> (|parts| == 0 || parts == [""])
  {
    if |parts| >= 2 {
      assert |Join(parts, sep)| >= |sep|;
    }
  }

  /** Decimal digits of a natural number, most significant first. */
  function NatToString(n: nat): (r: string)
    ensures |r| > 0
    ensures forall i :: 0 <= i < |r| ==> '0' <= r[i] <= '9'
    decreases n
  {
    if n < 10 then ["0123456789"[n]] else NatToString(n / 10) + ["0123456789"[n % 10]]
  }

  /** Swift's string interpolation of an `Int`. */
  function IntToString(i: int): string {
    if i < 0 then "-" + NatToString(-i) else NatToString(i)
  }

  predicate AllDigits(s: string) {
    forall i :: 0 <= i < |s| ==> '0' <= s[i] <= '9'
  }

  /** Value of a text of decimal digits. */
  function ParseNat(s: string): nat
    requires AllDigits(s)
    decreases |s|
  {
    if |s| == 0 then 0 else 10 * ParseNat(s[..|s| - 1]) + ((s[|s| - 1] as int) - ('0' as int))
  }

  /** Printing a natural number in decimal and reading it back gives the number. */
  lemma {:induction false} NatToStringRoundTrip(n: nat)
    ensures ParseNat(NatToString(n)) == n
    decreases n
  {
    var s := NatToString(n);
    if n >= 10 {
      var prefix := NatToString(n / 10);
      assert s[..|s| - 1] == prefix;
      NatToStringRoundTrip(n / 10);
    }
  }

  /** `s` holds no newline character, so it prints as a single line. */
  predicate SingleLine(s: string) {
    forall j :: 0 <= j < |s| ==> !IsNewline(s[j])
  }

  /** Each line followed by a line feed: the text `text += line + "\n"` builds. */
  function Unlines(lines: seq<string>): string
    decreases |lines|
  {
    if |lines| == 0 then "" else lines[0] + "\n" + Unlines(lines[1..])
  }

  /** A single line splits into itself. */
  lemma {:induction false} LinesOfSingleLine(a: string)
    requires SingleLine(a)
    ensures Lines(a) == [a]
    decreases |a|
  {
    if |a| > 0 {
      assert !IsNewline(a[0]);
      LinesOfSingleLine(a[1..]);
      assert [a[0]] + a[1..] == a;
    }
  }

  /** A single line ended by a line feed splits off as the first line. */
  lemma {:induction false} LinesAfterLine(a: string, b: string)
    requires SingleLine(a)
    ensures Lines(a + "\n" + b) == [a] + Lines(b)
    decreases |a|
  {
    var s := a + "\n" + b;
    if |a| == 0 {
      assert s == "\n" + b;
      assert IsNewline(s[0]) && s[1..] == b;
    } else {
      assert s[0] == a[0] && !IsNewline(s[0]);
      assert s[1..] == a[1..] + "\n" + b;
      LinesAfterLine(a[1..], b);
      assert [a[0]] + a[1..] == a;
    }
  }

  /** Splitting terminated single lines followed by more text gives the lines back,
      then the lines of the rest. */
  lemma {:induction false} LinesOfUnlines(lines: seq<string>, rest: string)
    requires forall k :: 0 <= k < |lines| ==> SingleLine(lines[k])
    ensures Lines(Unlines(lines) + rest) == lines + Lines(rest)
    decreases |lines|
  {
    if |lines| > 0 {
      var tail := Unlines(lines[1..]);
      assert Unlines(lines) == lines[0] + "\n" + tail;
      assert Unlines(lines) + rest == lines[0] + "\n" + (tail + rest);
      assert forall k :: 0 <= k < |lines[1..]| ==> SingleLine(lines[1..][k]);
      calc {
        Lines(Unlines(lines) + rest);
        Lines(lines[0] + "\n" + (tail + rest));
        { LinesAfterLine(lines[0], tail + rest); }
        [lines[0]] + Lines(tail + rest);
        { LinesOfUnlines(lines[1..], rest); }
        [lines[0]] + (lines[1..] + Lines(rest));
        { assert [lines[0]] + lines[1..] == lines; }
        lines + Lines(rest);
      }
    } else {
      assert Unlines(lines) + rest == rest;
    }
  }

  /** Terminated lines concatenate like the lists of lines. */
  lemma {:induction false} UnlinesAppend(a: seq<string>, b: seq<string>)
    ensures Unlines(a + b) == Unlines(a) + Unlines(b)
    decreases |a|
  {
    if |a| > 0 {
      assert (a + b)[1..] == a[1..] + b;
      UnlinesAppend(a[1..], b);
    } else {
      assert a + b == b;
    }
  }

  /** Joining with line feeds terminates every line but the last. */
  lemma {:induction false} JoinIsUnlines(lines: seq<string>)
    requires |lines| > 0
    ensures Join(lines, "\n") == Unlines(lines[..|lines| - 1]) + lines[|lines| - 1]
    decreases |lines|
  {
    if |lines| > 1 {
      JoinIsUnlines(lines[1..]);
      assert lines[1..][..|lines| - 2] == lines[..|lines| - 1][1..];
    }
  }
}

=== FILE: wrappers.dfy ===
/** Failure-compatible wrapper types shared by every module of the model.
    `Option` stands for a Swift optional, `Result` for Swift's `Result<Success, Failure>`. */
module Wrappers {

  datatype Option<+T> = None | Some(value: T) {

    /** Swift's `x ?? default`. */
    function GetOr(default: T): T {
      match this
      case Some(v) => v
      case None => default
    }
  }

  datatype Result<+R, +E> = Success(value: R) | Failure(error: E) {

    predicate IsFailure() {
      Failure?
    }
  }
}
